=== FILE: README.md ===
# Apoia Certo — a verified model of its rules

Apoia Certo is a browser application where backers report crowdfunding
projects that were delivered late, or never. A site administrator moderates
the reports. Companies answer them. A public ranking orders companies by
their average delay. This project models, in Dafny, the logic of the root
controller (`App.tsx`) and of the components that compute or validate
something, and proves what those rules promise:

- **Duplicate detection.** Reports are grouped by a normalised link: hostname
  followed by pathname, with one trailing "/" removed. Links that do not parse
  and dismissed keys are skipped. Only groups of two or more are returned.
  The dashboard's dismiss key is the detector's key.
- **Reputation ranking.** Only approved reports count, grouped per company.
  Each company gets its mean delay and mean rating. The list is sorted by
  delay, with more reports first on ties. The companies are collected in a
  plain object, so before sorting they come in `Object.entries` order
  (module `PlainObject`): names that are array indices first, ascending, then
  the others in order of first approval. A company named after a property
  every object inherits, such as "constructor", makes the ranking throw.
- **Company and project pages.** These cover the statistics, the
  would-buy-again share (unanswered reports are excluded), per-project
  aggregation, search filters, and the delay text. The delay text
  (`formatDelay`) is one definition, `Delay.FormatDelay`. It stands for the
  three identical copies in `components/CompanyDetailPage.tsx:28-56`,
  `components/ProjectDetailPage.tsx:25-53` and
  `components/ProjectCard.tsx:17-45`.
- **Controller handlers.** Each handler is a method of the class
  `Controller.App`. Its contract states the whole new state, so "nothing else
  changes" is proved every time. The handlers also keep two invariants: every
  report's company is a known company, and no two users share an e-mail.
- **Merge dialog.** A duplicate group is merged field by field from the
  chosen reports. The three text fields are concatenated, the rating is the
  mean, and the record gets a fresh id.
- **Forms and small state machines.** These are the new-report form, the
  report and user editors, login, registration, the account page, the user
  and company dashboards' cards, the star widgets and the API-key panel. Each
  is a class whose fields are the component's state, with one method per
  handler. The validation chains are pure functions whose contracts give the
  order of the checks.

Modelling conventions:

- Dates are whole day numbers (`Domain.Day`), and "now" is a `real` day
  number passed as a parameter.
- An empty date box and an absent date are both `None`.
- Optional strings are `Option<string>`, and JavaScript truthiness is
  `Domain.Present`.
- Ratings and averages are `real`.
- `new URL(...)` is a parameter `parse` that returns `Some((hostname,
  pathname))` or `None`.
- Timestamps (`Date.now()`) are `nat` parameters.
- A component's callback to its parent becomes the method's out-parameter.
- A handler that can only be reached through a control the component shows
  conditionally has that condition as its precondition.

## Model

| member | source | states |
|---|---|---|
| Domain.SimpleHash | App.tsx:23 | the hash is the password followed by "_hashed" (length and prefix) |
| Domain.SimpleHashInjective | components/Login.tsx:10 | two passwords with the same hash are equal, so the login page's hash and the controller's agree on one password |
| Domain.FindUser | components/Login.tsx:19 | `users.find` by e-mail: none iff no user has the e-mail; otherwise the first user with it |
| Domain.FindById | App.tsx:253 | `projects.find` by id: none iff no report has the id; otherwise the first report with it |
| Text.SortStringsCorrect | App.tsx:406 | the default string sort returns the same names (as a multiset) in ascending order |
| Text.TrimEmptyIff | App.tsx:130-131 | a key trims to "" exactly when it is all white space |
| Text.FirstToken | components/SiteAdminDashboard.tsx:67 | `split(' ')[0]` is a space-free prefix followed by a space or the end |
| Text.UpperCase | components/ProjectDetailPage.tsx:57 | `toUpperCase` of one character is one character, except that "ß" becomes the two characters "SS"; capitals are kept |
| Text.UpperCaseIdempotent | components/ProjectDetailPage.tsx:57 | every character `UpperCase` produces is its own upper case |
| Text.UpperCaseExamples | components/ProjectDetailPage.tsx:57 | "é" gives "É", "ç" gives "Ç" and "ß" gives "SS"; "÷" and digits are kept |
| Text.NatToString | App.tsx:241 | the decimal rendering of the timestamp is non-empty and all digits |
| Grouping.GroupBy | App.tsx:410-420 | the forEach that fills a Map: the keys are in first-seen order, and each bucket holds exactly that key's elements in input order |
| Grouping.BucketsMembership | App.tsx:422 | `Array.from(map.values())` holds exactly the buckets of the keys that occur |
| Grouping.MembersIsSubsequence | App.tsx:419 | pushing keeps each bucket in input order |
| Grouping.BucketSizesDropLast | components/CompanyDetailPage.tsx:85-91 | pushing the last element adds one to the buckets' total size exactly when its key is one of the keys counted |
| Grouping.BucketSizesTotal | components/CompanyDetailPage.tsx:85-91 | the buckets partition the keyed elements: their sizes add up to the number of keyed elements |
| Duplicates.StripTrailingSlash | App.tsx:414 | `.replace(/\/$/, "")` removes exactly one final "/" and nothing else |
| Duplicates.NormalizeLink | App.tsx:413-414 | none iff the link does not parse; otherwise hostname+pathname with the trailing "/" removed |
| Duplicates.DetectorKey | App.tsx:412-420 | a report gets a key iff its link parses and the key is not dismissed |
| Duplicates.FindDuplicateGroups | App.tsx:409-423 | the loop that fills the link map and keeps the buckets of two or more returns exactly `DuplicateGroups` |
| Duplicates.DuplicateGroupsMembership | App.tsx:418-422 | a sequence is a group iff it is the full bucket of some key and has more than one report |
| Duplicates.GroupsShareKey | App.tsx:418-422 | every group has at least two reports, all from the input in input order, all with the same key |
| Duplicates.GroupsDisjoint | App.tsx:410-422 | two groups sharing a report are the same group, and no group is listed twice |
| Duplicates.GroupedIff | App.tsx:411-422 | a report is grouped iff its key exists and at least two reports of any status share it |
| Duplicates.SkippedNotGrouped | App.tsx:416-420 | a report whose link does not parse, or whose key is dismissed, is in no group |
| SiteAdmin.GetNormalizedUrl | components/SiteAdminDashboard.tsx:70-77 | the detector's normalised link for a parsable link; the link itself otherwise |
| SiteAdmin.GroupKeyIsDetectorKey | components/SiteAdminDashboard.tsx:119 | the key the dashboard derives from a group's first report is the detector key of every report in the group |
| SiteAdmin.DismissRemovesGroup | components/SiteAdminDashboard.tsx:133 | dismissing that key removes exactly that group: every other group stays, and no new one appears |
| SiteAdmin.GetUserFirstName | components/SiteAdminDashboard.tsx:65-68 | the first word of the user's full name, or the e-mail of an unknown user |
| SiteAdmin.ApiKeyPanel.constructor | components/SiteAdminDashboard.tsx:63 | the key field starts empty and nothing has been saved |
| SiteAdmin.ApiKeyPanel.Edit | components/SiteAdminDashboard.tsx:226 | typing sets the field and saves nothing |
| SiteAdmin.ApiKeyPanel.Save | components/SiteAdminDashboard.tsx:79-82 | the field is passed on as typed and kept |
| SiteAdmin.ApiKeyPanel.Remove | components/SiteAdminDashboard.tsx:84-88 | the field is cleared and "" is saved |
| PlainObject.PropertyOrderPermutes | App.tsx:433 | `Object.entries` lists every key of the object once, and only those |
| PlainObject.PropertyOrderIndicesFirst | App.tsx:433 | keys that are array indices come before all other keys, in ascending numeric order |
| PlainObject.PropertyOrderKeepsOthers | App.tsx:433 | the keys that are not array indices keep their creation order |
| PlainObject.NumericKeysAscend | App.tsx:433 | keys "10" then "9" are listed "9", "10" |
| PlainObject.NumericKeysFirst | App.tsx:433 | keys "b", "1", "a" are listed "1", "b", "a" |
| PlainObject.LeadingZeroIsStringKey | App.tsx:433 | "01" is an ordinary key and "0" an array index |
| Reputation.ContributedDelay | App.tsx:434-439 | a delivered report adds actual − promised, which may be negative; an undelivered one adds max(0, now − promised) |
| Reputation.Delays | App.tsx:434 | one contributed delay per report, in order |
| Reputation.Entries | App.tsx:427-450 | one entry per company in `CompanyOrder`, the order in which `Object.entries` lists the companies |
| Reputation.CalculateAllReputations | App.tsx:425-453 | throws (`None`) iff an approved report names a company after a property inherited from `Object.prototype`; otherwise the filter, the bucket loop, the entries in `Object.entries` order and the sort return exactly `AllReputations` |
| Reputation.InheritedCompanyIff | App.tsx:428-431 | the bucket loop meets an inherited name iff some approved report carries one |
| Reputation.CompanyOrderMembers | App.tsx:427-433 | `Object.entries` lists exactly the companies with an approved report, each once |
| Reputation.EntriesOrder | App.tsx:427-433 | before sorting, companies named by array indices come first by ascending number, and the others follow in order of their first approved report |
| Reputation.PrecedesTotalPreorder | App.tsx:452 | the comparator is a total preorder, so the sort is well defined |
| Reputation.ReputationsSorted | App.tsx:452 | the ranking is a permutation of the per-company entries, sorted by the comparator |
| Reputation.ReputationsOrder | App.tsx:452 | average delays never decrease along the ranking; on equal delays the count never increases |
| Reputation.EntryAt | App.tsx:433-450 | the i-th entry is built from exactly the approved reports of the i-th company `Object.entries` lists |
| Reputation.EntryContents | App.tsx:441-449 | an entry lists exactly its company's approved reports; its count is their number, its averages are their mean delay and mean rating, and it carries the cached analysis and loading flag |
| Reputation.EntryDeterminedByName | App.tsx:433-450 | an entry is determined by its company name |
| Reputation.OneEntryPerCompany | App.tsx:426-431 | a company has an entry iff it has at least one approved report |
| Reputation.ApprovedReportHasEntry | App.tsx:428-433 | the company of every approved report has an entry |
| Reputation.EntriesNoRepeats | App.tsx:433 | no entry appears twice |
| Reputation.NamesDistinct | App.tsx:427-433 | no company appears twice in the ranking |
| Reputation.AverageRatingBounds | App.tsx:440-446 | with ratings in [0, 5], every average rating is in [0, 5] |
| Reputation.UndeliveredDelayNonNegative | App.tsx:435 | a company whose approved projects are all undelivered never has a negative average delay |
| Delay.Round | components/CompanyDetailPage.tsx:29 | `Math.round`: the nearest integer, halves rounded up |
| Delay.RoundInt | components/CompanyDetailPage.tsx:25 | rounding an integer gives it back |
| Delay.RenderHalves | components/CompanyDetailPage.tsx:43 | `toLocaleString('pt-BR')` of a half step: "n" or "n,5" |
| Delay.CalculateDelay | components/CompanyDetailPage.tsx:21-26 | whole days from promise to delivery (or to now, rounded); early deliveries are negative |
| Delay.YearsPart | components/CompanyDetailPage.tsx:36-39 | at least a year: the year count is the floor of days/365.25; the months, counted in halves as h, are the remaining days over 30.44 rounded to the nearest half month (h is within ½ of 2·remainder/30.44, as `Math.round` gives), at most 12 months |
| Delay.FormatMagnitude | components/CompanyDetailPage.tsx:36-55 | the text for a non-zero delay starts with a digit |
| Delay.OnTimeIff | components/CompanyDetailPage.tsx:29-30 | the text is "Em dia" iff the delay rounds to 0 days |
| Delay.FormatWholeDays | components/CompanyDetailPage.tsx:28-34 | a whole non-zero number of days reads as its magnitude, followed by " adiantado" when negative |
| Delay.EarlyMirrorsLate | components/CompanyDetailPage.tsx:32-34 | an early delay reads as the same late delay followed by " adiantado" |
| Delay.DaysBranch | components/ProjectDetailPage.tsx:52 | 1 to 29 days read "n dia" for 1 and "n dias" otherwise |
| Delay.MonthsBranch | components/ProjectDetailPage.tsx:45-50 | 30 to 365 days read as half-rounded months between 1 and 12, "mês" exactly for 1 |
| Delay.YearsBranch | components/ProjectCard.tsx:25-35 | 366 days or more read as years with "a", plus " Xm" only when the remaining months, rounded to the nearest half month, are not 0; the rounding is pinned down by the same bounds as in `YearsPart` |
| Delay.ExamplesOnTime | components/ProjectCard.tsx:18-19 | 0.4 and −0.5 days are "Em dia", because rounding happens before the zero test |
| Delay.ExamplesDays | components/CompanyDetailPage.tsx:55 | 1 day is "1 dia"; −3 days is "3 dias adiantado" |
| Delay.ExampleOneMonth | components/CompanyDetailPage.tsx:48-52 | 30 days is "1 mês" |
| Delay.ExampleMonthAndHalf | components/CompanyDetailPage.tsx:48-52 | 51 days is "1,5 meses" |
| Delay.ExamplesYears | components/CompanyDetailPage.tsx:36-45 | 400 days is "1a 1m"; 366 days is "1a" |
| Delay.TwelveMonthsNotCarried | components/CompanyDetailPage.tsx:36-45 | 730 days is "1a 12m": twelve rounded months are not carried into the years |
| Delay.ColorOf | components/CompanyDetailPage.tsx:111 | red iff above 90 days, amber iff in (30, 90], green iff at most 30 |
| Delay.ColorMonotone | components/ProjectCard.tsx:52 | a longer delay never gets a milder colour |
| Metrics.Ratings | components/CompanyDetailPage.tsx:67 | one rating per report, in order |
| Metrics.PageDelays | components/CompanyDetailPage.tsx:68 | one `calculateDelay` per report, in order |
| Metrics.BuyAgainPercentage | components/CompanyDetailPage.tsx:71-73 | the would-buy-again share is a percentage in [0, 100] |
| Metrics.BuyAgainIgnoresUnanswered | components/CompanyDetailPage.tsx:71 | an unanswered report changes neither the share nor the number of answers |
| Metrics.BuyAgainFullIff | components/CompanyDetailPage.tsx:71-73 | the share is 100 iff someone answered and every answer is yes |
| Metrics.BuyAgainCountsYes | components/CompanyDetailPage.tsx:72 | exactly the reports answered yes count towards the share |
| Metrics.CompanyStats | components/CompanyDetailPage.tsx:63-82 | the on-time and would-buy-again percentages are in [0, 100] |
| Metrics.CompanyStatsEmpty | components/CompanyDetailPage.tsx:64-66 | with no approved report every figure is 0 |
| Metrics.OnTimeFullIff | components/CompanyDetailPage.tsx:69-78 | the on-time share is 100 iff every approved report has a delay of at most 0 |
| Metrics.CompanyStatsRatingBounds | components/CompanyDetailPage.tsx:76 | with ratings in [0, 5] the average rating is in [0, 5] |
| Metrics.EarlyDeliveryNegative | components/CompanyDetailPage.tsx:68 | delays are not clamped: one early delivery gives a negative average delay and 100% on time |
| CompanyDetail.ApprovedProjects | components/CompanyDetailPage.tsx:61 | exactly the approved reports |
| CompanyDetail.AggregatedProjects | components/CompanyDetailPage.tsx:93-103 | one row per distinct project name |
| CompanyDetail.ComputeAggregatedProjects | components/CompanyDetailPage.tsx:84-104 | the for-of loop that fills the map by project name, followed by the row mapping, returns exactly `AggregatedProjects` |
| CompanyDetail.TotalIsBucketSizes | components/CompanyDetailPage.tsx:94 | the rows' counts are the bucket sizes |
| CompanyDetail.EveryReportHasAName | components/CompanyDetailPage.tsx:87 | every approved report falls into some bucket |
| CompanyDetail.ComplaintsSumToApproved | components/CompanyDetailPage.tsx:84-103 | the complaint counts add up to the number of approved reports |
| CompanyDetail.RowAt | components/CompanyDetailPage.tsx:93-103 | row i is named by the i-th first-seen name, and its count and average delay are those of exactly the approved reports with that name |
| CompanyDetail.AggregateRows | components/CompanyDetailPage.tsx:93-103 | each row covers exactly the approved reports with its name; its count is their number and its average delay their mean; no name has two rows, and every approved report's name has one |
| CompanyDetail.FilteredProjectsSpec | components/CompanyDetailPage.tsx:106-108 | keeps exactly the rows whose name contains the term (ignoring case), in order; an empty term keeps all |
| ProjectDetail.SubmissionsSpec | components/ProjectDetailPage.tsx:117-123 | exactly the reports with both names, in order; only the approved ones enter the metrics |
| ProjectDetail.ComputeMetrics | components/ProjectDetailPage.tsx:125-147 | with no approved report all figures are 0; the share is in [0, 100] |
| ProjectDetail.MetricsAgreeWithCompanyStats | components/ProjectDetailPage.tsx:130-147 | the project page computes the same means and share as the company page |
| ProjectDetail.CrowdfundingLinkSpec | components/ProjectDetailPage.tsx:149 | "#" when no report matches; otherwise the first matching report's link, whatever its status |
| ProjectDetail.SubmitterDisplay | components/ProjectDetailPage.tsx:56-57 | "Anônimo" iff the user is unknown; otherwise the upper case of the name's first character (one or two characters, none for an empty name) followed by "." |
| ProjectCard.RankColor | components/ProjectCard.tsx:51 | ranks 1, 2 and 3 each get their own colour; every other rank gets the default |
| ProjectCard.CanGenerateAnalysisNeeds | components/ProjectCard.tsx:54 | the analysis button needs a site admin and a non-empty key, and is never offered while an analysis exists or is loading |
| ProjectList.FilteredReputationsSpec | components/ProjectList.tsx:17-23 | keeps exactly the reputations whose name, or some report's link, contains the term (ignoring case), in order; an empty term keeps all |
| ProjectList.Cards | components/ProjectList.tsx:46-50 | one card per visible reputation |
| ProjectList.CardRanks | components/ProjectList.tsx:46-50 | ranks are positions in the filtered list plus 1, so the first three visible cards get the podium colours |
| Stars.Fills | components/StarRatingDisplay.tsx:14-21 | the i-th value is star i's fill |
| Stars.StarFills | components/StarRatingDisplay.tsx:14 | exactly five fills |
| Stars.FillRange | components/StarRatingDisplay.tsx:15-21 | each fill is in [0, 100]; 100 iff rating ≥ i+1; 0 iff rating ≤ i |
| Stars.FillNonIncreasing | components/StarRatingDisplay.tsx:14-21 | fills never increase from left to right |
| Stars.FillsSum | components/StarRatingDisplay.tsx:16-21 | the first n fills add up to 100·min(rating, n) |
| Stars.StarFillsSum | components/StarRatingDisplay.tsx:16-21 | for a rating in [0, 5] the five fills add up to 100·rating |
| Stars.StopOffset | components/icons/StarIcon.tsx:11 | the offset is in [0, 100] |
| Stars.StopOffsetCases | components/icons/StarIcon.tsx:11 | values in [0, 100] pass unchanged; negative ones give 0 and ones above 100 give 100 |
| Stars.StopOffsetMonotone | components/icons/StarIcon.tsx:11 | the clamp is monotone |
| Stars.FillsNeedNoClamp | components/icons/StarIcon.tsx:11 | every star fill passes the clamp unchanged |
| Stars.StarRatingInput.constructor | components/StarRatingInput.tsx:11 | no hover at first, so the hover invariant holds |
| Stars.StarRatingInput.MouseMove | components/StarRatingInput.tsx:13-17 | hover is index + 0.5 on a star's left half and index + 1 otherwise, so always a half step from 0.5 to 5 |
| Stars.StarRatingInput.Click | components/StarRatingInput.tsx:19-21 | the hovered value becomes the rating, which is therefore 0 or a half step between 0.5 and 5; the hover invariant is kept |
| Stars.StarRatingInput.MouseLeave | components/StarRatingInput.tsx:24 | hover goes back to 0 |
| Stars.StarRatingInput.DisplayedFills | components/StarRatingInput.tsx:26-33 | five fills, by the display component's rule, of the displayed rating |
| Stars.DisplayFollowsHover | components/StarRatingInput.tsx:26 | the hovered value is shown while there is one, the committed rating otherwise |
| Stars.HoverThenClick | components/StarRatingInput.tsx:13-33 | hovering star i and clicking commits a half or whole step that fills every earlier star |
| Merge.AllFieldsComplete | components/MergeSubmissionModal.tsx:81 | the field list covers every key of a report |
| Merge.KeysOf | components/MergeSubmissionModal.tsx:67 | `for...in` visits exactly the keys the report has; id and status are always among them |
| Merge.InitialSelections | components/MergeSubmissionModal.tsx:65-72 | every key of the first report, id and status included, points at the first report's id |
| Merge.Copied | components/MergeSubmissionModal.tsx:80-88 | after the loop, each field holds the chosen report's value, or the default |
| Merge.Texts | components/MergeSubmissionModal.tsx:91-93 | the non-empty texts of a field, in report order |
| Merge.Ids | components/MergeSubmissionModal.tsx:102 | the ids to remove are all members' ids, in order |
| Merge.UntouchedSelectionsCopyFirst | components/MergeSubmissionModal.tsx:65-88 | with the initial selections, every field apart from the overwritten ones is the first report's; the status overrides the Approved default |
| Merge.SelectedFieldComesFromChosenReport | components/MergeSubmissionModal.tsx:82-86 | a field selected from a report is that report's value |
| Merge.UnknownSelectionKeepsDefault | components/MergeSubmissionModal.tsx:80-86 | a selection naming no report leaves the default: status Approved, any other field absent |
| Merge.JoinEmptyIff | components/MergeSubmissionModal.tsx:91 | joining non-empty parts gives "" only for no parts |
| Merge.TextsEmptyIff | components/MergeSubmissionModal.tsx:91 | no texts iff no report has a non-empty text |
| Merge.CombinedEmptyIff | components/MergeSubmissionModal.tsx:91-93 | a combined field is "" iff no report has that text |
| Merge.CombinedSingle | components/MergeSubmissionModal.tsx:91-93 | with exactly one text, the combined field is that text with no separator |
| Merge.MergedRatingBounds | components/MergeSubmissionModal.tsx:96-97 | the rating is the exact mean (0 for none), within the bounds every member's rating keeps |
| Merge.MergedIdIsFresh | components/MergeSubmissionModal.tsx:100 | the id is "merged-" followed by the timestamp, whatever id was selected |
| Merge.SetOption | components/MergeSubmissionModal.tsx:27 | `Map.set`: an existing value keeps its place and takes the new id; a new value goes last; values stay distinct |
| Merge.Options | components/MergeSubmissionModal.tsx:21-29 | the options are distinct values |
| Merge.OfferedValuesDropLast | components/MergeSubmissionModal.tsx:25-28 | the last report adds its offered value, if any, to those of the earlier reports |
| Merge.OptionsValues | components/MergeSubmissionModal.tsx:21-29 | the options are exactly the distinct non-empty values offered |
| Merge.LastHolderExtend | components/MergeSubmissionModal.tsx:27 | a later report without the value leaves its last holder unchanged |
| Merge.PointsStep | components/MergeSubmissionModal.tsx:25-28 | one forEach step keeps every option pointing at its last holder |
| Merge.OptionsPointAtLastHolder | components/MergeSubmissionModal.tsx:21-29 | every option points at the last report offering its value |
| Merge.DistinctValuesCount | components/MergeSubmissionModal.tsx:31 | the option count is the number of distinct values |
| Merge.SelectorChoiceIff | components/MergeSubmissionModal.tsx:31-40 | radio options are shown iff the reports offer at least two distinct values |
| Merge.SelectorAgreeingReports | components/MergeSubmissionModal.tsx:31-35 | when all reports offer one value, it is shown read-only |
| Merge.FieldSelectorOptions | components/MergeSubmissionModal.tsx:21-29 | the forEach that fills the options Map returns exactly `Options` |
| Merge.MergeDialog.constructor | components/MergeSubmissionModal.tsx:64-72 | the selections start as `InitialSelections` |
| Merge.MergeDialog.HandleFieldChange | components/MergeSubmissionModal.tsx:74-76 | only the field's selection changes, to the chosen report's id |
| Merge.DraftStart | components/MergeSubmissionModal.tsx:80 | before the loop the record holds only the Approved status |
| Merge.DraftStep | components/MergeSubmissionModal.tsx:82-86 | one pass of the loop sets the field to the selected report's value, removes it when that report lacks the value, and changes nothing when the report is gone |
| Merge.SlotsStep | components/MergeSubmissionModal.tsx:81-86 | handling one field changes that field's slot alone |
| Merge.DraftDone | components/MergeSubmissionModal.tsx:81-88 | once every selected field is handled, the record holds exactly the chosen values |
| Merge.MergeDialog.HandleSubmit | components/MergeSubmissionModal.tsx:78-103 | the loop builds exactly `Merged` (chosen fields, joined texts, mean rating, fresh id) and passes all member ids |
| Controller.ReplaceById | App.tsx:264 | the report with the id is replaced and every other report is unchanged, in place |
| Controller.ReplaceUnknownIdIsNoOp | App.tsx:281 | replacing an unknown id changes nothing |
| Controller.ReplaceKeepsIds | App.tsx:325 | a replacement that keeps the id keeps every id in place |
| Controller.ReplaceUserByEmail | App.tsx:377 | the user with the e-mail is replaced and every other user is unchanged |
| Controller.AddFreshUserKeepsEmailsDistinct | App.tsx:198-210 | adding a user with an unused e-mail keeps e-mails unique |
| Controller.ReplaceUserKeepsEmails | App.tsx:390 | replacing a user by one with the same e-mail keeps every e-mail, and their uniqueness |
| Controller.EnsureCompany | App.tsx:232-237 | the name becomes known; an existing name changes nothing; otherwise exactly that company is appended |
| Controller.ReplaceKeepsCompaniesCovered | App.tsx:302-309 | registering the edited report's company keeps every report's company known |
| Controller.AppendKeepsCompaniesCovered | App.tsx:232-246 | registering a new report's company keeps every report's company known |
| Controller.ReplaceWithinCompanyKeepsCovered | App.tsx:279-281 | a replacement within the same company keeps every report's company known |
| Controller.EditedUser | App.tsx:369-374 | the form's fields overwrite the user's; the hash changes only when a password was typed, to its hash |
| Controller.UpdatedAccount | App.tsx:385-388 | only the name changes, and the hash when a password is given |
| Controller.NavigationTarget | App.tsx:190-194 | a visitor asking for the dashboard or the form is sent to the login page; otherwise the view asked for |
| Controller.StoredApiKey | App.tsx:129-137 | a stored key is the trimmed key, and never "" |
| Controller.StoredApiKeyRemovedIffBlank | App.tsx:130-136 | the key is removed iff it is all white space; a stored key does not start with white space |
| Controller.AnalysisOf | App.tsx:171-177 | the reply's text is kept, and it is an error iff it starts with "Erro:"; a failed call is an error |
| Controller.OfferedAnalysisPassesKeyGuard | App.tsx:141-146 | whenever the card offers the analysis, the key guard passes |
| Controller.InFlightAnalysisNotOffered | App.tsx:148 | while a company is marked loading, its ranking entry says so and its card does not offer the analysis to anyone |
| Controller.PendingAndManagedPartition | App.tsx:399-400 | pending and decided reports partition the reports |
| Controller.ApprovalLeavesQueue | App.tsx:263-266 | approval takes the report out of the queue and puts nothing in; it is then among the decided reports |
| Controller.AllCompanyNames | App.tsx:403-405 | exactly the company names of the reports and of the companies |
| Controller.UniqueCompanyNamesCorrect | App.tsx:402-407 | each such name exactly once, in ascending order |
| Controller.App.constructor | App.tsx:71-102 | the loaded data, the public view, and nobody logged in |
| Controller.App.Navigate | App.tsx:187-195 | selections cleared and the view set to the navigation target; nothing else changes |
| Controller.App.Register | App.tsx:197-213 | a taken e-mail changes nothing; otherwise the plain user with the hashed password is added and the login page shown; e-mails stay unique |
| Controller.App.LoginSuccess | App.tsx:215-218 | the user is logged in and sees the dashboard |
| Controller.App.Logout | App.tsx:220-223 | nobody is logged in and the public view is shown |
| Controller.App.Submit | App.tsx:225-250 | logged out: only the view changes, to login; otherwise a pending report under the user's e-mail is appended, its company registered and the success message shown; companies stay covered |
| Controller.App.SubmitSuccessTimerFired | App.tsx:248 | five seconds after a report is sent, the success message is hidden; nothing else changes |
| Controller.App.Approve | App.tsx:252-270 | an unknown id changes nothing; otherwise only the status becomes Approved and the company is registered |
| Controller.App.ConfirmRejection | App.tsx:276-283 | an unknown id changes nothing; otherwise only the status (Rejected) and the reason change, and the dialog closes |
| Controller.App.UpdateSubmission | App.tsx:298-318 | the edited report replaces the one with its id, its company is registered and the editor closes |
| Controller.App.SaveCompanyReply | App.tsx:320-326 | an unknown id changes nothing; otherwise only that report's reply changes |
| Controller.App.UpdateSubmissionByUser | App.tsx:328-334 | an unknown id changes nothing; otherwise only the rating, rebuttal and answer change |
| Controller.SavedUsers | App.tsx:351-378 | creation is refused iff the e-mail is taken or the password empty, and otherwise appends the new user; editing is refused iff no user has the e-mail, and otherwise edits that user in place; distinct e-mails stay distinct |
| Controller.App.SaveUser | App.tsx:351-380 | a refused save changes nothing; otherwise the user list becomes `SavedUsers` and the editor closes, and nothing else changes; e-mails stay unique |
| Controller.App.UpdateCurrentUser | App.tsx:382-392 | nobody logged in: nothing changes; otherwise the user is updated in the list and in the session |
| Controller.App.SaveApiKey | App.tsx:129-138 | only the key changes, to `StoredApiKey` |
| Controller.App.DismissDuplicate | App.tsx:394-397 | only the dismissed keys change: the key is appended |
| Controller.App.StartCompanyAnalysis | App.tsx:140-172 | the service is awaited iff a key is set and the company has an approved report; no key: the error analysis is stored; no approved report: only the loading flag is cleared; while awaiting, the company is marked loading and nothing else changes |
| Controller.App.CompleteCompanyAnalysis | App.tsx:172-183 | once the service answers, its reply's analysis (an error one for a thrown call) is stored and the company is no longer loading; nothing else changes |
| Controller.App.GenerateCompanyAnalysis | App.tsx:140-185 | the start and the completion with no event in between: no key: the error analysis is stored; no approved report: only the loading flag is cleared; otherwise the reply's analysis is stored and loading cleared |
| UserDashboard.UserProjectsSpec | components/UserDashboard.tsx:113 | exactly the user's reports, in order |
| UserDashboard.StatusLabel | components/UserDashboard.tsx:38 | "Pendente" iff pending |
| UserDashboard.InitialCard | components/UserDashboard.tsx:17-19 | the card starts from the report: the rating, the rebuttal or "", the answer or yes |
| UserDashboard.UntouchedSaveAnswersYes | components/UserDashboard.tsx:21-24 | saving an untouched card keeps the report except that an unanswered question becomes yes and an unset rebuttal "" |
| UserDashboard.SubmissionCard.constructor | components/UserDashboard.tsx:17-19 | the card's state is `InitialCard` |
| UserDashboard.SubmissionCard.SetRating | components/UserDashboard.tsx:58 | only on a report that is not rejected; only the rating changes |
| UserDashboard.SubmissionCard.SetRebuttal | components/UserDashboard.tsx:71 | only once the company replied; only the rebuttal changes |
| UserDashboard.SubmissionCard.ToggleWouldBuyAgain | components/UserDashboard.tsx:58 | only the answer flips |
| UserDashboard.SubmissionCard.Save | components/UserDashboard.tsx:21-24 | the card's state is sent as it is, with the report's id |
| CompanyAdmin.CompanyProjectsSpec | components/CompanyAdminDashboard.tsx:85 | exactly the reports naming the admin's company, in order; none without a company |
| CompanyAdmin.SubmitterFirstName | components/CompanyAdminDashboard.tsx:20-21 | "Usuário" for an unknown submitter, otherwise the first word of the name: a space-free prefix of the name followed by a space or by the end of the name |
| CompanyAdmin.SavedReplyClosesEditor | components/CompanyAdminDashboard.tsx:54 | once a saved reply is in the report, the editor is hidden unless the reply is empty |
| CompanyAdmin.ReplyCard.constructor | components/CompanyAdminDashboard.tsx:17-18 | the draft is the existing reply or "", not editing |
| CompanyAdmin.ReplyCard.SetReply | components/CompanyAdminDashboard.tsx:54 | only in the editor; only the draft changes |
| CompanyAdmin.ReplyCard.Save | components/CompanyAdminDashboard.tsx:23-26 | sends the id and the draft, and leaves edit mode; the report is unchanged until the controller's copy comes back |
| CompanyAdmin.ReplyCard.ProjectChanged | components/CompanyAdminDashboard.tsx:113 | the card, keyed by the report's id, takes the controller's new copy of the report and keeps its draft and mode |
| CompanyAdmin.ReplyCard.Edit | components/CompanyAdminDashboard.tsx:73 | enters edit mode, which shows the editor |
| CompanyAdmin.ReplyCard.Cancel | components/CompanyAdminDashboard.tsx:65 | offered only when a reply exists; leaves edit mode and hides the editor |
| CompanyAdmin.SaveAndRefresh | components/CompanyAdminDashboard.tsx:23-26 | saving and then receiving the report the controller stored (App.tsx:320-326) shows the sent reply, or the editor again iff the reply is "" |
| CompanyAdmin.ReplyFlow | components/CompanyAdminDashboard.tsx:17-73 | from any report: open the editor if needed, type, save, get the stored report back, then "Editar" and "Cancelar" are offered; the card ends showing the reply iff it is not "" |
| SubmissionForm.FilteredCompaniesSpec | components/SubmissionForm.tsx:64-70 | nothing for an empty search; otherwise exactly the names containing it (ignoring case), each as often as known, sorted |
| SubmissionForm.CreateOfferedIff | components/SubmissionForm.tsx:147 | "Criar empresa" is offered iff no known name contains the search, so never for a known name |
| SubmissionForm.ApplyKeepsCompanyAndError | components/SubmissionForm.tsx:43-51 | the project inputs never touch the company box, the dropdown or the error |
| SubmissionForm.ValidationError | components/SubmissionForm.tsx:84-98 | accepted iff all required fields are filled, the rating is set and the link parses; otherwise the first failing check's message, in that order |
| SubmissionForm.AcceptedReportIsComplete | components/SubmissionForm.tsx:100-110 | an accepted form files a pending report with the typed company, a parsable link and a set rating; it has a delivery date only when marked delivered |
| SubmissionForm.Form.constructor | components/SubmissionForm.tsx:41-51 | a blank form with rating 0 and "would buy again" yes |
| SubmissionForm.Form.TypeCompany | components/SubmissionForm.tsx:127 | only the search changes |
| SubmissionForm.Form.FocusCompany | components/SubmissionForm.tsx:128 | only the dropdown opens |
| SubmissionForm.Form.ClickOutside | components/SubmissionForm.tsx:54-62 | only the dropdown closes |
| SubmissionForm.Form.HandleCompanySelect | components/SubmissionForm.tsx:72-75 | a listed, hence known, name becomes the search and the dropdown closes |
| SubmissionForm.Form.HandleCreateNewCompany | components/SubmissionForm.tsx:77-79 | the dropdown closes, keeping an unknown name as the company |
| SubmissionForm.Form.Edit | components/SubmissionForm.tsx:43-51 | only the edited input changes |
| SubmissionForm.Form.HandleSubmit | components/SubmissionForm.tsx:81-111 | a failed check sets its message and sends nothing; otherwise the error is cleared and the payload sent; nothing else changes |
| EditSubmission.NewNameOfferedIff | components/EditSubmissionModal.tsx:136 | the new-name button is offered iff the search is not a known name |
| EditSubmission.Apply | components/EditSubmissionModal.tsx:83-93 | no edit reaches the id, rating, submitter or company; the toggle answers the negation of "yes" |
| EditSubmission.ToggleTwice | components/EditSubmissionModal.tsx:91-93 | toggling twice restores a given answer and turns an unanswered one into no |
| EditSubmission.Saved | components/EditSubmissionModal.tsx:95-98 | the delivery date is dropped unless delivered; every other field passes unchanged |
| EditSubmission.EditDialog.constructor | components/EditSubmissionModal.tsx:40-43 | the copy is the report; "delivered" iff it has a delivery date; the search is its company |
| EditSubmission.EditDialog.SubmissionChanged | components/EditSubmissionModal.tsx:47-51 | a new report resets the copy, "delivered" and the search from it |
| EditSubmission.EditDialog.TypeCompany | components/EditSubmissionModal.tsx:117 | typing changes only the search, not the report's company |
| EditSubmission.EditDialog.FocusCompany | components/EditSubmissionModal.tsx:118 | only the dropdown opens |
| EditSubmission.EditDialog.ClickOutside | components/EditSubmissionModal.tsx:53-61 | only the dropdown closes |
| EditSubmission.EditDialog.HandleCompanySelect | components/EditSubmissionModal.tsx:71-75 | a listed, hence known, name becomes the search and the report's company |
| EditSubmission.EditDialog.HandleCreateNewCompany | components/EditSubmissionModal.tsx:77-80 | the typed, unknown name becomes the report's company |
| EditSubmission.EditDialog.HandleChange | components/EditSubmissionModal.tsx:83-93 | the copy takes the edit; the id, rating and submitter stay the original's |
| EditSubmission.EditDialog.SetDelivered | components/EditSubmissionModal.tsx:161 | only the checkbox changes |
| EditSubmission.EditDialog.HandleSubmit | components/EditSubmissionModal.tsx:95-99 | sends `Saved`, with the original's id, rating and submitter |
| EditUser.LoadedForm | components/EditUserModal.tsx:24-45 | an edited user's fields, with company or "" and password ""; otherwise a blank form with role User |
| EditUser.EditingKeepsEmail | components/EditUserModal.tsx:76 | while editing, no input changes the e-mail |
| EditUser.SavedForm | components/EditUserModal.tsx:55-62 | only the company changes: cleared for roles other than company admin, and never "_NEW_" unless typed so |
| EditUser.UnchangedSaveKeepsUser | components/EditUserModal.tsx:25-33 | opening and saving a company admin unchanged stores the same user; any other user gets an empty company |
| EditUser.UserDialog.constructor | components/EditUserModal.tsx:14-45 | the form is `LoadedForm` and the new company name "" |
| EditUser.UserDialog.PropsChanged | components/EditUserModal.tsx:24-45 | the effect reloads the form and clears the new company name |
| EditUser.UserDialog.HandleChange | components/EditUserModal.tsx:47-53 | the form takes the input; choosing "_NEW_" also clears the new company name |
| EditUser.UserDialog.TypeNewCompanyName | components/EditUserModal.tsx:105-111 | only the new company name changes |
| EditUser.UserDialog.HandleSubmit | components/EditUserModal.tsx:55-64 | sends `SavedForm`, with the typed name for "_NEW_", and the creating flag unchanged |
| Login.Authenticate | components/Login.tsx:19-21 | succeeds iff the first user with the e-mail has the password's hash, and returns that user |
| Login.OnlyThePasswordLogsIn | components/Login.tsx:21 | once the account is found, exactly the stored password opens it |
| Login.RegisteredUserCanLogIn | components/Login.tsx:10 | a user registered under a fresh e-mail logs in with that password and no other |
| Login.LoginForm.constructor | components/Login.tsx:13-15 | empty fields and no error |
| Login.LoginForm.TypeEmail | components/Login.tsx:13 | only the e-mail changes |
| Login.LoginForm.TypePassword | components/Login.tsx:14 | only the password changes |
| Login.LoginForm.HandleLogin | components/Login.tsx:17-27 | returns `Authenticate`'s user; the error is cleared on success and is the same message for an unknown e-mail and a wrong password |
| Register.RegistrationError | components/Register.tsx:18-25 | accepted iff all five fields are filled and the passwords agree; an empty field is reported before a mismatch |
| Register.AcceptedRegistrationCanLogIn | components/Register.tsx:26-27 | an accepted registration under a fresh e-mail creates an account that the confirmation password opens, and no other |
| Register.RegisterForm.constructor | components/Register.tsx:9-14 | all fields and the error empty |
| Register.RegisterForm.Type | components/Register.tsx:9-13 | only the typed field changes |
| Register.RegisterForm.HandleSubmit | components/Register.tsx:16-28 | a failed check sets its message and sends nothing; otherwise the error is cleared and exactly name, birth date, e-mail and password are sent |
| MyAccount.AccountError | components/MyAccountPage.tsx:21-29 | accepted iff the name is filled and the password is empty or confirmed; a blank name is reported first |
| MyAccount.Details | components/MyAccountPage.tsx:31-34 | the password is included iff one was typed |
| MyAccount.UpdatedPasswordLogsIn | components/MyAccountPage.tsx:31-36 | after the update, a new password opens the account and no other does; with no new password, exactly the old one still does |
| MyAccount.AccountPage.constructor | components/MyAccountPage.tsx:10-14 | the name is the user's; everything else empty |
| MyAccount.AccountPage.TypeFullName | components/MyAccountPage.tsx:10 | only the name changes |
| MyAccount.AccountPage.TypePassword | components/MyAccountPage.tsx:11 | only the password changes |
| MyAccount.AccountPage.TypeConfirmPassword | components/MyAccountPage.tsx:12 | only the confirmation changes |
| MyAccount.AccountPage.HandleSubmit | components/MyAccountPage.tsx:16-41 | both messages cleared first; a failed check shows its error; otherwise the details are sent, the success message shown and both passwords cleared |
| MyAccount.AccountPage.SuccessTimerFired | components/MyAccountPage.tsx:40 | only the success message is cleared |

## Left out

- `services/db.ts` (IndexedDB) and the initial load are not modelled. The controller's state is set directly by the constructor, and every awaited write is taken to succeed.
- The AI analysis service call (`services/geminiService.ts`) is not modelled. Its reply is a parameter of `Controller.App.CompleteCompanyAnalysis`, with `None` for a thrown error. Between `StartCompanyAnalysis` and `CompleteCompanyAnalysis` any other handler may run. `CompleteCompanyAnalysis` does not depend on the state in between, because the source's request keeps the key and the reports it started with. Writing the result to the store (`dbService.putCompanyAnalysis`) is not modelled. The handler's figures for the request itself are not computed.
- `Controller.App.Approve` and `Controller.App.UpdateSubmission` do not start the AI analysis, although the source starts one when a key is set. That call is asynchronous, and it is modelled separately as `GenerateCompanyAnalysis`.
- Theme, `alert`, `console`, `setTimeout` scheduling and the other view-only handlers are left out. These handlers are the company and project selections, opening and closing dialogs, the rejection target, and the admin tabs. A timer is modelled only by a method for its firing, and only where the firing changes state: `Controller.App.SubmitSuccessTimerFired` and `MyAccount.AccountPage.SuccessTimerFired`. Scheduling itself, and the order in which a timer fires relative to other events, are not modelled.
- `toLowerCase` folds ASCII letters only. `toUpperCase` (`Text.UpperCase`) maps the ASCII and Latin-1 letters, including "ß" to "SS", and keeps letters of every other script unchanged. `trim` removes ASCII white space, no-break space and the byte-order mark. Strings sort by code point rather than by UTF-16 code unit. These differ from JavaScript only outside the Basic Multilingual Plane, on non-ASCII letters for `toLowerCase`, and on letters outside Latin-1 for `toUpperCase`.
- `ProjectDetail.SubmitterDisplay`: its length bound of at most three characters relies on `Text.UpperCase`. Outside Latin-1, JavaScript can expand one letter into up to three (for example "ΐ"), giving up to four characters.
- Dates are whole days, so sub-day timestamps are not modelled. Averages and `formatDelay` use exact reals, so results can differ from JavaScript doubles only at exact half boundaries.
- `Reputation.ReputationsSorted`: does not state that the sort is stable. The model's insertion sort does keep entries with the same delay and the same count in their `Object.entries` order, as `Array.prototype.sort` must (section 23.1.3.30 of ECMA-262), but no lemma says so.
- A ranking that throws (`Reputation.CalculateAllReputations` returns `None`) is not followed further. In the source the error escapes the `useMemo`, and what React then shows is not modelled.
- Date boxes are `Option<Day>`, so an empty delivery date on a delivered report becomes `None` rather than the empty string. Clearing the promised date in the report editor is not modelled (`EditSubmission.PromisedDate` always carries a day).
- HTML `required` constraint validation in the forms is not modelled. Each submit handler runs its own checks on any input.
- In two places the code is less strict than its neighbours, and the model follows the code. Sending, approving and editing a report all register a company that is not yet known (App.tsx:232-237, 256 and 302), but `handleSaveUser` (App.tsx:351-378) does not register the company of a company administrator it saves. The user's dashboard hides the rating and rebuttal controls on rejected reports (components/UserDashboard.tsx:58), but `handleUpdateSubmissionByUser` (App.tsx:328-334) does not check the status.
- The merge dialog is modelled for any group, including an empty one. The source would fail reading the first report of an empty group, so `Merge.InitialSelections` is then empty.
- The report editor's company box is bound to its own `onChange`. The `companyName` branch of `handleChange` is therefore never reached and is not modelled.

=== FILE: company_admin.dfy ===
/**
 * The company administrator's dashboard: the reports about the
 * administrator's company, each on a card where the company's official reply
 * is drafted, saved, and later edited again.
 */
module CompanyAdmin {
  import opened Domain
  import Seqs
  import Text

  function AboutCompany(companyName: Option<string>): Submission -> bool
  {
    (p: Submission) => companyName == Some(p.companyName)
  }

  /** `companyProjects`: the reports whose company is the administrator's, in order. */
  function CompanyProjects(allProjects: seq<Submission>, currentUser: User): seq<Submission>
  {
    Seqs.Filter(allProjects, AboutCompany(currentUser.companyName))
  }

  /** A report is listed exactly when it names the administrator's company; a user without a company sees nothing. */
  lemma CompanyProjectsSpec(allProjects: seq<Submission>, currentUser: User)
    ensures forall p :: p in CompanyProjects(allProjects, currentUser)
                        <==> p in allProjects && currentUser.companyName == Some(p.companyName)
    ensures currentUser.companyName.None? ==> CompanyProjects(allProjects, currentUser) == []
    ensures Seqs.IsSubsequence(CompanyProjects(allProjects, currentUser), allProjects)
  {
    Seqs.FilterIsSubsequence(allProjects, AboutCompany(currentUser.companyName));
    if currentUser.companyName.None? {
      Seqs.FilterNoneKept(allProjects, AboutCompany(currentUser.companyName));
    }
  }

  /** The submitter's first name, or "Usuário" when the submitter is unknown. */
  function SubmitterFirstName(users: seq<User>, email: string): (r: string)
    ensures FindUser(users, email).None? ==> r == "Usuário"
    ensures FindUser(users, email).Some? ==> r <= FindUser(users, email).value.fullName && ' ' !in r
    ensures FindUser(users, email).Some? && |r| < |FindUser(users, email).value.fullName|
            ==> FindUser(users, email).value.fullName[|r|] == ' '
  {
    match FindUser(users, email)
    case None => "Usuário"
    case Some(u) => Text.FirstToken(u.fullName)
  }

  /** The reply editor is shown while editing, and always while the company has not replied. */
  predicate EditorShown(isEditing: bool, p: Submission)
  {
    isEditing || !Present(p.companyReply)
  }

  /** Once a saved reply is back in the report, the card shows it rather than the editor, unless it is empty. */
  lemma SavedReplyClosesEditor(p: Submission, reply: string)
    ensures EditorShown(false, p.(companyReply := Some(reply))) <==> reply == ""
  {
  }

  /**
   * ProjectReplyCard. The list keys it by the report's id, so it stays mounted
   * while the controller replaces the report, and its `project` follows.
   */
  class ReplyCard {
    var project: Submission
    var reply: string
    var isEditing: bool

    /** The draft starts as the existing reply, or "". */
    constructor (project: Submission)
      ensures this.project == project
      ensures reply == OrEmpty(project.companyReply) && !isEditing
    {
      this.project := project;
      reply := if project.companyReply.Some? then project.companyReply.value else "";
      isEditing := false;
    }

    /** Typing in the editor. */
    method SetReply(text: string)
      requires EditorShown(isEditing, project)
      modifies this
      ensures reply == text && isEditing == old(isEditing) && project == old(project)
    {
      reply := text;
    }

    /** `handleSave`: sends the draft and leaves edit mode. */
    method Save() returns (id: string, text: string)
      requires EditorShown(isEditing, project)
      modifies this
      ensures id == project.id && text == old(reply)
      ensures reply == old(reply) && !isEditing && project == old(project)
    {
      id, text := project.id, reply;
      isEditing := false;
    }

    /** The list re-renders the card with the controller's new copy of its report; the draft and the mode stay. */
    method ProjectChanged(p: Submission)
      requires p.id == project.id
      modifies this
      ensures project == p && reply == old(reply) && isEditing == old(isEditing)
    {
      project := p;
    }

    /** "Editar", offered under an existing reply. */
    method Edit()
      requires !EditorShown(isEditing, project)
      modifies this
      ensures isEditing && reply == old(reply) && project == old(project)
      ensures EditorShown(isEditing, project)
    {
      isEditing := true;
    }

    /** "Cancelar", offered in the editor only when a reply already exists; the draft is kept. */
    method Cancel()
      requires EditorShown(isEditing, project) && Present(project.companyReply)
      modifies this
      ensures !isEditing && reply == old(reply) && project == old(project)
      ensures !EditorShown(isEditing, project)
    {
      isEditing := false;
    }
  }

  /**
   * `handleSave`, then the controller's `handleSaveCompanyReply` coming back:
   * the report now carries the sent reply, so the card shows that reply, unless
   * it is empty, in which case the editor is shown again.
   */
  method SaveAndRefresh(card: ReplyCard) returns (id: string, text: string)
    requires EditorShown(card.isEditing, card.project)
    modifies card
    ensures id == old(card.project).id && text == old(card.reply)
    ensures card.project == old(card.project).(companyReply := Some(text))
    ensures card.reply == text && !card.isEditing
    ensures EditorShown(card.isEditing, card.project) <==> text == ""
  {
    id, text := card.Save();
    card.ProjectChanged(card.project.(companyReply := Some(text)));
  }

  /**
   * A card's whole flow: opening the editor when a reply is shown, typing a
   * reply, saving it, and then "Editar" and "Cancelar" once the saved reply
   * is back. An empty reply leaves the editor open instead.
   */
  method ReplyFlow(p: Submission, text: string) returns (card: ReplyCard, id: string, sent: string)
    ensures id == p.id && sent == text
    ensures card.project == p.(companyReply := Some(text)) && card.reply == text
    ensures !EditorShown(card.isEditing, card.project) <==> text != ""
  {
    card := new ReplyCard(p);
    if !EditorShown(card.isEditing, card.project) {
      card.Edit();
    }
    card.SetReply(text);
    id, sent := SaveAndRefresh(card);
    if text != "" {
      card.Edit();
      card.Cancel();
    }
  }
}

=== FILE: company_detail.dfy ===
/**
 * The company page: the approved reports of the company, its statistics,
 * the per-project aggregation (one row per project name, in order of first
 * approved report) and the search over those rows.
 */
module CompanyDetail {
  import opened Domain
  import opened Grouping
  import Seqs
  import Text
  import Delay
  import Metrics

  /** `approvedProjects`. */
  function ApprovedProjects(projects: seq<Submission>): (r: seq<Submission>)
    ensures forall p :: p in r <==> p in projects && p.status == Approved
  {
    Seqs.Filter(projects, IsApproved)
  }

  /** `stats`. */
  function Stats(projects: seq<Submission>, now: real): Metrics.Stats
  {
    Metrics.CompanyStats(ApprovedProjects(projects), now)
  }

  datatype ProjectAggregate = ProjectAggregate(projectName: string, complaintCount: nat, averageDelay: real)

  function ProjectNameKey(p: Submission): Option<string>
  {
    Some(p.projectName)
  }

  /** One row: a project name and the approved reports about it. */
  function Aggregate(name: string, submissions: seq<Submission>, now: real): ProjectAggregate
  {
    ProjectAggregate(name, |submissions|, Seqs.Mean(Metrics.PageDelays(submissions, now)))
  }

  /** The rows `aggregatedProjects` produces. */
  function AggregatedProjects(approved: seq<Submission>, now: real): (rows: seq<ProjectAggregate>)
    ensures |rows| == |KeysInOrder(approved, ProjectNameKey)|
  {
    var names := KeysInOrder(approved, ProjectNameKey);
    seq(|names|, i requires 0 <= i < |names| => Aggregate(names[i], Members(approved, ProjectNameKey, names[i]), now))
  }

  /** `aggregatedProjects`: the for-of loop that fills the map by project name, then one row per entry. */
  method ComputeAggregatedProjects(approved: seq<Submission>, now: real) returns (rows: seq<ProjectAggregate>)
    ensures rows == AggregatedProjects(approved, now)
  {
    var names, projectsByName := GroupBy(approved, ProjectNameKey);
    rows := seq(|names|, i requires 0 <= i < |names| => Aggregate(names[i], projectsByName[names[i]], now));
  }

  function TotalComplaints(rows: seq<ProjectAggregate>): nat
    decreases |rows|
  {
    if rows == [] then 0 else TotalComplaints(rows[..|rows| - 1]) + rows[|rows| - 1].complaintCount
  }

  lemma {:induction false} TotalIsBucketSizes(approved: seq<Submission>, now: real, names: seq<string>)
    ensures TotalComplaints(seq(|names|, i requires 0 <= i < |names| => Aggregate(names[i], Members(approved, ProjectNameKey, names[i]), now)))
         == BucketSizes(approved, ProjectNameKey, names)
    decreases |names|
  {
    if names != [] {
      var init := names[..|names| - 1];
      TotalIsBucketSizes(approved, now, init);
      var rows := seq(|names|, i requires 0 <= i < |names| => Aggregate(names[i], Members(approved, ProjectNameKey, names[i]), now));
      var rows' := seq(|init|, i requires 0 <= i < |init| => Aggregate(init[i], Members(approved, ProjectNameKey, init[i]), now));
      assert rows[..|rows| - 1] == rows';
    }
  }

  lemma {:induction false} EveryReportHasAName(xs: seq<Submission>)
    ensures KeyedCount(xs, ProjectNameKey) == |xs|
    decreases |xs|
  {
    if xs != [] {
      EveryReportHasAName(xs[..|xs| - 1]);
    }
  }

  /** The complaint counts add up to the number of approved reports. */
  lemma ComplaintsSumToApproved(approved: seq<Submission>, now: real)
    ensures TotalComplaints(AggregatedProjects(approved, now)) == |approved|
  {
    TotalIsBucketSizes(approved, now, KeysInOrder(approved, ProjectNameKey));
    BucketSizesTotal(approved, ProjectNameKey);
    EveryReportHasAName(approved);
  }

  /** Row `i` is the aggregate of the approved reports about the `i`-th project name, and there is at least one. */
  lemma RowAt(approved: seq<Submission>, now: real, i: nat)
    requires i < |AggregatedProjects(approved, now)|
    ensures var row := AggregatedProjects(approved, now)[i];
            var reports := Members(approved, ProjectNameKey, row.projectName);
            && row.projectName == KeysInOrder(approved, ProjectNameKey)[i]
            && reports != []
            && (forall p :: p in reports <==> p in approved && p.projectName == row.projectName)
            && row.complaintCount == |reports|
            && row.averageDelay == Seqs.Mean(Metrics.PageDelays(reports, now))
  {
    var names := KeysInOrder(approved, ProjectNameKey);
    var w :| 0 <= w < |approved| && ProjectNameKey(approved[w]) == Some(names[i]);
    assert approved[w] in Members(approved, ProjectNameKey, names[i]);
  }

  /**
   * Each row is about one project name that has approved reports: its count is the
   * number of those reports and its average delay their mean; no name has two rows,
   * and every such name has one.
   */
  lemma AggregateRows(approved: seq<Submission>, now: real)
    ensures forall i :: 0 <= i < |AggregatedProjects(approved, now)| ==>
              var row := AggregatedProjects(approved, now)[i];
              var reports := Members(approved, ProjectNameKey, row.projectName);
              && reports != []
              && (forall p :: p in reports <==> p in approved && p.projectName == row.projectName)
              && row.complaintCount == |reports|
              && row.averageDelay == Seqs.Mean(Metrics.PageDelays(reports, now))
    ensures forall i, j :: 0 <= i < j < |AggregatedProjects(approved, now)|
              ==> AggregatedProjects(approved, now)[i].projectName != AggregatedProjects(approved, now)[j].projectName
    ensures forall p :: p in approved ==>
              exists i :: 0 <= i < |AggregatedProjects(approved, now)| && AggregatedProjects(approved, now)[i].projectName == p.projectName
  {
    var names := KeysInOrder(approved, ProjectNameKey);
    var rows := AggregatedProjects(approved, now);
    forall i | 0 <= i < |rows|
      ensures var reports := Members(approved, ProjectNameKey, rows[i].projectName);
              && reports != []
              && (forall p :: p in reports <==> p in approved && p.projectName == rows[i].projectName)
              && rows[i].complaintCount == |reports|
              && rows[i].averageDelay == Seqs.Mean(Metrics.PageDelays(reports, now))
    {
      RowAt(approved, now, i);
    }
    forall i, j | 0 <= i < j < |rows|
      ensures rows[i].projectName != rows[j].projectName
    {
      assert rows[i].projectName == names[i] && rows[j].projectName == names[j];
    }
    forall p | p in approved
      ensures exists i :: 0 <= i < |rows| && rows[i].projectName == p.projectName
    {
      var w :| 0 <= w < |approved| && approved[w] == p;
      var i :| 0 <= i < |names| && names[i] == p.projectName;
      assert rows[i].projectName == p.projectName;
    }
  }

  /** The search predicate of `filteredProjects`. */
  function NameMatches(term: string): ProjectAggregate -> bool
  {
    (row: ProjectAggregate) => Text.ContainsIgnoringCase(row.projectName, term)
  }

  /** `filteredProjects`. */
  function FilteredProjects(rows: seq<ProjectAggregate>, searchTerm: string): seq<ProjectAggregate>
  {
    Seqs.Filter(rows, NameMatches(searchTerm))
  }

  /**
   * The search keeps exactly the rows whose name contains the term, ignoring case,
   * in their original order; an empty term keeps every row.
   */
  lemma FilteredProjectsSpec(rows: seq<ProjectAggregate>, searchTerm: string)
    ensures forall row :: row in FilteredProjects(rows, searchTerm)
              <==> row in rows && Text.ContainsIgnoringCase(row.projectName, searchTerm)
    ensures Seqs.IsSubsequence(FilteredProjects(rows, searchTerm), rows)
    ensures searchTerm == "" ==> |FilteredProjects(rows, searchTerm)| == |rows|
  {
    Seqs.FilterIsSubsequence(rows, NameMatches(searchTerm));
    if searchTerm == "" {
      forall i | 0 <= i < |rows|
        ensures NameMatches(searchTerm)(rows[i])
      {
        Text.EmptyTermMatches(rows[i].projectName);
      }
      Seqs.FilterKeepsAllIff(rows, NameMatches(searchTerm));
    }
  }

  /** `delayColor` of the page, from the mean delay of the approved reports. */
  function PageDelayColor(projects: seq<Submission>, now: real): Delay.DelayColor
  {
    Delay.ColorOf(Stats(projects, now).avgDelay)
  }
}

=== FILE: controller.dfy ===
/**
 * The application controller: the state the root component holds (reports,
 * users, companies, dismissed duplicate keys, the API key, the current user
 * and view) and the handlers that replace it. Every handler that edits a
 * report replaces the report(s) with the given id and leaves all others as
 * they were; an unknown id changes nothing. Reports, approvals and edits
 * register a company name that is not known yet.
 *
 * The writes to the browser database that precede each state update are not
 * part of this model; the state is what the component shows.
 */
module Controller {
  import opened Domain
  import Seqs
  import Text
  import Reputation
  import ProjectCard

  datatype AppView = PublicView | SubmitView | DashboardView | LoginView | RegisterView | CompanyDetailView | ProjectDetailView

  /** The submission form's payload: a report without id, status and submitter. */
  datatype SubmissionPayload = SubmissionPayload(
    companyName: string,
    projectName: string,
    crowdfundingLink: string,
    promisedDate: Day,
    actualDate: Option<Day>,
    rating: real,
    comment: string,
    wouldBuyAgain: bool)

  /** The registration form's payload. */
  datatype RegistrationDetails = RegistrationDetails(fullName: string, birthDate: string, email: string, password: string)

  /** The user editor's payload: a user without hash, with a (possibly empty) password. */
  datatype UserForm = UserForm(email: string, fullName: string, birthDate: string, role: Role, companyName: string, password: string)

  /** The account page's payload; the password is present only when a new one was typed. */
  datatype AccountDetails = AccountDetails(fullName: string, password: Option<string>)

  /** Everything the root component holds, as one value. */
  datatype AppData = AppData(
    projects: seq<Submission>,
    users: seq<User>,
    companies: seq<Company>,
    currentView: AppView,
    currentUser: Option<User>,
    selectedCompany: Option<string>,
    selectedProject: Option<(string, string)>,
    showSuccessMessage: bool,
    editingSubmission: Option<Submission>,
    rejectionTarget: Option<Submission>,
    editingUser: Option<User>,
    isCreatingUser: bool,
    dismissedDuplicates: seq<string>,
    apiKey: Option<string>,
    companyAnalyses: map<string, AnalysisResult>,
    loadingAnalyses: map<string, bool>)

  // ---------------------------------------------------------------- record updates

  /** `projects.map(p => p.id === id ? updated : p)`. */
  function ReplaceById(ps: seq<Submission>, id: string, updated: Submission): (r: seq<Submission>)
    ensures |r| == |ps|
    ensures forall i :: 0 <= i < |ps| ==> r[i] == (if ps[i].id == id then updated else ps[i])
  {
    seq(|ps|, i requires 0 <= i < |ps| => if ps[i].id == id then updated else ps[i])
  }

  /** Replacing an id no report has changes nothing. */
  lemma ReplaceUnknownIdIsNoOp(ps: seq<Submission>, id: string, updated: Submission)
    requires forall i :: 0 <= i < |ps| ==> ps[i].id != id
    ensures ReplaceById(ps, id, updated) == ps
  {
  }

  /** A replacement that keeps the id keeps every report's id in place. */
  lemma ReplaceKeepsIds(ps: seq<Submission>, id: string, updated: Submission)
    requires updated.id == id
    ensures forall i :: 0 <= i < |ps| ==> ReplaceById(ps, id, updated)[i].id == ps[i].id
  {
  }

  /**
   * `users.map(u => u.email === email ? updated : u)`: `ReplaceById`'s shape
   * over users keyed by e-mail. The two are kept apart rather than made one
   * function over a key function, so that the handlers' state equations
   * mention a record field and not an application of a function value.
   */
  function ReplaceUserByEmail(us: seq<User>, email: string, updated: User): (r: seq<User>)
    ensures |r| == |us|
    ensures forall i :: 0 <= i < |us| ==> r[i] == (if us[i].email == email then updated else us[i])
  {
    seq(|us|, i requires 0 <= i < |us| => if us[i].email == email then updated else us[i])
  }

  /** No two users share an e-mail. */
  predicate EmailsDistinct(us: seq<User>)
  {
    forall i, j :: 0 <= i < j < |us| ==> us[i].email != us[j].email
  }

  /** `users.some(u => u.email === email)`. */
  predicate EmailTaken(us: seq<User>, email: string)
  {
    exists i :: 0 <= i < |us| && us[i].email == email
  }

  /** Adding a user with a fresh e-mail keeps the e-mails distinct. */
  lemma AddFreshUserKeepsEmailsDistinct(us: seq<User>, u: User)
    requires !EmailTaken(us, u.email)
    ensures EmailsDistinct(us) ==> EmailsDistinct(us + [u])
  {
  }

  /** Replacing a user by one with the same e-mail keeps the e-mails distinct, and keeps them all. */
  lemma ReplaceUserKeepsEmails(us: seq<User>, email: string, updated: User)
    requires updated.email == email
    ensures forall i :: 0 <= i < |us| ==> ReplaceUserByEmail(us, email, updated)[i].email == us[i].email
    ensures EmailsDistinct(us) ==> EmailsDistinct(ReplaceUserByEmail(us, email, updated))
  {
  }

  /** Some company has this name. */
  predicate KnownCompany(cs: seq<Company>, name: string)
  {
    exists i :: 0 <= i < |cs| && cs[i].name == name
  }

  /** `if (!companies.some(c => c.name === name)) companies = [...companies, { name }]`. */
  function EnsureCompany(cs: seq<Company>, name: string): (r: seq<Company>)
    ensures KnownCompany(r, name)
    ensures cs <= r && |r| <= |cs| + 1
    ensures KnownCompany(cs, name) ==> r == cs
    ensures forall n :: KnownCompany(r, n) <==> KnownCompany(cs, n) || n == name
  {
    if KnownCompany(cs, name) then cs
    else
      assert (cs + [Company(name)])[|cs|].name == name;
      assert forall i :: 0 <= i < |cs| ==> (cs + [Company(name)])[i] == cs[i];
      cs + [Company(name)]
  }

  /** Every report's company is a known company. */
  predicate CompaniesCover(ps: seq<Submission>, cs: seq<Company>)
  {
    forall i :: 0 <= i < |ps| ==> KnownCompany(cs, ps[i].companyName)
  }

  /** Registering a report's company keeps every report's company known after the report is put in place of others. */
  lemma ReplaceKeepsCompaniesCovered(ps: seq<Submission>, cs: seq<Company>, id: string, updated: Submission)
    ensures CompaniesCover(ps, cs) ==> CompaniesCover(ReplaceById(ps, id, updated), EnsureCompany(cs, updated.companyName))
  {
    if !CompaniesCover(ps, cs) {
      return;
    }
    var cs' := EnsureCompany(cs, updated.companyName);
    var r := ReplaceById(ps, id, updated);
    forall i | 0 <= i < |r|
      ensures KnownCompany(cs', r[i].companyName)
    {
      if ps[i].id != id {
        assert KnownCompany(cs, ps[i].companyName);
      }
    }
  }

  /** Appending a report and registering its company keeps every report's company known. */
  lemma AppendKeepsCompaniesCovered(ps: seq<Submission>, cs: seq<Company>, p: Submission)
    ensures CompaniesCover(ps, cs) ==> CompaniesCover(ps + [p], EnsureCompany(cs, p.companyName))
  {
    if !CompaniesCover(ps, cs) {
      return;
    }
    var cs' := EnsureCompany(cs, p.companyName);
    forall i | 0 <= i < |ps| + 1
      ensures KnownCompany(cs', (ps + [p])[i].companyName)
    {
      if i < |ps| {
        assert KnownCompany(cs, ps[i].companyName);
      }
    }
  }

  /** A report replaced by one of the same company keeps every report's company known. */
  lemma ReplaceWithinCompanyKeepsCovered(ps: seq<Submission>, cs: seq<Company>, id: string, updated: Submission, k: int)
    requires 0 <= k < |ps| && ps[k].companyName == updated.companyName
    ensures CompaniesCover(ps, cs) ==> CompaniesCover(ReplaceById(ps, id, updated), cs)
  {
    if CompaniesCover(ps, cs) {
      assert KnownCompany(cs, ps[k].companyName);
    }
  }

  /** The report a logged-in user files: pending, owned by the user, with the payload's fields. */
  function NewSubmission(payload: SubmissionPayload, id: string, submitterEmail: string): Submission
  {
    Submission(
      id, payload.companyName, payload.projectName, payload.crowdfundingLink,
      payload.promisedDate, payload.actualDate, Pending, payload.rating,
      Some(payload.comment), submitterEmail, None, None, None, Some(payload.wouldBuyAgain))
  }

  /** A registered user: role User, no company, the hashed password. */
  function RegisteredUser(d: RegistrationDetails): User
  {
    User(d.email, SimpleHash(d.password), PlainUser, d.fullName, d.birthDate, None)
  }

  /** A user created by the admin from the editor's form. */
  function CreatedUser(form: UserForm): User
  {
    User(form.email, SimpleHash(form.password), form.role, form.fullName, form.birthDate, Some(form.companyName))
  }

  /** `{ ...old, ...form }` with the hash replaced only when a password was typed. */
  function EditedUser(prior: User, form: UserForm): (u: User)
    ensures u.email == form.email && u.role == form.role && u.fullName == form.fullName
    ensures u.birthDate == form.birthDate && u.companyName == Some(form.companyName)
    ensures form.password == "" ==> u.passwordHash == prior.passwordHash
    ensures form.password != "" ==> u.passwordHash == SimpleHash(form.password)
  {
    User(form.email, if form.password != "" then SimpleHash(form.password) else prior.passwordHash,
         form.role, form.fullName, form.birthDate, Some(form.companyName))
  }

  /**
   * The user list `handleSaveUser` stores, or `None` when it stores nothing:
   * creating refuses a taken e-mail or an empty password, editing ignores an
   * unknown e-mail. The e-mails stay distinct.
   */
  function SavedUsers(us: seq<User>, form: UserForm, isNew: bool): (r: Option<seq<User>>)
    ensures isNew ==> (r.None? <==> EmailTaken(us, form.email) || form.password == "")
    ensures isNew && r.Some? ==> r.value == us + [CreatedUser(form)]
    ensures !isNew ==> (r.None? <==> FindUser(us, form.email).None?)
    ensures !isNew && r.Some? ==>
              r.value == ReplaceUserByEmail(us, form.email, EditedUser(FindUser(us, form.email).value, form))
    ensures r.Some? && EmailsDistinct(us) ==> EmailsDistinct(r.value)
  {
    if isNew then
      if EmailTaken(us, form.email) || form.password == "" then None
      else
        AddFreshUserKeepsEmailsDistinct(us, CreatedUser(form));
        Some(us + [CreatedUser(form)])
    else
      match FindUser(us, form.email)
      case None => None
      case Some(prior) =>
        ReplaceUserKeepsEmails(us, form.email, EditedUser(prior, form));
        Some(ReplaceUserByEmail(us, form.email, EditedUser(prior, form)))
  }

  /** The account page's update of the logged-in user. */
  function UpdatedAccount(current: User, d: AccountDetails): (u: User)
    ensures u.email == current.email && u.role == current.role && u.companyName == current.companyName
    ensures u.fullName == d.fullName
    ensures Present(d.password) ==> u.passwordHash == SimpleHash(d.password.value)
    ensures !Present(d.password) ==> u.passwordHash == current.passwordHash
  {
    current.(fullName := d.fullName,
             passwordHash := if Present(d.password) then SimpleHash(d.password.value) else current.passwordHash)
  }

  /** Where a navigation request lands: the dashboard and the form need a logged-in user. */
  function NavigationTarget(view: AppView, currentUser: Option<User>): (v: AppView)
    ensures currentUser.Some? ==> v == view
    ensures currentUser.None? ==> (v == LoginView <==> view in {DashboardView, SubmitView, LoginView})
    ensures currentUser.None? && view !in {DashboardView, SubmitView} ==> v == view
  {
    if (view == DashboardView || view == SubmitView) && currentUser.None? then LoginView else view
  }

  /** The API key stored for a typed key: the trimmed key, or none when it trims to nothing. */
  function StoredApiKey(newKey: string): (k: Option<string>)
    ensures k.Some? ==> k.value == Text.Trim(newKey) && k.value != ""
  {
    var key := Text.Trim(newKey);
    if key != "" then Some(key) else None
  }

  /** A blank key removes the stored key; anything else is stored without surrounding white space. */
  lemma StoredApiKeyRemovedIffBlank(newKey: string)
    ensures StoredApiKey(newKey).None? <==> forall i :: 0 <= i < |newKey| ==> Text.IsSpace(newKey[i])
    ensures StoredApiKey(newKey).Some? ==> !Text.IsSpace(StoredApiKey(newKey).value[0])
  {
    Text.TrimEmptyIff(newKey);
    if StoredApiKey(newKey).Some? {
      var t := Text.TrimStart(newKey);
      assert Text.Trim(newKey) == t[..|Text.Trim(newKey)|];
    }
  }

  /** `analysisText.startsWith("Erro:")`: the service's replies that report a failure. */
  function AnalysisOf(reply: Option<string>): (a: AnalysisResult)
    ensures reply.None? ==> a.isError
    ensures reply.Some? ==> a.text == reply.value && (a.isError <==> "Erro:" <= reply.value)
  {
    if reply.Some? then AnalysisResult(reply.value, "Erro:" <= reply.value)
    else AnalysisResult("Erro: Não foi possível gerar a análise da IA.", true)
  }

  /** The approved reports of one company, which the analysis summarises. */
  function ApprovedOfCompany(ps: seq<Submission>, companyName: string): seq<Submission>
  {
    Seqs.Filter(ps, (p: Submission) => p.companyName == companyName && p.status == Approved)
  }

  const NoKeyAnalysis := AnalysisResult("Erro: Nenhuma chave de API configurada no painel do administrador.", true)

  /** The analysis button is only offered when the key guard of the analysis request passes. */
  lemma OfferedAnalysisPassesKeyGuard(currentUser: Option<User>, reputation: Reputation.CompanyReputation, apiKey: Option<string>)
    requires ProjectCard.CanGenerateAnalysis(currentUser, reputation, apiKey)
    ensures Present(apiKey)
  {
    ProjectCard.CanGenerateAnalysisNeeds(currentUser, reputation, apiKey);
  }

  /**
   * While a company's analysis is loading, its card in the ranking does not
   * offer the analysis again, whoever is looking and whatever the key.
   */
  lemma InFlightAnalysisNotOffered(projects: seq<Submission>, now: real, analyses: map<string, AnalysisResult>,
                                   loading: map<string, bool>, companyName: string,
                                   currentUser: Option<User>, apiKey: Option<string>, e: Reputation.CompanyReputation)
    requires companyName in loading && loading[companyName]
    requires e in Reputation.AllReputations(projects, now, analyses, loading) && e.name == companyName
    ensures e.isAiAnalysisLoading
    ensures !ProjectCard.CanGenerateAnalysis(currentUser, e, apiKey)
  {
    Reputation.EntryContents(projects, now, analyses, loading, e);
    ProjectCard.CanGenerateAnalysisNeeds(currentUser, e, apiKey);
  }

  // ---------------------------------------------------------------- derived lists

  function IsPending(): Submission -> bool
  {
    (p: Submission) => p.status == Pending
  }

  function IsManaged(): Submission -> bool
  {
    (p: Submission) => p.status == Approved || p.status == Rejected
  }

  /** The moderation queue. */
  function PendingSubmissions(ps: seq<Submission>): seq<Submission>
  {
    Seqs.Filter(ps, IsPending())
  }

  /** The reports already decided. */
  function ManagedProjects(ps: seq<Submission>): seq<Submission>
  {
    Seqs.Filter(ps, IsManaged())
  }

  /** Every report is either pending or decided, never both. */
  lemma PendingAndManagedPartition(ps: seq<Submission>)
    ensures |PendingSubmissions(ps)| + |ManagedProjects(ps)| == |ps|
    ensures forall p :: p in ps ==> (p in PendingSubmissions(ps) <==> p !in ManagedProjects(ps))
  {
    Seqs.FilterPartition(ps, IsPending(), IsManaged());
  }

  /** Approving a report takes it out of the queue and puts nothing in. */
  lemma ApprovalLeavesQueue(ps: seq<Submission>, id: string, p: Submission)
    requires FindById(ps, id) == Some(p)
    ensures forall q :: q in PendingSubmissions(ReplaceById(ps, id, p.(status := Approved)))
                        ==> q in PendingSubmissions(ps) && q.id != id
    ensures p.(status := Approved) in ManagedProjects(ReplaceById(ps, id, p.(status := Approved)))
  {
    var r := ReplaceById(ps, id, p.(status := Approved));
    var i :| 0 <= i < |ps| && ps[i] == p && p.id == id && forall j :: 0 <= j < i ==> ps[j].id != id;
    assert r[i] == p.(status := Approved);
    forall q | q in PendingSubmissions(r)
      ensures q in PendingSubmissions(ps) && q.id != id
    {
      var k :| 0 <= k < |r| && r[k] == q;
    }
  }

  /** The company names of the reports followed by those of the companies. */
  function AllCompanyNames(ps: seq<Submission>, cs: seq<Company>): (names: seq<string>)
    ensures forall n :: n in names <==> (exists i :: 0 <= i < |ps| && ps[i].companyName == n) || KnownCompany(cs, n)
  {
    var fromProjects := seq(|ps|, i requires 0 <= i < |ps| => ps[i].companyName);
    var fromCompanies := seq(|cs|, i requires 0 <= i < |cs| => cs[i].name);
    assert forall n :: n in fromCompanies <==> KnownCompany(cs, n) by {
      forall n | KnownCompany(cs, n)
        ensures n in fromCompanies
      {
        var i :| 0 <= i < |cs| && cs[i].name == n;
        assert fromCompanies[i] == n;
      }
    }
    assert forall n :: n in fromProjects <==> exists i :: 0 <= i < |ps| && ps[i].companyName == n by {
      forall n | exists i :: 0 <= i < |ps| && ps[i].companyName == n
        ensures n in fromProjects
      {
        var i :| 0 <= i < |ps| && ps[i].companyName == n;
        assert fromProjects[i] == n;
      }
    }
    fromProjects + fromCompanies
  }

  /** The company names offered by the forms: both sources merged into a set, sorted. */
  function UniqueCompanyNames(ps: seq<Submission>, cs: seq<Company>): seq<string>
  {
    Text.SortStrings(Seqs.Dedup(AllCompanyNames(ps, cs)))
  }

  /** Each name of a report or company appears exactly once, in ascending order. */
  lemma UniqueCompanyNamesCorrect(ps: seq<Submission>, cs: seq<Company>)
    ensures Seqs.SortedBy(UniqueCompanyNames(ps, cs), Text.StringLe)
    ensures Seqs.NoRepeats(UniqueCompanyNames(ps, cs))
    ensures forall n :: n in UniqueCompanyNames(ps, cs)
                        <==> (exists i :: 0 <= i < |ps| && ps[i].companyName == n) || KnownCompany(cs, n)
  {
    var d := Seqs.Dedup(AllCompanyNames(ps, cs));
    Text.SortStringsCorrect(d);
    Seqs.PermutationNoRepeats(d, Text.SortStrings(d));
    forall n
      ensures n in Text.SortStrings(d) <==> n in d
    {
      assert n in Text.SortStrings(d) <==> n in multiset(Text.SortStrings(d));
      assert n in d <==> n in multiset(d);
    }
  }

  // ---------------------------------------------------------------- the component

  class App {
    var projects: seq<Submission>
    var users: seq<User>
    var companies: seq<Company>
    var currentView: AppView
    var currentUser: Option<User>
    var selectedCompany: Option<string>
    var selectedProject: Option<(string, string)>
    var showSuccessMessage: bool
    var editingSubmission: Option<Submission>
    var rejectionTarget: Option<Submission>
    var editingUser: Option<User>
    var isCreatingUser: bool
    var dismissedDuplicates: seq<string>
    var apiKey: Option<string>
    var companyAnalyses: map<string, AnalysisResult>
    var loadingAnalyses: map<string, bool>

    /** The whole state as a value, so that a handler can say what it changes and that nothing else changes. */
    function State(): AppData
      reads this
    {
      AppData(projects, users, companies, currentView, currentUser, selectedCompany, selectedProject,
              showSuccessMessage, editingSubmission, rejectionTarget, editingUser, isCreatingUser,
              dismissedDuplicates, apiKey, companyAnalyses, loadingAnalyses)
    }

    /** The state once the stored data has been loaded: the public view, nobody logged in. */
    constructor (projects: seq<Submission>, users: seq<User>, companies: seq<Company>,
                 dismissed: seq<string>, apiKey: Option<string>, analyses: map<string, AnalysisResult>)
      ensures State() == AppData(projects, users, companies, PublicView, None, None, None, false, None, None,
                                 None, false, dismissed, apiKey, analyses, map[])
    {
      this.projects, this.users, this.companies := projects, users, companies;
      currentView, currentUser, selectedCompany, selectedProject := PublicView, None, None, None;
      showSuccessMessage, editingSubmission, rejectionTarget, editingUser, isCreatingUser := false, None, None, None, false;
      dismissedDuplicates, this.apiKey, companyAnalyses, loadingAnalyses := dismissed, apiKey, analyses, map[];
    }

    /** handleNavigate: clears the selections; the dashboard and the form send a visitor to the login page. */
    method Navigate(view: AppView)
      modifies this
      ensures State() == old(State()).(selectedCompany := None, selectedProject := None,
                                       currentView := NavigationTarget(view, old(currentUser)))
    {
      selectedCompany := None;
      selectedProject := None;
      if (view == DashboardView || view == SubmitView) && currentUser.None? {
        currentView := LoginView;
      } else {
        currentView := view;
      }
    }

    /** handleRegister: a taken e-mail changes nothing; otherwise the new user is added and the login page shown. */
    method Register(details: RegistrationDetails)
      modifies this
      ensures EmailTaken(old(users), details.email) ==> State() == old(State())
      ensures !EmailTaken(old(users), details.email)
              ==> State() == old(State()).(users := old(users) + [RegisteredUser(details)], currentView := LoginView)
      ensures EmailsDistinct(old(users)) ==> EmailsDistinct(users)
    {
      if exists i :: 0 <= i < |users| && users[i].email == details.email {
        return;
      }
      AddFreshUserKeepsEmailsDistinct(users, RegisteredUser(details));
      users := users + [RegisteredUser(details)];
      currentView := LoginView;
    }

    method LoginSuccess(user: User)
      modifies this
      ensures State() == old(State()).(currentUser := Some(user), currentView := DashboardView)
    {
      currentUser := Some(user);
      currentView := DashboardView;
    }

    method Logout()
      modifies this
      ensures State() == old(State()).(currentUser := None, currentView := PublicView)
    {
      currentUser := None;
      currentView := PublicView;
    }

    /**
     * handleSubmit: a visitor is sent to the login page and nothing is stored;
     * a user's report is added as pending under the user's e-mail, its company
     * registered, and the success message shown on the public page.
     */
    method Submit(payload: SubmissionPayload, timestamp: nat)
      modifies this
      ensures old(currentUser).None? ==> State() == old(State()).(currentView := LoginView)
      ensures old(currentUser).Some? ==>
                State() == old(State()).(
                  companies := EnsureCompany(old(companies), payload.companyName),
                  projects := old(projects) + [NewSubmission(payload, Text.NatToString(timestamp), old(currentUser).value.email)],
                  showSuccessMessage := true,
                  currentView := PublicView)
      ensures CompaniesCover(old(projects), old(companies)) ==> CompaniesCover(projects, companies)
    {
      if currentUser.None? {
        currentView := LoginView;
        return;
      }
      var s := NewSubmission(payload, Text.NatToString(timestamp), currentUser.value.email);
      AppendKeepsCompaniesCovered(projects, companies, s);
      companies := EnsureCompany(companies, payload.companyName);
      projects := projects + [s];
      showSuccessMessage := true;
      currentView := PublicView;
    }

    /** The timer `handleSubmit` starts, five seconds later: it hides the success message and changes nothing else. */
    method SubmitSuccessTimerFired()
      modifies this
      ensures State() == old(State()).(showSuccessMessage := false)
    {
      showSuccessMessage := false;
    }

    /** handleApproval: the report with the id becomes Approved and its company is registered; an unknown id changes nothing. */
    method Approve(id: string)
      modifies this
      ensures FindById(old(projects), id).None? ==> State() == old(State())
      ensures FindById(old(projects), id).Some? ==>
                var p := FindById(old(projects), id).value;
                State() == old(State()).(
                  companies := EnsureCompany(old(companies), p.companyName),
                  projects := ReplaceById(old(projects), id, p.(status := Approved)))
      ensures CompaniesCover(old(projects), old(companies)) ==> CompaniesCover(projects, companies)
    {
      var found := FindById(projects, id);
      if found.None? {
        return;
      }
      var p := found.value;
      ReplaceKeepsCompaniesCovered(projects, companies, id, p.(status := Approved));
      companies := EnsureCompany(companies, p.companyName);
      projects := ReplaceById(projects, id, p.(status := Approved));
    }

    /** handleConfirmRejection: the report becomes Rejected with the reason, and the dialog closes. */
    method ConfirmRejection(id: string, reason: Option<string>)
      modifies this
      ensures FindById(old(projects), id).None? ==> State() == old(State())
      ensures FindById(old(projects), id).Some? ==>
                var p := FindById(old(projects), id).value;
                State() == old(State()).(
                  projects := ReplaceById(old(projects), id, p.(status := Rejected, rejectionReason := reason)),
                  rejectionTarget := None)
      ensures CompaniesCover(old(projects), old(companies)) ==> CompaniesCover(projects, companies)
    {
      var found := FindById(projects, id);
      if found.None? {
        return;
      }
      var p := found.value;
      var k :| 0 <= k < |projects| && projects[k] == p;
      ReplaceWithinCompanyKeepsCovered(projects, companies, id, p.(status := Rejected, rejectionReason := reason), k);
      projects := ReplaceById(projects, id, p.(status := Rejected, rejectionReason := reason));
      rejectionTarget := None;
    }

    /** handleUpdateSubmission: the edited report replaces those with its id (none, if the id is unknown) and its company is registered. */
    method UpdateSubmission(updated: Submission)
      modifies this
      ensures State() == old(State()).(
                companies := EnsureCompany(old(companies), updated.companyName),
                projects := ReplaceById(old(projects), updated.id, updated),
                editingSubmission := None)
      ensures CompaniesCover(old(projects), old(companies)) ==> CompaniesCover(projects, companies)
    {
      ReplaceKeepsCompaniesCovered(projects, companies, updated.id, updated);
      companies := EnsureCompany(companies, updated.companyName);
      projects := ReplaceById(projects, updated.id, updated);
      editingSubmission := None;
    }

    /** handleSaveCompanyReply: only the company's reply of that report changes. */
    method SaveCompanyReply(id: string, reply: string)
      modifies this
      ensures FindById(old(projects), id).None? ==> State() == old(State())
      ensures FindById(old(projects), id).Some? ==>
                var p := FindById(old(projects), id).value;
                State() == old(State()).(projects := ReplaceById(old(projects), id, p.(companyReply := Some(reply))))
    {
      var found := FindById(projects, id);
      if found.None? {
        return;
      }
      projects := ReplaceById(projects, id, found.value.(companyReply := Some(reply)));
    }

    /** handleUpdateSubmissionByUser: only the rating, the rebuttal and the would-buy-again answer change. */
    method UpdateSubmissionByUser(id: string, rating: real, rebuttal: string, wouldBuyAgain: bool)
      modifies this
      ensures FindById(old(projects), id).None? ==> State() == old(State())
      ensures FindById(old(projects), id).Some? ==>
                var p := FindById(old(projects), id).value;
                State() == old(State()).(projects := ReplaceById(old(projects), id,
                  p.(rating := rating, userRebuttal := Some(rebuttal), wouldBuyAgain := Some(wouldBuyAgain))))
    {
      var found := FindById(projects, id);
      if found.None? {
        return;
      }
      projects := ReplaceById(projects, id,
        found.value.(rating := rating, userRebuttal := Some(rebuttal), wouldBuyAgain := Some(wouldBuyAgain)));
    }

    /**
     * handleSaveUser. Creating: a taken e-mail or an empty password changes
     * nothing; otherwise the user is added. Editing: an unknown e-mail changes
     * nothing; otherwise the user takes the form's fields, and a new hash only
     * when a password was typed. A save that goes through closes the editor.
     */
    method SaveUser(form: UserForm, isNew: bool)
      modifies this
      ensures SavedUsers(old(users), form, isNew).None? ==> State() == old(State())
      ensures SavedUsers(old(users), form, isNew).Some? ==>
                State() == old(State()).(users := SavedUsers(old(users), form, isNew).value,
                                         editingUser := None, isCreatingUser := false)
      ensures EmailsDistinct(old(users)) ==> EmailsDistinct(users)
    {
      var saved := SavedUsers(users, form, isNew);
      if saved.None? {
        return;
      }
      users, editingUser, isCreatingUser := saved.value, None, false;
    }

    /** handleUpdateCurrentUser: the logged-in user's name, and hash when a password was typed, change in the list and in the session. */
    method UpdateCurrentUser(details: AccountDetails)
      modifies this
      ensures old(currentUser).None? ==> State() == old(State())
      ensures old(currentUser).Some? ==>
                var u := UpdatedAccount(old(currentUser).value, details);
                State() == old(State()).(users := ReplaceUserByEmail(old(users), u.email, u), currentUser := Some(u))
      ensures EmailsDistinct(old(users)) ==> EmailsDistinct(users)
    {
      if currentUser.None? {
        return;
      }
      var u := UpdatedAccount(currentUser.value, details);
      ReplaceUserKeepsEmails(users, u.email, u);
      users := ReplaceUserByEmail(users, u.email, u);
      currentUser := Some(u);
    }

    /** handleSaveApiKey: a blank key removes the key, any other is stored trimmed. */
    method SaveApiKey(newKey: string)
      modifies this
      ensures State() == old(State()).(apiKey := StoredApiKey(newKey))
    {
      var keyToSave := Text.Trim(newKey);
      apiKey := if keyToSave != "" then Some(keyToSave) else None;
    }

    /** handleDismissDuplicate: the group key joins the dismissed keys. */
    method DismissDuplicate(groupKey: string)
      modifies this
      ensures State() == old(State()).(dismissedDuplicates := old(dismissedDuplicates) + [groupKey])
    {
      dismissedDuplicates := dismissedDuplicates + [groupKey];
    }

    /**
     * generateCompanyAnalysis up to its `await`. Without a key an error result
     * is recorded; with one, the company is marked loading, and it is unmarked
     * again at once when it has no approved report. `awaiting` says whether the
     * service was called, so that the company stays loading until
     * `CompleteCompanyAnalysis`.
     */
    method StartCompanyAnalysis(companyName: string, allProjects: seq<Submission>) returns (awaiting: bool)
      modifies this
      ensures awaiting <==> Present(old(apiKey)) && ApprovedOfCompany(allProjects, companyName) != []
      ensures !Present(old(apiKey)) ==> State() == old(State()).(companyAnalyses := old(companyAnalyses)[companyName := NoKeyAnalysis])
      ensures Present(old(apiKey)) && !awaiting ==>
                State() == old(State()).(loadingAnalyses := old(loadingAnalyses)[companyName := false])
      ensures awaiting ==> State() == old(State()).(loadingAnalyses := old(loadingAnalyses)[companyName := true])
    {
      if !Present(apiKey) {
        companyAnalyses := companyAnalyses[companyName := NoKeyAnalysis];
        return false;
      }
      var loading := loadingAnalyses;
      loadingAnalyses := loading[companyName := true];
      if ApprovedOfCompany(allProjects, companyName) == [] {
        loadingAnalyses := loading[companyName := false];
        return false;
      }
      awaiting := true;
    }

    /**
     * The `finally` block once the service has answered: its reply (`None` when
     * the call threw) is recorded and the company is no longer loading.
     */
    method CompleteCompanyAnalysis(companyName: string, reply: Option<string>)
      modifies this
      ensures State() == old(State()).(companyAnalyses := old(companyAnalyses)[companyName := AnalysisOf(reply)],
                                       loadingAnalyses := old(loadingAnalyses)[companyName := false])
    {
      companyAnalyses := companyAnalyses[companyName := AnalysisOf(reply)];
      loadingAnalyses := loadingAnalyses[companyName := false];
    }

    /** generateCompanyAnalysis when nothing else happens while the service is answering. */
    method GenerateCompanyAnalysis(companyName: string, allProjects: seq<Submission>, reply: Option<string>)
      modifies this
      ensures !Present(old(apiKey)) ==> State() == old(State()).(companyAnalyses := old(companyAnalyses)[companyName := NoKeyAnalysis])
      ensures Present(old(apiKey)) && ApprovedOfCompany(allProjects, companyName) == [] ==>
                State() == old(State()).(loadingAnalyses := old(loadingAnalyses)[companyName := false])
      ensures Present(old(apiKey)) && ApprovedOfCompany(allProjects, companyName) != [] ==>
                State() == old(State()).(companyAnalyses := old(companyAnalyses)[companyName := AnalysisOf(reply)],
                                         loadingAnalyses := old(loadingAnalyses)[companyName := false])
    {
      var awaiting := StartCompanyAnalysis(companyName, allProjects);
      if awaiting {
        CompleteCompanyAnalysis(companyName, reply);
      }
    }
  }
}

=== FILE: delay.dfy ===
/**
 * The delay helpers the pages share: `calculateDelay` (whole days late),
 * `formatDelay` (a delay in days as Portuguese text) and the colour of a
 * delay. The company page, the project page and the ranking card each carry
 * an identical copy of `formatDelay`; all three are this one definition.
 *
 * `formatDelay`'s constants 365.25 and 30.44 are exact here (reals), and
 * `toLocaleString('pt-BR')` is only ever applied to multiples of one half,
 * which it writes as "n" or "n,5".
 */
module Delay {
  import opened Domain
  import Text

  /** `Math.round`: the nearest integer, halves rounded up (towards +infinity). */
  function Round(x: real): (n: int)
    ensures x - 0.5 < n as real <= x + 0.5
  {
    (x + 0.5).Floor
  }

  lemma RoundInt(n: int)
    ensures Round(n as real) == n
  {
  }

  function Abs(n: int): nat
  {
    if n < 0 then -n else n
  }

  /** A non-negative multiple of one half, `h / 2`, as pt-BR writes it: "n" or "n,5". */
  function RenderHalves(h: nat): (s: string)
    ensures |s| >= 1 && Text.IsDigit(s[0])
    ensures h % 2 == 0 ==> s == Text.NatToString(h / 2)
    ensures h % 2 == 1 ==> s == Text.NatToString(h / 2) + ",5"
  {
    Text.NatToString(h / 2) + (if h % 2 == 1 then ",5" else "")
  }

  /**
   * `calculateDelay`: whole days from the promised date to the delivery, or to `now`
   * (in days) when there is none; early deliveries are negative.
   */
  function CalculateDelay(promisedDate: int, actualDate: Option<int>, now: real): (d: int)
    ensures actualDate.Some? ==> d == actualDate.value - promisedDate
    ensures actualDate.None? ==> now - promisedDate as real - 0.5 < d as real <= now - promisedDate as real + 0.5
  {
    match actualDate
    case Some(actual) => RoundInt(actual - promisedDate); Round((actual - promisedDate) as real)
    case None => Round(now - promisedDate as real)
  }

  /** Months of a delay of at least a year: the year count and the half-rounded months left over. */
  function YearsPart(a: nat): (r: (nat, nat))
    requires a as real >= 365.25
    ensures r.0 >= 1 && r.0 as real * 365.25 <= a as real < (r.0 + 1) as real * 365.25
    ensures (a as real - 365.25 * r.0 as real) / 30.44 * 2.0 - 0.5 < r.1 as real
            <= (a as real - 365.25 * r.0 as real) / 30.44 * 2.0 + 0.5
    ensures r.1 <= 24
  {
    var years := (a as real / 365.25).Floor;
    var remainder := a as real - 365.25 * years as real;
    var h := Round(remainder / 30.44 * 2.0);
    (years, h)
  }

  /** Twice the months in `a` days, rounded: the months to the nearest half, counted in halves. */
  function MonthHalves(a: nat): int
  {
    Round(a as real / 30.44 * 2.0)
  }

  /** The text for a non-zero number of days, before the " adiantado" suffix. */
  function FormatMagnitude(a: nat): (s: string)
    requires a >= 1
    ensures |s| >= 1 && Text.IsDigit(s[0])
  {
    if a as real >= 365.25 then
      var (years, h) := YearsPart(a);
      Text.NatToString(years) + "a" + (if h > 0 then " " + RenderHalves(h) + "m" else "")
    else if a >= 30 then
      var h := MonthHalves(a);
      RenderHalves(h) + " " + (if h == 2 then "mês" else "meses")
    else
      Text.NatToString(a) + " dia" + (if a != 1 then "s" else "")
  }

  /** `formatDelay`. */
  function FormatDelay(days: real): (s: string)
  {
    var n := Round(days);
    if n == 0 then "Em dia"
    else FormatMagnitude(Abs(n)) + (if n < 0 then " adiantado" else "")
  }

  /** The text is "Em dia" exactly when the delay rounds to zero days (so 0.4 and -0.5 are on time). */
  lemma OnTimeIff(days: real)
    ensures FormatDelay(days) == "Em dia" <==> Round(days) == 0
  {
    var n := Round(days);
    if n != 0 {
      var s := FormatDelay(days);
      assert Text.IsDigit(s[0]);
    }
  }

  /** A whole, non-zero number of days is its magnitude's text, marked when early. */
  lemma FormatWholeDays(n: int)
    requires n != 0
    ensures n > 0 ==> FormatDelay(n as real) == FormatMagnitude(n)
    ensures n < 0 ==> FormatDelay(n as real) == FormatMagnitude(-n) + " adiantado"
  {
    RoundInt(n);
    if n > 0 {
      assert FormatMagnitude(n) + "" == FormatMagnitude(n);
    }
  }

  /** An early delivery reads as the same delay late, followed by " adiantado". */
  lemma EarlyMirrorsLate(n: int)
    requires n > 0
    ensures FormatDelay(-n as real) == FormatDelay(n as real) + " adiantado"
  {
    FormatWholeDays(n);
    FormatWholeDays(-n);
    var late, early := FormatDelay(n as real), FormatDelay(-n as real);
    assert late == FormatMagnitude(n);
    assert early == FormatMagnitude(n) + " adiantado";
  }

  /** Under 30 days: the day count, with "dia" made plural for every count but 1. */
  lemma DaysBranch(n: int)
    requires 1 <= n < 30
    ensures FormatDelay(n as real) == Text.NatToString(n) + (if n == 1 then " dia" else " dias")
  {
    RoundInt(n);
  }

  /**
   * From 30 days to a year: a whole or half number of months between 1 and 12,
   * called "mês" exactly when it is 1.
   */
  lemma MonthsBranch(n: int)
    requires 30 <= n < 366
    ensures 2 <= MonthHalves(n) <= 24
    ensures FormatDelay(n as real) == RenderHalves(MonthHalves(n)) + (if MonthHalves(n) == 2 then " mês" else " meses")
  {
    RoundInt(n);
    assert 1.5 < n as real / 30.44 * 2.0 < 24.5;
  }

  /**
   * A year or more: the whole years with "a", then the remaining months
   * (the days past the last whole year over 30.44), rounded to the nearest
   * half, with "m" only when they are not zero.
   */
  lemma YearsBranch(n: int)
    requires n >= 366
    ensures exists years: nat, h: nat :: years >= 1 && h <= 24
              && years as real * 365.25 <= n as real < (years + 1) as real * 365.25
              && (n as real - 365.25 * years as real) / 30.44 * 2.0 - 0.5 < h as real
              && h as real <= (n as real - 365.25 * years as real) / 30.44 * 2.0 + 0.5
              && FormatDelay(n as real) == Text.NatToString(years) + "a" + (if h > 0 then " " + RenderHalves(h) + "m" else "")
  {
    FormatWholeDays(n);
    var (years, h) := YearsPart(n);
    var s := Text.NatToString(years) + "a" + (if h > 0 then " " + RenderHalves(h) + "m" else "");
    assert FormatMagnitude(n) == s;
    assert years >= 1 && h <= 24
           && years as real * 365.25 <= n as real < (years + 1) as real * 365.25
           && (n as real - 365.25 * years as real) / 30.44 * 2.0 - 0.5 < h as real
           && h as real <= (n as real - 365.25 * years as real) / 30.44 * 2.0 + 0.5
           && FormatDelay(n as real) == s;
  }

  /** Fractions of a day are rounded before the zero test. */
  lemma ExamplesOnTime()
    ensures FormatDelay(0.4) == "Em dia"
    ensures FormatDelay(-0.5) == "Em dia"
  {
  }

  lemma ExamplesDays()
    ensures FormatDelay(1.0) == "1 dia"
    ensures FormatDelay(-3.0) == "3 dias adiantado"
  {
    FormatWholeDays(1);
    FormatWholeDays(-3);
    assert FormatMagnitude(1) == "1 dia";
    assert FormatMagnitude(3) == "3 dias";
  }

  lemma ExampleOneMonth()
    ensures FormatDelay(30.0) == "1 mês"
  {
    RoundInt(30);
    assert MonthHalves(30) == 2;
  }

  lemma ExampleMonthAndHalf()
    ensures FormatDelay(51.0) == "1,5 meses"
  {
    RoundInt(51);
    assert MonthHalves(51) == 3;
  }

  lemma ExamplesYears()
    ensures FormatDelay(400.0) == "1a 1m"
    ensures FormatDelay(366.0) == "1a"
  {
    RoundInt(400);
    RoundInt(366);
  }

  /** Just under two years the months round up to 12, which is written out rather than carried into the years. */
  lemma TwelveMonthsNotCarried()
    ensures FormatDelay(730.0) == "1a 12m"
  {
    RoundInt(730);
    assert Text.NatToString(12) == "12";
  }

  datatype DelayColor = Green | Amber | Red

  /** `delayColor` (company page, project page and ranking card): red above 90 days, amber above 30. */
  function ColorOf(averageDelay: real): (c: DelayColor)
    ensures c == Red <==> averageDelay > 90.0
    ensures c == Amber <==> 30.0 < averageDelay <= 90.0
    ensures c == Green <==> averageDelay <= 30.0
  {
    if averageDelay > 90.0 then Red else if averageDelay > 30.0 then Amber else Green
  }

  function Severity(c: DelayColor): nat
  {
    match c
    case Green => 0
    case Amber => 1
    case Red => 2
  }

  /** A longer delay is never shown in a milder colour. */
  lemma ColorMonotone(d1: real, d2: real)
    requires d1 <= d2
    ensures Severity(ColorOf(d1)) <= Severity(ColorOf(d2))
  {
  }
}

=== FILE: domain.dfy ===
/**
 * The records of the review platform: users, companies and the delay reports
 * ("submissions", ProjectDelay in the source) that users file about
 * crowdfunding projects.
 *
 * Calendar dates ("YYYY-MM-DD" strings) are day numbers; an absent or empty
 * date is `None`. An optional text field is `None` when the key is missing;
 * JavaScript's truthiness of such a field is `Present`.
 */
module Domain {

  datatype Option<+T> = None | Some(value: T)

  /** A calendar date as a number of days. */
  type Day = int

  datatype Status = Pending | Approved | Rejected

  /** UserRole; `PlainUser` is the source's `UserRole.User`. */
  datatype Role = SiteAdmin | CompanyAdmin | PlainUser

  datatype User = User(
    email: string,
    passwordHash: string,
    role: Role,
    fullName: string,
    birthDate: string,
    companyName: Option<string>)

  /** ProjectDelay: one report of a project's promised and actual delivery. */
  datatype Submission = Submission(
    id: string,
    companyName: string,
    projectName: string,
    crowdfundingLink: string,
    promisedDate: Day,
    actualDate: Option<Day>,
    status: Status,
    rating: real,
    comment: Option<string>,
    submitterEmail: string,
    companyReply: Option<string>,
    userRebuttal: Option<string>,
    rejectionReason: Option<string>,
    wouldBuyAgain: Option<bool>)

  datatype Company = Company(name: string)

  /** A cached AI summary of a company; the text itself comes from an external service. */
  datatype AnalysisResult = AnalysisResult(text: string, isError: bool)

  /** JavaScript truthiness of an optional string: present and non-empty. */
  predicate Present(s: Option<string>)
  {
    s.Some? && s.value != ""
  }

  /** `s || ''`. */
  function OrEmpty(s: Option<string>): (r: string)
    ensures Present(s) <==> r != ""
  {
    if s.Some? then s.value else ""
  }

  predicate IsApproved(p: Submission)
  {
    p.status == Approved
  }

  /** `users.find(u => u.email === email)`: the first user with that e-mail, if any. */
  function FindUser(users: seq<User>, email: string): (r: Option<User>)
    ensures r.None? <==> forall i :: 0 <= i < |users| ==> users[i].email != email
    ensures r.Some? ==> r.value.email == email
    ensures r.Some? ==> exists i :: 0 <= i < |users| && users[i] == r.value
                                    && forall j :: 0 <= j < i ==> users[j].email != email
    decreases |users|
  {
    if users == [] then None
    else if users[0].email == email then Some(users[0])
    else
      var r := FindUser(users[1..], email);
      assert forall i :: 1 <= i < |users| ==> users[i] == users[1..][i - 1];
      if r.Some? then
        assert exists i :: 0 <= i < |users| && users[i] == r.value
                           && forall j :: 0 <= j < i ==> users[j].email != email by {
          var i :| 0 <= i < |users[1..]| && users[1..][i] == r.value
                   && forall j :: 0 <= j < i ==> users[1..][j].email != email;
          assert users[i + 1] == r.value;
          assert forall j :: 1 <= j < i + 1 ==> users[j].email != email by {
            forall j | 1 <= j < i + 1
              ensures users[j].email != email
            {
              assert users[j] == users[1..][j - 1];
            }
          }
        }
        r
      else r
  }

  /** `projects.find(p => p.id === id)`: the first report with that id, if any. */
  function FindById(subs: seq<Submission>, id: string): (r: Option<Submission>)
    ensures r.None? <==> forall i :: 0 <= i < |subs| ==> subs[i].id != id
    ensures r.Some? ==> exists i :: 0 <= i < |subs| && subs[i] == r.value && r.value.id == id
                                    && forall j :: 0 <= j < i ==> subs[j].id != id
    decreases |subs|
  {
    if subs == [] then None
    else if subs[0].id == id then Some(subs[0])
    else
      var r := FindById(subs[1..], id);
      assert forall i :: 1 <= i < |subs| ==> subs[i] == subs[1..][i - 1];
      if r.Some? then
        assert exists i :: 0 <= i < |subs| && subs[i] == r.value && r.value.id == id
                           && forall j :: 0 <= j < i ==> subs[j].id != id by {
          var i :| 0 <= i < |subs[1..]| && subs[1..][i] == r.value && r.value.id == id
                   && forall j :: 0 <= j < i ==> subs[1..][j].id != id;
          assert subs[i + 1] == r.value;
          forall j | 1 <= j < i + 1
            ensures subs[j].id != id
          {
            assert subs[j] == subs[1..][j - 1];
          }
        }
        r
      else r
  }

  /** `simpleHash` (App.tsx and Login.tsx define the same one): the password followed by "_hashed". */
  function SimpleHash(password: string): (h: string)
    ensures |h| == |password| + 7 && h[..|password|] == password
  {
    password + "_hashed"
  }

  /** Different passwords never share a hash. */
  lemma SimpleHashInjective(p: string, q: string)
    requires SimpleHash(p) == SimpleHash(q)
    ensures p == q
  {
    assert p == SimpleHash(p)[..|p|];
  }
}

=== FILE: duplicates.dfy ===
/**
 * The duplicate detector of the controller (`findDuplicateGroups`): reports
 * that point at the same crowdfunding page are grouped by a normalised link,
 * hostname followed by pathname with one trailing "/" removed. Links that do
 * not parse and keys the site admin has dismissed are skipped, and only groups
 * of two or more reports are returned. The status of a report is never read.
 */
module Duplicates {
  import opened Domain
  import opened Grouping
  import Seqs

  /**
   * `new URL(link)` reduced to what the detector reads: `Some((hostname, pathname))`,
   * or `None` where the constructor throws.
   */
  type UrlParser = string -> Option<(string, string)>

  /** `.replace(/\/$/, "")`: removes one "/" at the very end, if there is one. */
  function StripTrailingSlash(s: string): (r: string)
    ensures |s| > 0 && s[|s| - 1] == '/' ==> s == r + "/"
    ensures !(|s| > 0 && s[|s| - 1] == '/') ==> r == s
  {
    if |s| > 0 && s[|s| - 1] == '/' then s[..|s| - 1] else s
  }

  /** The normalised link, or `None` when the link does not parse. */
  function NormalizeLink(parse: UrlParser, link: string): (r: Option<string>)
    ensures r.None? <==> parse(link).None?
    ensures r.Some? ==> r.value == StripTrailingSlash(parse(link).value.0 + parse(link).value.1)
  {
    match parse(link)
    case None => None
    case Some((hostname, pathname)) => Some(StripTrailingSlash(hostname + pathname))
  }

  /** The bucket a report goes to, or `None` when the detector skips it. */
  function DetectorKey(parse: UrlParser, dismissed: seq<string>, p: Submission): (r: Option<string>)
    ensures r.Some? <==> NormalizeLink(parse, p.crowdfundingLink).Some?
                         && NormalizeLink(parse, p.crowdfundingLink).value !in dismissed
    ensures r.Some? ==> r == NormalizeLink(parse, p.crowdfundingLink)
  {
    match NormalizeLink(parse, p.crowdfundingLink)
    case None => None
    case Some(k) => if k in dismissed then None else Some(k)
  }

  function DetectorKeyFn(parse: UrlParser, dismissed: seq<string>): Submission -> Option<string>
  {
    p => DetectorKey(parse, dismissed, p)
  }

  predicate IsDuplicateGroup(g: seq<Submission>)
  {
    |g| > 1
  }

  /** The groups `findDuplicateGroups` returns, in the order their keys first occur. */
  function DuplicateGroups(projects: seq<Submission>, dismissed: seq<string>, parse: UrlParser): seq<seq<Submission>>
  {
    var key := DetectorKeyFn(parse, dismissed);
    Seqs.Filter(Buckets(projects, key, KeysInOrder(projects, key)), IsDuplicateGroup)
  }

  /** `findDuplicateGroups`: fills the link map report by report, then keeps the buckets of two or more. */
  method FindDuplicateGroups(projects: seq<Submission>, dismissed: seq<string>, parse: UrlParser)
    returns (result: seq<seq<Submission>>)
    ensures result == DuplicateGroups(projects, dismissed, parse)
  {
    var key := DetectorKeyFn(parse, dismissed);
    var keys, urlMap := GroupBy(projects, key);
    var values := seq(|keys|, i requires 0 <= i < |keys| => urlMap[keys[i]]);
    assert values == Buckets(projects, key, KeysInOrder(projects, key));
    result := Seqs.Filter(values, IsDuplicateGroup);
  }

  /** A sequence is a returned group exactly when it is the full bucket of some key and has two or more reports. */
  lemma DuplicateGroupsMembership(projects: seq<Submission>, dismissed: seq<string>, parse: UrlParser, g: seq<Submission>)
    ensures g in DuplicateGroups(projects, dismissed, parse)
        <==> |g| > 1 && exists k :: g == Members(projects, DetectorKeyFn(parse, dismissed), k)
  {
    if g != [] {
      BucketsMembership(projects, DetectorKeyFn(parse, dismissed), g);
    }
  }

  /** Every group has at least two reports, all from the input, all with the same (present) key. */
  lemma GroupsShareKey(projects: seq<Submission>, dismissed: seq<string>, parse: UrlParser, g: seq<Submission>)
    requires g in DuplicateGroups(projects, dismissed, parse)
    ensures |g| >= 2
    ensures forall x :: x in g ==> x in projects && DetectorKey(parse, dismissed, x).Some?
    ensures forall x, y :: x in g && y in g ==> DetectorKey(parse, dismissed, x) == DetectorKey(parse, dismissed, y)
    ensures Seqs.IsSubsequence(g, projects)
  {
    DuplicateGroupsMembership(projects, dismissed, parse, g);
    var k :| g == Members(projects, DetectorKeyFn(parse, dismissed), k);
    MembersIsSubsequence(projects, DetectorKeyFn(parse, dismissed), k);
  }

  /** Two groups that share a report are the same group, and no group is listed twice. */
  lemma GroupsDisjoint(projects: seq<Submission>, dismissed: seq<string>, parse: UrlParser)
    ensures forall g, h, x ::
              (g in DuplicateGroups(projects, dismissed, parse) && h in DuplicateGroups(projects, dismissed, parse)
               && x in g && x in h) ==> g == h
    ensures Seqs.NoRepeats(DuplicateGroups(projects, dismissed, parse))
  {
    var key := DetectorKeyFn(parse, dismissed);
    var ks := KeysInOrder(projects, key);
    var bs := Buckets(projects, key, ks);
    var r := DuplicateGroups(projects, dismissed, parse);
    forall g, h, x | g in r && h in r && x in g && x in h
      ensures g == h
    {
      DuplicateGroupsMembership(projects, dismissed, parse, g);
      DuplicateGroupsMembership(projects, dismissed, parse, h);
    }
    assert Seqs.NoRepeats(bs) by {
      forall i, j | 0 <= i < j < |bs|
        ensures bs[i] != bs[j]
      {
        var y :| 0 <= y < |projects| && key(projects[y]) == Some(ks[i]);
        assert projects[y] in bs[i];
      }
    }
    Seqs.FilterNoRepeats(bs, IsDuplicateGroup);
  }

  /**
   * A report is in some group exactly when its link parses to a key that is not dismissed
   * and at least two reports (of any status) share that key.
   */
  lemma GroupedIff(projects: seq<Submission>, dismissed: seq<string>, parse: UrlParser, x: Submission)
    requires x in projects
    ensures (exists g :: g in DuplicateGroups(projects, dismissed, parse) && x in g)
        <==> DetectorKey(parse, dismissed, x).Some?
             && |Members(projects, DetectorKeyFn(parse, dismissed), DetectorKey(parse, dismissed, x).value)| >= 2
  {
    var key := DetectorKeyFn(parse, dismissed);
    if exists g :: g in DuplicateGroups(projects, dismissed, parse) && x in g {
      var g :| g in DuplicateGroups(projects, dismissed, parse) && x in g;
      DuplicateGroupsMembership(projects, dismissed, parse, g);
    }
    if DetectorKey(parse, dismissed, x).Some? {
      var g := Members(projects, key, DetectorKey(parse, dismissed, x).value);
      if |g| >= 2 {
        DuplicateGroupsMembership(projects, dismissed, parse, g);
        assert x in g;
      }
    }
  }

  /** A report whose link does not parse, or whose key is dismissed, is in no group. */
  lemma SkippedNotGrouped(projects: seq<Submission>, dismissed: seq<string>, parse: UrlParser, x: Submission)
    requires parse(x.crowdfundingLink).None? || NormalizeLink(parse, x.crowdfundingLink).value in dismissed
    ensures forall g :: g in DuplicateGroups(projects, dismissed, parse) ==> x !in g
  {
    forall g | g in DuplicateGroups(projects, dismissed, parse)
      ensures x !in g
    {
      GroupsShareKey(projects, dismissed, parse, g);
    }
  }
}

=== FILE: edit_submission.dfy ===
/**
 * The site administrator's dialog for editing a report. It works on a copy
 * of the report; the company box searches the known companies as the
 * new-report form does, but the report's company changes only when a listed
 * name is picked or a new one is created.
 */
module EditSubmission {
  import opened Domain
  import Text
  import SubmissionForm

  /** "Criar": offered in the open dropdown unless the search is itself one of the listed names. */
  predicate NewNameOffered(isDropdownOpen: bool, companyNames: seq<string>, search: string)
  {
    isDropdownOpen && search != "" && search !in SubmissionForm.FilteredCompanies(companyNames, search)
  }

  /** A new company is offered exactly when the search is not already a known name. */
  lemma NewNameOfferedIff(isDropdownOpen: bool, companyNames: seq<string>, search: string)
    ensures NewNameOffered(isDropdownOpen, companyNames, search)
            <==> isDropdownOpen && search != "" && search !in companyNames
  {
    SubmissionForm.FilteredCompaniesSpec(companyNames, search);
    Text.ContainsItself(search);
  }

  /** The inputs bound to `handleChange` and the "would buy again" toggle. An empty date box is `None`. */
  datatype Edit =
    | ProjectName(text: string)
    | CrowdfundingLink(text: string)
    | PromisedDate(day: Day)
    | ActualDate(date: Option<Day>)
    | Comment(text: string)
    | CompanyReply(text: string)
    | UserRebuttal(text: string)
    | StatusChoice(status: Status)
    | ToggleWouldBuyAgain

  /**
   * One edit applied to the copy. Text boxes store what was typed, even "";
   * the toggle turns an unanswered "would buy again" into a yes. No edit
   * reaches the id, the rating or the submitter.
   */
  function Apply(s: Submission, edit: Edit): (r: Submission)
    ensures r.id == s.id && r.rating == s.rating && r.submitterEmail == s.submitterEmail
    ensures r.companyName == s.companyName
    ensures edit.ToggleWouldBuyAgain? ==>
              r.wouldBuyAgain.Some? && (r.wouldBuyAgain.value <==> !(s.wouldBuyAgain == Some(true)))
  {
    match edit
    case ProjectName(t) => s.(projectName := t)
    case CrowdfundingLink(t) => s.(crowdfundingLink := t)
    case PromisedDate(d) => s.(promisedDate := d)
    case ActualDate(d) => s.(actualDate := d)
    case Comment(t) => s.(comment := Some(t))
    case CompanyReply(t) => s.(companyReply := Some(t))
    case UserRebuttal(t) => s.(userRebuttal := Some(t))
    case StatusChoice(st) => s.(status := st)
    case ToggleWouldBuyAgain => s.(wouldBuyAgain := Some(!(s.wouldBuyAgain.Some? && s.wouldBuyAgain.value)))
  }

  /** Toggling twice answers the question the way it was answered, an unanswered one as a no. */
  lemma ToggleTwice(s: Submission)
    ensures Apply(Apply(s, ToggleWouldBuyAgain), ToggleWouldBuyAgain).wouldBuyAgain
            == Some(s.wouldBuyAgain == Some(true))
  {
  }

  /** The report saved: the copy, with the delivery date dropped unless "delivered" is ticked. */
  function Saved(formData: Submission, isDelivered: bool): (r: Submission)
    ensures r.actualDate.Some? ==> isDelivered
    ensures isDelivered ==> r == formData
    ensures r.(actualDate := formData.actualDate) == formData
  {
    formData.(actualDate := if isDelivered then formData.actualDate else None)
  }

  /** What the dialog holds besides the report it was opened on. */
  datatype DialogState = DialogState(formData: Submission, isDelivered: bool, companySearch: string, isDropdownOpen: bool)

  /** EditSubmissionModal. */
  class EditDialog {
    const companyNames: seq<string>
    var submission: Submission
    var formData: Submission
    var isDelivered: bool
    var companySearch: string
    var isDropdownOpen: bool

    function State(): DialogState
      reads this
    {
      DialogState(formData, isDelivered, companySearch, isDropdownOpen)
    }

    /** The copy keeps the identity of the report the dialog was opened on. */
    predicate Valid()
      reads this
    {
      formData.id == submission.id && formData.rating == submission.rating
      && formData.submitterEmail == submission.submitterEmail
    }

    constructor (submission: Submission, companyNames: seq<string>)
      ensures this.submission == submission && this.companyNames == companyNames
      ensures State() == DialogState(submission, submission.actualDate.Some?, submission.companyName, false)
      ensures Valid()
    {
      this.companyNames := companyNames;
      this.submission := submission;
      formData := submission;
      isDelivered := submission.actualDate.Some?;
      companySearch := submission.companyName;
      isDropdownOpen := false;
    }

    /** The effect on a new `submission`: the copy, the checkbox and the search restart from it. */
    method SubmissionChanged(s: Submission)
      modifies this
      ensures submission == s
      ensures State() == old(State()).(formData := s, isDelivered := s.actualDate.Some?, companySearch := s.companyName)
      ensures Valid()
    {
      submission := s;
      formData := s;
      isDelivered := s.actualDate.Some?;
      companySearch := s.companyName;
    }

    /** Typing in the company box changes the search only, not the report's company. */
    method TypeCompany(text: string)
      modifies this
      ensures submission == old(submission)
      ensures State() == old(State()).(companySearch := text)
      ensures formData.companyName == old(formData.companyName)
    {
      companySearch := text;
    }

    /** Focusing the company box opens the dropdown. */
    method FocusCompany()
      modifies this
      ensures submission == old(submission)
      ensures State() == old(State()).(isDropdownOpen := true)
    {
      isDropdownOpen := true;
    }

    /** A click outside the box closes the dropdown. */
    method ClickOutside()
      modifies this
      ensures submission == old(submission)
      ensures State() == old(State()).(isDropdownOpen := false)
    {
      isDropdownOpen := false;
    }

    /** `handleCompanySelect`: a listed name becomes both the search and the report's company. */
    method HandleCompanySelect(name: string)
      requires Valid()
      requires isDropdownOpen && companySearch != ""
      requires name in SubmissionForm.FilteredCompanies(companyNames, companySearch)
      modifies this
      ensures submission == old(submission) && Valid()
      ensures State() == old(State()).(formData := old(formData).(companyName := name),
                                       companySearch := name, isDropdownOpen := false)
      ensures formData.companyName in companyNames
    {
      SubmissionForm.FilteredCompaniesSpec(companyNames, companySearch);
      companySearch := name;
      formData := formData.(companyName := name);
      isDropdownOpen := false;
    }

    /** `handleCreateNewCompany`: the typed name, not yet known, becomes the report's company. */
    method HandleCreateNewCompany()
      requires Valid()
      requires NewNameOffered(isDropdownOpen, companyNames, companySearch)
      modifies this
      ensures submission == old(submission) && Valid()
      ensures State() == old(State()).(formData := old(formData).(companyName := old(companySearch)),
                                       isDropdownOpen := false)
      ensures formData.companyName !in companyNames
    {
      NewNameOfferedIff(isDropdownOpen, companyNames, companySearch);
      formData := formData.(companyName := companySearch);
      isDropdownOpen := false;
    }

    /** `handleChange` and `handleToggleChange`. */
    method HandleChange(edit: Edit)
      requires Valid()
      modifies this
      ensures submission == old(submission) && Valid()
      ensures State() == old(State()).(formData := Apply(old(formData), edit))
    {
      formData := Apply(formData, edit);
    }

    /** The "delivered" checkbox. */
    method SetDelivered(on: bool)
      modifies this
      ensures submission == old(submission)
      ensures State() == old(State()).(isDelivered := on)
    {
      isDelivered := on;
    }

    /** `handleSubmit`: the edited report, under the id, rating and submitter it was opened with. */
    method HandleSubmit() returns (updated: Submission)
      requires Valid()
      ensures updated == Saved(formData, isDelivered)
      ensures updated.id == submission.id && updated.rating == submission.rating
      ensures updated.submitterEmail == submission.submitterEmail
    {
      updated := formData.(actualDate := if isDelivered then formData.actualDate else None);
    }
  }
}

=== FILE: edit_user.dfy ===
/**
 * The site administrator's dialog for creating or editing a user. A
 * company administrator's company is picked from the known names, or typed
 * in after choosing the "new company" entry of the list.
 */
module EditUser {
  import opened Domain
  import Controller

  /** The value of the list's "Adicionar nova empresa..." entry. */
  const NewCompanyOption := "_NEW_"

  const BlankForm := Controller.UserForm("", "", "", PlainUser, "", "")

  /** The effect on `user` and `isCreating`: an existing user's details without a password, or a blank form. */
  function LoadedForm(user: Option<User>, isCreating: bool): (f: Controller.UserForm)
    ensures f.password == ""
    ensures user.Some? && !isCreating ==>
              && f.email == user.value.email && f.fullName == user.value.fullName
              && f.birthDate == user.value.birthDate && f.role == user.value.role
              && (f.companyName != "" <==> Present(user.value.companyName))
              && (Present(user.value.companyName) ==> f.companyName == user.value.companyName.value)
    ensures user.None? || isCreating ==> f == BlankForm
  {
    if user.Some? && !isCreating then
      var u := user.value;
      Controller.UserForm(u.email, u.fullName, u.birthDate, u.role, OrEmpty(u.companyName), "")
    else BlankForm
  }

  /** The inputs bound to `handleChange`. */
  datatype UserInput =
    | FullName(text: string)
    | Email(text: string)
    | RoleChoice(role: Role)
    | CompanyChoice(name: string)
    | Password(text: string)

  /**
   * Whether an input can be used: the e-mail only while creating, and the
   * company list only for a company administrator, offering the known names
   * and the "new company" entry.
   */
  predicate InputShown(f: Controller.UserForm, isCreating: bool, companyNames: seq<string>, input: UserInput)
  {
    match input
    case Email(_) => isCreating
    case CompanyChoice(name) => f.role == CompanyAdmin && (name in companyNames || name == NewCompanyOption)
    case _ => true
  }

  function ApplyInput(f: Controller.UserForm, input: UserInput): Controller.UserForm
  {
    match input
    case FullName(t) => f.(fullName := t)
    case Email(t) => f.(email := t)
    case RoleChoice(r) => f.(role := r)
    case CompanyChoice(name) => f.(companyName := name)
    case Password(t) => f.(password := t)
  }

  /** While editing, no usable input changes the e-mail, which is what identifies the user on save. */
  lemma EditingKeepsEmail(f: Controller.UserForm, companyNames: seq<string>, input: UserInput)
    requires InputShown(f, false, companyNames, input)
    ensures ApplyInput(f, input).email == f.email
  {
  }

  /** The form sent: a company administrator's company resolved, everyone else's cleared. */
  function SavedForm(f: Controller.UserForm, newCompanyName: string): (r: Controller.UserForm)
    ensures r.(companyName := f.companyName) == f
    ensures r.role != CompanyAdmin ==> r.companyName == ""
    ensures newCompanyName != NewCompanyOption ==> r.companyName != NewCompanyOption
  {
    f.(companyName :=
         if f.role == CompanyAdmin then (if f.companyName == NewCompanyOption then newCompanyName else f.companyName)
         else "")
  }

  /**
   * Opening a company administrator with a company and saving without
   * changes stores the same user; any other user comes back with an empty
   * company name.
   */
  lemma UnchangedSaveKeepsUser(u: User)
    requires u.role == CompanyAdmin ==> u.companyName.Some? && u.companyName.value != NewCompanyOption
    ensures u.role == CompanyAdmin ==> Controller.EditedUser(u, SavedForm(LoadedForm(Some(u), false), "")) == u
    ensures u.role != CompanyAdmin ==>
              Controller.EditedUser(u, SavedForm(LoadedForm(Some(u), false), "")) == u.(companyName := Some(""))
  {
  }

  /** EditUserModal. */
  class UserDialog {
    const companyNames: seq<string>
    var user: Option<User>
    var isCreating: bool
    var formData: Controller.UserForm
    var newCompanyName: string

    constructor (user: Option<User>, isCreating: bool, companyNames: seq<string>)
      ensures this.user == user && this.isCreating == isCreating && this.companyNames == companyNames
      ensures formData == LoadedForm(user, isCreating) && newCompanyName == ""
    {
      this.companyNames := companyNames;
      this.user := user;
      this.isCreating := isCreating;
      formData := LoadedForm(user, isCreating);
      newCompanyName := "";
    }

    /** The effect on new `user` or `isCreating` props. */
    method PropsChanged(user: Option<User>, isCreating: bool)
      modifies this
      ensures this.user == user && this.isCreating == isCreating
      ensures formData == LoadedForm(user, isCreating) && newCompanyName == ""
    {
      this.user := user;
      this.isCreating := isCreating;
      formData := LoadedForm(user, isCreating);
      newCompanyName := "";
    }

    /** `handleChange`: choosing the "new company" entry also empties the typed name. */
    method HandleChange(input: UserInput)
      requires InputShown(formData, isCreating, companyNames, input)
      modifies this
      ensures user == old(user) && isCreating == old(isCreating)
      ensures formData == ApplyInput(old(formData), input)
      ensures newCompanyName == (if input == CompanyChoice(NewCompanyOption) then "" else old(newCompanyName))
    {
      if input == CompanyChoice(NewCompanyOption) {
        newCompanyName := "";
      }
      formData := ApplyInput(formData, input);
    }

    /** Typing the new company's name, possible once the "new company" entry is chosen. */
    method TypeNewCompanyName(text: string)
      requires formData.role == CompanyAdmin && formData.companyName == NewCompanyOption
      modifies this
      ensures user == old(user) && isCreating == old(isCreating) && formData == old(formData)
      ensures newCompanyName == text
    {
      newCompanyName := text;
    }

    /** `handleSubmit`: the resolved form goes to the controller with the creating flag. */
    method HandleSubmit() returns (form: Controller.UserForm, isNew: bool)
      ensures form == SavedForm(formData, newCompanyName) && isNew == isCreating
      ensures form.role == CompanyAdmin && formData.companyName == NewCompanyOption ==> form.companyName == newCompanyName
    {
      form := formData;
      if form.role == CompanyAdmin {
        form := form.(companyName := if formData.companyName == NewCompanyOption then newCompanyName else formData.companyName);
      } else {
        form := form.(companyName := "");
      }
      isNew := isCreating;
    }
  }
}

=== FILE: grouping.dfy ===
/**
 * The "fill a Map with forEach + push" pattern the controller and the company
 * page both use: every element with a key is appended to the bucket of that
 * key, buckets are created on first sight, and `Map.values()` lists them in
 * the order their keys were first seen. Elements without a key are skipped.
 */
module Grouping {
  import opened Domain
  import Seqs

  /** The distinct keys of `xs`, in the order they first occur. */
  function KeysInOrder<T(!new)>(xs: seq<T>, key: T -> Option<string>): (ks: seq<string>)
    ensures forall i, j :: 0 <= i < j < |ks| ==> ks[i] != ks[j]
    ensures forall i :: 0 <= i < |xs| && key(xs[i]).Some? ==> key(xs[i]).value in ks
    ensures forall k :: k in ks ==> exists i :: 0 <= i < |xs| && key(xs[i]) == Some(k)
    decreases |xs|
  {
    if xs == [] then []
    else
      var init, last := xs[..|xs| - 1], xs[|xs| - 1];
      var ks := KeysInOrder(init, key);
      assert forall i :: 0 <= i < |init| ==> init[i] == xs[i];
      if key(last).Some? && key(last).value !in ks then ks + [key(last).value] else ks
  }

  /** The bucket of key `k`: the elements whose key is `k`, in input order. */
  function Members<T(!new)>(xs: seq<T>, key: T -> Option<string>, k: string): (g: seq<T>)
    ensures |g| <= |xs|
    ensures forall x :: x in g <==> x in xs && key(x) == Some(k)
    decreases |xs|
  {
    if xs == [] then []
    else
      var init, last := xs[..|xs| - 1], xs[|xs| - 1];
      assert xs == init + [last];
      Members(init, key, k) + (if key(last) == Some(k) then [last] else [])
  }

  /** The number of elements that have a key. */
  function KeyedCount<T(!new)>(xs: seq<T>, key: T -> Option<string>): nat
    decreases |xs|
  {
    if xs == [] then 0
    else KeyedCount(xs[..|xs| - 1], key) + (if key(xs[|xs| - 1]).Some? then 1 else 0)
  }

  /** The total size of the buckets of `ks`. */
  function BucketSizes<T(!new)>(xs: seq<T>, key: T -> Option<string>, ks: seq<string>): nat
    decreases |ks|
  {
    if ks == [] then 0 else BucketSizes(xs, key, ks[..|ks| - 1]) + |Members(xs, key, ks[|ks| - 1])|
  }

  /** `Array.from(map.values())` for the map GroupBy builds. */
  function Buckets<T(!new)>(xs: seq<T>, key: T -> Option<string>, ks: seq<string>): (gs: seq<seq<T>>)
    ensures |gs| == |ks|
    ensures forall i :: 0 <= i < |ks| ==> gs[i] == Members(xs, key, ks[i])
  {
    seq(|ks|, i requires 0 <= i < |ks| => Members(xs, key, ks[i]))
  }

  /** A non-empty sequence is one of the buckets exactly when it is the bucket of some key. */
  lemma BucketsMembership<T(!new)>(xs: seq<T>, key: T -> Option<string>, g: seq<T>)
    requires g != []
    ensures g in Buckets(xs, key, KeysInOrder(xs, key)) <==> exists k :: g == Members(xs, key, k)
  {
    var ks := KeysInOrder(xs, key);
    var bs := Buckets(xs, key, ks);
    if g in bs {
      var i :| 0 <= i < |bs| && bs[i] == g;
      assert g == Members(xs, key, ks[i]);
    }
    if exists k :: g == Members(xs, key, k) {
      var k :| g == Members(xs, key, k);
      assert g[0] in xs && key(g[0]) == Some(k);
      var i :| 0 <= i < |ks| && ks[i] == k;
      assert bs[i] == g;
    }
  }

  lemma MembersAppend<T(!new)>(xs: seq<T>, x: T, key: T -> Option<string>, k: string)
    ensures Members(xs + [x], key, k) == Members(xs, key, k) + (if key(x) == Some(k) then [x] else [])
  {
    assert (xs + [x])[..|xs|] == xs;
  }

  lemma KeysAppend<T(!new)>(xs: seq<T>, x: T, key: T -> Option<string>)
    ensures KeysInOrder(xs + [x], key)
         == if key(x).Some? && key(x).value !in KeysInOrder(xs, key)
            then KeysInOrder(xs, key) + [key(x).value] else KeysInOrder(xs, key)
  {
    assert (xs + [x])[..|xs|] == xs;
  }

  /** A bucket keeps the input order of its elements. */
  lemma {:induction false} MembersIsSubsequence<T(!new)>(xs: seq<T>, key: T -> Option<string>, k: string)
    ensures Seqs.IsSubsequence(Members(xs, key, k), xs)
    decreases |xs|
  {
    if xs != [] {
      var init, last := xs[..|xs| - 1], xs[|xs| - 1];
      MembersIsSubsequence(init, key, k);
      var g := Members(init, key, k);
      assert xs[..|xs| - 1] == init;
      if key(last) == Some(k) {
        assert (g + [last])[..|g|] == g;
        assert Members(xs, key, k) == g + [last];
      } else {
        assert Members(xs, key, k) == g;
        assert g == [] || Seqs.IsSubsequence(g, xs[..|xs| - 1]);
      }
    }
  }

  /** Two key functions that agree on who has key `k` give the same bucket `k`. */
  lemma {:induction false} MembersAgree<T(!new)>(xs: seq<T>, key1: T -> Option<string>, key2: T -> Option<string>, k: string)
    requires forall x :: x in xs ==> (key1(x) == Some(k) <==> key2(x) == Some(k))
    ensures Members(xs, key1, k) == Members(xs, key2, k)
    decreases |xs|
  {
    if xs != [] {
      var init := xs[..|xs| - 1];
      assert forall x :: x in init ==> x in xs;
      MembersAgree(init, key1, key2, k);
    }
  }

  lemma BucketSizesAppendKey<T(!new)>(xs: seq<T>, key: T -> Option<string>, ks: seq<string>, k: string)
    ensures BucketSizes(xs, key, ks + [k]) == BucketSizes(xs, key, ks) + |Members(xs, key, k)|
  {
    assert (ks + [k])[..|ks|] == ks;
  }

  /** Dropping the last element shrinks exactly the bucket of its key, by one. */
  lemma {:induction false} BucketSizesDropLast<T(!new)>(xs: seq<T>, key: T -> Option<string>, ks: seq<string>)
    requires xs != []
    requires forall i, j :: 0 <= i < j < |ks| ==> ks[i] != ks[j]
    ensures BucketSizes(xs, key, ks)
         == BucketSizes(xs[..|xs| - 1], key, ks) + (if LastKeyIn(xs, key, ks) then 1 else 0)
    decreases |ks|
  {
    if ks != [] {
      var init, last := ks[..|ks| - 1], ks[|ks| - 1];
      var x, prefix := xs[|xs| - 1], xs[..|xs| - 1];
      BucketSizesDropLast(xs, key, init);
      assert |Members(xs, key, last)| == |Members(prefix, key, last)| + (if key(x) == Some(last) then 1 else 0);
      assert LastKeyIn(xs, key, ks) <==> LastKeyIn(xs, key, init) || key(x) == Some(last) by {
        assert ks == init + [last];
      }
      if key(x) == Some(last) {
        assert !LastKeyIn(xs, key, init);
      }
    }
  }

  /** Whether the last element of `xs` has one of the keys `ks`. */
  predicate LastKeyIn<T(!new)>(xs: seq<T>, key: T -> Option<string>, ks: seq<string>)
    requires xs != []
  {
    key(xs[|xs| - 1]).Some? && key(xs[|xs| - 1]).value in ks
  }

  /** The buckets partition the keyed elements: their sizes add up to the number of keyed elements. */
  lemma {:induction false} BucketSizesTotal<T(!new)>(xs: seq<T>, key: T -> Option<string>)
    ensures BucketSizes(xs, key, KeysInOrder(xs, key)) == KeyedCount(xs, key)
    decreases |xs|
  {
    if xs != [] {
      var init, x := xs[..|xs| - 1], xs[|xs| - 1];
      BucketSizesTotal(init, key);
      var ks := KeysInOrder(init, key);
      BucketSizesDropLast(xs, key, ks);
      if key(x).Some? && key(x).value !in ks {
        var k := key(x).value;
        BucketSizesAppendKey(xs, key, ks, k);
        MembersOfUnseenKey(init, key, k);
        assert Members(xs, key, k) == [x];
      }
    }
  }

  /** A key that never occurs has an empty bucket. */
  lemma MembersOfUnseenKey<T(!new)>(xs: seq<T>, key: T -> Option<string>, k: string)
    requires k !in KeysInOrder(xs, key)
    ensures Members(xs, key, k) == []
  {
  }

  /** What GroupBy has built after reading `xs`. */
  ghost predicate Grouped<T(!new)>(xs: seq<T>, key: T -> Option<string>, keys: seq<string>, groups: map<string, seq<T>>)
  {
    && keys == KeysInOrder(xs, key)
    && (forall k :: k in groups <==> k in keys)
    && (forall k :: k in groups ==> groups[k] == Members(xs, key, k))
  }

  /** One forEach step: push `x` onto its key's bucket, creating the bucket first when the key is new. */
  lemma GroupStep<T(!new)>(xs: seq<T>, x: T, key: T -> Option<string>, keys: seq<string>, groups: map<string, seq<T>>)
    returns (keys': seq<string>, groups': map<string, seq<T>>)
    requires Grouped(xs, key, keys, groups)
    ensures key(x).None? ==> keys' == keys && groups' == groups
    ensures key(x).Some? && key(x).value !in groups
            ==> keys' == keys + [key(x).value] && groups' == groups[key(x).value := [x]]
    ensures key(x).Some? && key(x).value in groups
            ==> keys' == keys && groups' == groups[key(x).value := groups[key(x).value] + [x]]
    ensures Grouped(xs + [x], key, keys', groups')
  {
    KeysAppend(xs, x, key);
    keys', groups' := keys, groups;
    if key(x).Some? {
      var k := key(x).value;
      if k !in groups {
        MembersOfUnseenKey(xs, key, k);
        keys', groups' := keys + [k], groups[k := [x]];
      } else {
        groups' := groups[k := groups[k] + [x]];
      }
    }
    forall k | k in groups'
      ensures groups'[k] == Members(xs + [x], key, k)
    {
      MembersAppend(xs, x, key, k);
    }
  }

  /**
   * The forEach that fills the Map: `if (!map.has(k)) map.set(k, []); map.get(k).push(x)`
   * for each element with a key. Returns the keys in insertion order and the map.
   */
  method GroupBy<T(!new)>(xs: seq<T>, key: T -> Option<string>) returns (keys: seq<string>, groups: map<string, seq<T>>)
    ensures keys == KeysInOrder(xs, key)
    ensures forall k :: k in groups <==> k in keys
    ensures forall k :: k in groups ==> groups[k] == Members(xs, key, k)
  {
    keys, groups := [], map[];
    var i := 0;
    while i < |xs|
      invariant 0 <= i <= |xs|
      invariant Grouped(xs[..i], key, keys, groups)
    {
      var x := xs[i];
      assert xs[..i + 1] == xs[..i] + [x];
      ghost var keys', groups' := GroupStep(xs[..i], x, key, keys, groups);
      match key(x) {
        case None =>
        case Some(k) =>
          if k !in groups {
            keys := keys + [k];
            groups := groups[k := [x]];
          } else {
            groups := groups[k := groups[k] + [x]];
          }
      }
      i := i + 1;
    }
    assert xs[..|xs|] == xs;
  }
}

=== FILE: login.dfy ===
/**
 * The login form: the first user with the typed e-mail is logged in when
 * the stored hash is the hash of the typed password.
 */
module Login {
  import opened Domain
  import Controller

  const InvalidCredentials := "E-mail ou senha inválidos."

  /** `users.find(u => u.email === email)`, accepted when its hash matches the password's. */
  function Authenticate(users: seq<User>, email: string, password: string): (r: Option<User>)
    ensures r.Some? <==> FindUser(users, email).Some? && FindUser(users, email).value.passwordHash == SimpleHash(password)
    ensures r.Some? ==> r == FindUser(users, email) && r.value.email == email && r.value in users
  {
    match FindUser(users, email)
    case None => None
    case Some(u) => if u.passwordHash == SimpleHash(password) then Some(u) else None
  }

  /** Once the account is found, exactly one password opens it: the one whose hash is stored. */
  lemma OnlyThePasswordLogsIn(users: seq<User>, email: string, stored: string, password: string)
    requires FindUser(users, email).Some? && FindUser(users, email).value.passwordHash == SimpleHash(stored)
    ensures Authenticate(users, email, password).Some? <==> password == stored
  {
    if Authenticate(users, email, password).Some? {
      SimpleHashInjective(password, stored);
    }
  }

  /** A user registered under a fresh e-mail logs in with the registration password, and with no other. */
  lemma RegisteredUserCanLogIn(users: seq<User>, d: Controller.RegistrationDetails, password: string)
    requires !Controller.EmailTaken(users, d.email)
    ensures Authenticate(users + [Controller.RegisteredUser(d)], d.email, d.password) == Some(Controller.RegisteredUser(d))
    ensures Authenticate(users + [Controller.RegisteredUser(d)], d.email, password).Some? <==> password == d.password
  {
    var after := users + [Controller.RegisteredUser(d)];
    assert after[|users|].email == d.email;
    var found := FindUser(after, d.email);
    var i :| 0 <= i < |after| && after[i] == found.value && forall j :: 0 <= j < i ==> after[j].email != d.email;
    if i < |users| {
      assert false;
    }
    assert found == Some(Controller.RegisteredUser(d));
    OnlyThePasswordLogsIn(after, d.email, d.password, password);
  }

  /** Login. */
  class LoginForm {
    const users: seq<User>
    var email: string
    var password: string
    var error: string

    constructor (users: seq<User>)
      ensures this.users == users
      ensures email == "" && password == "" && error == ""
    {
      this.users := users;
      email, password, error := "", "", "";
    }

    method TypeEmail(text: string)
      modifies this
      ensures email == text && password == old(password) && error == old(error)
    {
      email := text;
    }

    method TypePassword(text: string)
      modifies this
      ensures password == text && email == old(email) && error == old(error)
    {
      password := text;
    }

    /** `handleLogin`: the user found is handed on and the error cleared, or the error is shown. */
    method HandleLogin() returns (loggedIn: Option<User>)
      modifies this
      ensures loggedIn == Authenticate(users, email, password)
      ensures email == old(email) && password == old(password)
      ensures error == (if loggedIn.Some? then "" else InvalidCredentials)
    {
      var found := FindUser(users, email);
      if found.Some? && found.value.passwordHash == SimpleHash(password) {
        error := "";
        loggedIn := found;
      } else {
        error := InvalidCredentials;
        loggedIn := None;
      }
    }
  }
}

=== FILE: merge.dfy ===
/**
 * The dialog that merges a group of duplicate reports into one. For every
 * field the admin picks which report supplies the value (initially the first
 * report, for every key it has); on save the chosen values are copied into a
 * fresh record that starts out Approved, the three free-text fields become
 * the non-empty texts of all reports joined by a separator, the rating
 * becomes the mean rating, the id becomes "merged-" plus a timestamp, and
 * the ids of all merged reports are handed back for removal.
 *
 * A record under construction is a map from field names to values: a key
 * that is absent (or set to `undefined`) is not in the map.
 */
module Merge {
  import opened Domain
  import Seqs
  import Text
  import Metrics

  /** The keys of a ProjectDelay record. */
  datatype Field =
    | FieldId | FieldCompanyName | FieldProjectName | FieldLink
    | FieldPromisedDate | FieldActualDate | FieldStatus | FieldRating
    | FieldComment | FieldSubmitterEmail | FieldCompanyReply | FieldUserRebuttal
    | FieldRejectionReason | FieldWouldBuyAgain

  /** A field's value; dates are day numbers. */
  datatype Value = Str(s: string) | DayValue(d: Day) | Number(r: real) | StatusValue(st: Status) | Flag(b: bool)

  const AllFields: set<Field> := {
    FieldId, FieldCompanyName, FieldProjectName, FieldLink,
    FieldPromisedDate, FieldActualDate, FieldStatus, FieldRating,
    FieldComment, FieldSubmitterEmail, FieldCompanyReply, FieldUserRebuttal,
    FieldRejectionReason, FieldWouldBuyAgain }

  /** The fields the save handler overwrites after copying the selections. */
  const Overwritten: set<Field> := {FieldComment, FieldCompanyReply, FieldUserRebuttal, FieldRating, FieldId}

  /** The separator between the texts of the merged reports. */
  const Separator := "\n---\n"

  lemma AllFieldsComplete(f: Field)
    ensures f in AllFields
  {
  }

  function OptionalText(o: Option<string>): Option<Value>
  {
    if o.Some? then Some(Str(o.value)) else None
  }

  /** `s[field]`; `None` when the record has no such key. */
  function Get(s: Submission, f: Field): Option<Value>
  {
    match f
    case FieldId => Some(Str(s.id))
    case FieldCompanyName => Some(Str(s.companyName))
    case FieldProjectName => Some(Str(s.projectName))
    case FieldLink => Some(Str(s.crowdfundingLink))
    case FieldPromisedDate => Some(DayValue(s.promisedDate))
    case FieldActualDate => if s.actualDate.Some? then Some(DayValue(s.actualDate.value)) else None
    case FieldStatus => Some(StatusValue(s.status))
    case FieldRating => Some(Number(s.rating))
    case FieldComment => OptionalText(s.comment)
    case FieldSubmitterEmail => Some(Str(s.submitterEmail))
    case FieldCompanyReply => OptionalText(s.companyReply)
    case FieldUserRebuttal => OptionalText(s.userRebuttal)
    case FieldRejectionReason => OptionalText(s.rejectionReason)
    case FieldWouldBuyAgain => if s.wouldBuyAgain.Some? then Some(Flag(s.wouldBuyAgain.value)) else None
  }

  /** The keys `for (const key in s)` visits. */
  function KeysOf(s: Submission): (ks: set<Field>)
    ensures forall f :: f in ks <==> Get(s, f).Some?
    ensures FieldId in ks && FieldStatus in ks
  {
    forall f ensures f in AllFields { AllFieldsComplete(f); }
    set f | f in AllFields && Get(s, f).Some?
  }

  /** The selection state: for each field, the id of the report that supplies it. */
  type Selections = map<Field, string>

  /** The lazy initial state: every key of the first report points at the first report. */
  function InitialSelections(subs: seq<Submission>): (sel: Selections)
    ensures subs == [] ==> sel == map[]
    ensures subs != [] ==> forall f :: f in sel <==> Get(subs[0], f).Some?
    ensures subs != [] ==> forall f :: f in sel ==> sel[f] == subs[0].id
  {
    if subs == [] then map[] else map f | f in KeysOf(subs[0]) :: subs[0].id
  }

  /** The value a fresh record has before the loop: only `status: Approved`. */
  function Default(f: Field): Option<Value>
  {
    if f == FieldStatus then Some(StatusValue(Approved)) else None
  }

  /** What the copy loop leaves in slot `f`: the selected report's value when that report exists, else the default. */
  function Chosen(subs: seq<Submission>, sel: Selections, f: Field): Option<Value>
  {
    if f in sel && FindById(subs, sel[f]).Some? then Get(FindById(subs, sel[f]).value, f) else Default(f)
  }

  /** Slot `f` once the loop has handled the keys in `done`. */
  function Slot(subs: seq<Submission>, sel: Selections, done: set<Field>, f: Field): Option<Value>
  {
    if f in done then Chosen(subs, sel, f) else Default(f)
  }

  /** Every slot once the loop has handled the keys in `done`. */
  function Slots(subs: seq<Submission>, sel: Selections, done: set<Field>): map<Field, Option<Value>>
  {
    map f | f in AllFields :: Slot(subs, sel, done, f)
  }

  /** The record whose slots are `slots`: a missing value is a missing key. */
  function Fill(slots: map<Field, Option<Value>>): map<Field, Value>
  {
    map f | f in slots && slots[f].Some? :: slots[f].value
  }

  /** Setting one slot sets one key of the record. */
  lemma FillSet(slots: map<Field, Option<Value>>, f: Field, v: Value)
    ensures Fill(slots[f := Some(v)]) == Fill(slots)[f := v]
  {
  }

  /** Clearing one slot removes one key of the record. */
  lemma FillClear(slots: map<Field, Option<Value>>, f: Field)
    ensures Fill(slots[f := None]) == Fill(slots) - {f}
  {
  }

  /** The record after the loop has handled the keys in `done`. */
  function Draft(subs: seq<Submission>, sel: Selections, done: set<Field>): map<Field, Value>
  {
    Fill(Slots(subs, sel, done))
  }

  /** One pass of the copy loop: slot `f` takes the selected report's value, or is left alone when that report is gone. */
  lemma DraftStep(subs: seq<Submission>, sel: Selections, done: set<Field>, f: Field)
    requires f in sel && f !in done
    ensures FindById(subs, sel[f]).None? ==> Draft(subs, sel, done + {f}) == Draft(subs, sel, done)
    ensures Chosen(subs, sel, f).Some? ==> Draft(subs, sel, done + {f}) == Draft(subs, sel, done)[f := Chosen(subs, sel, f).value]
    ensures Chosen(subs, sel, f).None? ==> Draft(subs, sel, done + {f}) == Draft(subs, sel, done) - {f}
  {
    var slots := Slots(subs, sel, done);
    SlotsStep(subs, sel, done, f);
    if FindById(subs, sel[f]).None? {
      SlotsUnchanged(subs, sel, done, f);
    } else if Chosen(subs, sel, f).Some? {
      FillSet(slots, f, Chosen(subs, sel, f).value);
    } else {
      FillClear(slots, f);
    }
  }

  /** Handling `f` changes slot `f` alone, to the chosen value. */
  lemma SlotsStep(subs: seq<Submission>, sel: Selections, done: set<Field>, f: Field)
    ensures Slots(subs, sel, done + {f}) == Slots(subs, sel, done)[f := Chosen(subs, sel, f)]
  {
    AllFieldsComplete(f);
    var slots, slots' := Slots(subs, sel, done), Slots(subs, sel, done + {f});
    assert forall g :: g in slots' ==> slots'[g] == slots[f := Chosen(subs, sel, f)][g];
  }

  /** A selection whose report is gone leaves slot `f` at its default. */
  lemma SlotsUnchanged(subs: seq<Submission>, sel: Selections, done: set<Field>, f: Field)
    requires f in sel && f !in done && FindById(subs, sel[f]).None?
    ensures Slots(subs, sel, done)[f := Chosen(subs, sel, f)] == Slots(subs, sel, done)
  {
    AllFieldsComplete(f);
  }

  /** The record after the whole copy loop. */
  function Copied(subs: seq<Submission>, sel: Selections): (m: map<Field, Value>)
    ensures forall f :: (f in m <==> Chosen(subs, sel, f).Some?) && (f in m ==> m[f] == Chosen(subs, sel, f).value)
  {
    forall f ensures f in AllFields { AllFieldsComplete(f); }
    map f | f in AllFields && Chosen(subs, sel, f).Some? :: Chosen(subs, sel, f).value
  }

  /** Before the loop the record holds only the Approved status. */
  lemma DraftStart(subs: seq<Submission>, sel: Selections)
    ensures Draft(subs, sel, {}) == map[FieldStatus := StatusValue(Approved)]
  {
    AllFieldsComplete(FieldStatus);
  }

  /** Once every selected key is handled, the record is the copied one. */
  lemma DraftDone(subs: seq<Submission>, sel: Selections)
    ensures Draft(subs, sel, sel.Keys) == Copied(subs, sel)
  {
    forall f ensures f in AllFields { AllFieldsComplete(f); }
    assert forall f :: Slot(subs, sel, sel.Keys, f) == Chosen(subs, sel, f);
  }

  /** `submissions.map(s => s[field]).filter(Boolean)` for a text field: the non-empty texts in report order. */
  function Texts(subs: seq<Submission>, f: Field): (ts: seq<string>)
    ensures |ts| <= |subs|
    ensures forall i :: 0 <= i < |ts| ==> ts[i] != ""
    decreases |subs|
  {
    if subs == [] then []
    else
      var last := subs[|subs| - 1];
      Texts(subs[..|subs| - 1], f)
      + (if Get(last, f).Some? && Get(last, f).value.Str? && Get(last, f).value.s != "" then [Get(last, f).value.s] else [])
  }

  /** The report has a non-empty text in field `f`. */
  predicate HasText(s: Submission, f: Field)
  {
    Get(s, f).Some? && Get(s, f).value.Str? && Get(s, f).value.s != ""
  }

  /** The combined text of field `f`. */
  function Combined(subs: seq<Submission>, f: Field): string
  {
    Text.Join(Texts(subs, f), Separator)
  }

  function MergedId(timestamp: nat): string
  {
    "merged-" + Text.NatToString(timestamp)
  }

  /** The record the save handler passes on. */
  function Merged(subs: seq<Submission>, sel: Selections, timestamp: nat): map<Field, Value>
  {
    Copied(subs, sel)
      [FieldComment := Str(Combined(subs, FieldComment))]
      [FieldCompanyReply := Str(Combined(subs, FieldCompanyReply))]
      [FieldUserRebuttal := Str(Combined(subs, FieldUserRebuttal))]
      [FieldRating := Number(Seqs.Mean(Metrics.Ratings(subs)))]
      [FieldId := Str(MergedId(timestamp))]
  }

  /** `submissions.map(s => s.id)`. */
  function Ids(subs: seq<Submission>): (ids: seq<string>)
    ensures |ids| == |subs| && forall i :: 0 <= i < |subs| ==> ids[i] == subs[i].id
  {
    seq(|subs|, i requires 0 <= i < |subs| => subs[i].id)
  }

  /** With the initial selections the merged record is the first report, apart from the overwritten fields; in particular its status replaces the Approved default. */
  lemma UntouchedSelectionsCopyFirst(subs: seq<Submission>, timestamp: nat, f: Field)
    requires subs != []
    requires f !in Overwritten
    ensures var m := Merged(subs, InitialSelections(subs), timestamp);
            (f in m <==> Get(subs[0], f).Some?) && (f in m ==> m[f] == Get(subs[0], f).value)
    ensures Merged(subs, InitialSelections(subs), timestamp)[FieldStatus] == StatusValue(subs[0].status)
  {
    var sel := InitialSelections(subs);
    assert FindById(subs, subs[0].id) == Some(subs[0]);
    assert Chosen(subs, sel, f) == Get(subs[0], f);
    assert Chosen(subs, sel, FieldStatus) == Some(StatusValue(subs[0].status));
  }

  /** A field selected from a report is that report's value (the first report with that id). */
  lemma SelectedFieldComesFromChosenReport(subs: seq<Submission>, sel: Selections, timestamp: nat, f: Field, j: int)
    requires f in sel && f !in Overwritten
    requires 0 <= j < |subs| && sel[f] == subs[j].id
    requires forall i :: 0 <= i < j ==> subs[i].id != subs[j].id
    ensures var m := Merged(subs, sel, timestamp);
            (f in m <==> Get(subs[j], f).Some?) && (f in m ==> m[f] == Get(subs[j], f).value)
  {
    var r := FindById(subs, sel[f]);
    var i :| 0 <= i < |subs| && subs[i] == r.value && r.value.id == sel[f]
             && forall k :: 0 <= k < i ==> subs[k].id != sel[f];
    assert i == j;
  }

  /** A selection naming no report leaves the default: status Approved, any other field absent. */
  lemma UnknownSelectionKeepsDefault(subs: seq<Submission>, sel: Selections, timestamp: nat, f: Field)
    requires f in sel && f !in Overwritten
    requires forall i :: 0 <= i < |subs| ==> subs[i].id != sel[f]
    ensures var m := Merged(subs, sel, timestamp);
            (f in m <==> f == FieldStatus) && (f == FieldStatus ==> m[f] == StatusValue(Approved))
  {
  }

  /** Joining non-empty parts gives "" only for no parts. */
  lemma {:induction false} JoinEmptyIff(parts: seq<string>, sep: string)
    requires forall i :: 0 <= i < |parts| ==> parts[i] != ""
    ensures Text.Join(parts, sep) == "" <==> parts == []
    decreases |parts|
  {
    if |parts| > 1 {
      var j := Text.Join(parts, sep);
      assert j == Text.Join(parts[..|parts| - 1], sep) + sep + parts[|parts| - 1];
      assert |j| >= |parts[|parts| - 1]| > 0;
    }
  }

  /** The texts list has a text exactly for the reports that have one. */
  lemma {:induction false} TextsEmptyIff(subs: seq<Submission>, f: Field)
    ensures Texts(subs, f) == [] <==> forall i :: 0 <= i < |subs| ==> !HasText(subs[i], f)
    decreases |subs|
  {
    if subs != [] {
      var init := subs[..|subs| - 1];
      TextsEmptyIff(init, f);
      assert forall i :: 0 <= i < |init| ==> init[i] == subs[i];
    }
  }

  /** A combined text field is empty exactly when no report has that text. */
  lemma CombinedEmptyIff(subs: seq<Submission>, f: Field)
    ensures Combined(subs, f) == "" <==> forall i :: 0 <= i < |subs| ==> !HasText(subs[i], f)
  {
    TextsEmptyIff(subs, f);
    JoinEmptyIff(Texts(subs, f), Separator);
  }

  /** When exactly one report has a text, the combined text is that text, with no separator. */
  lemma {:induction false} CombinedSingle(subs: seq<Submission>, f: Field, j: int)
    requires 0 <= j < |subs| && HasText(subs[j], f)
    requires forall i :: 0 <= i < |subs| && i != j ==> !HasText(subs[i], f)
    ensures Texts(subs, f) == [Get(subs[j], f).value.s]
    ensures Combined(subs, f) == Get(subs[j], f).value.s
    decreases |subs|
  {
    var init, last := subs[..|subs| - 1], subs[|subs| - 1];
    assert forall i :: 0 <= i < |init| ==> init[i] == subs[i];
    if j == |subs| - 1 {
      TextsEmptyIff(init, f);
    } else {
      CombinedSingle(init, f, j);
    }
  }

  /** The merged rating is the mean rating, so it stays within the bounds every report's rating keeps; 0 for no reports. */
  lemma MergedRatingBounds(subs: seq<Submission>, sel: Selections, timestamp: nat, lo: real, hi: real)
    requires forall i :: 0 <= i < |subs| ==> lo <= subs[i].rating <= hi
    ensures var m := Merged(subs, sel, timestamp);
            FieldRating in m && m[FieldRating].Number?
            && (subs == [] ==> m[FieldRating].r == 0.0)
            && (subs != [] ==> lo <= m[FieldRating].r <= hi)
  {
    if subs != [] {
      Seqs.MeanBounds(Metrics.Ratings(subs), lo, hi);
    }
  }

  /** The merged record always carries a fresh "merged-" id, whatever id was selected. */
  lemma MergedIdIsFresh(subs: seq<Submission>, sel: Selections, timestamp: nat)
    ensures var m := Merged(subs, sel, timestamp);
            FieldId in m && m[FieldId].Str? && "merged-" <= m[FieldId].s
            && |m[FieldId].s| > |"merged-"|
  {
  }

  // ---------------------------------------------------------------- field selector

  /** The value a report offers for `f`: present and not the empty string. */
  function Offered(s: Submission, f: Field): Option<Value>
  {
    if Get(s, f).Some? && Get(s, f).value != Str("") then Get(s, f) else None
  }

  /** The distinct values offered by the reports. */
  function OfferedValues(subs: seq<Submission>, f: Field): set<Value>
  {
    set k | 0 <= k < |subs| && Offered(subs[k], f).Some? :: Offered(subs[k], f).value
  }

  /** Report `k` is the last report offering `v`. */
  predicate LastHolder(subs: seq<Submission>, f: Field, v: Value, k: int)
  {
    0 <= k < |subs| && Offered(subs[k], f) == Some(v)
    && forall l :: k < l < |subs| ==> Offered(subs[l], f) != Some(v)
  }

  /** An insertion-ordered Map held as a list of (key, value) pairs: no key twice. */
  predicate DistinctValues(opts: seq<(Value, string)>)
  {
    forall i, j :: 0 <= i < j < |opts| ==> opts[i].0 != opts[j].0
  }

  function ValuesOf(opts: seq<(Value, string)>): set<Value>
  {
    set i | 0 <= i < |opts| :: opts[i].0
  }

  /** The options with the id of key `v` replaced by `id`. */
  function Replaced(opts: seq<(Value, string)>, v: Value, id: string): (r: seq<(Value, string)>)
    ensures |r| == |opts|
    ensures forall i :: 0 <= i < |opts| ==> r[i] == (if opts[i].0 == v then (v, id) else opts[i])
    decreases |opts|
  {
    if opts == [] then []
    else [if opts[0].0 == v then (v, id) else opts[0]] + Replaced(opts[1..], v, id)
  }

  /** `uniqueOptions.set(value, id)`: an existing key keeps its place and takes the new id; a new key goes last. */
  function SetOption(opts: seq<(Value, string)>, v: Value, id: string): (r: seq<(Value, string)>)
    requires DistinctValues(opts)
    ensures DistinctValues(r)
    ensures ValuesOf(r) == ValuesOf(opts) + {v}
    ensures v !in ValuesOf(opts) ==> r == opts + [(v, id)]
    ensures v in ValuesOf(opts) ==> |r| == |opts|
    ensures forall i :: 0 <= i < |opts| ==> r[i] == (if opts[i].0 == v then (v, id) else opts[i])
  {
    if v in ValuesOf(opts) then
      ReplacedValues(opts, v, id);
      Replaced(opts, v, id)
    else
      AppendedValues(opts, v, id);
      opts + [(v, id)]
  }

  lemma ReplacedValues(opts: seq<(Value, string)>, v: Value, id: string)
    requires v in ValuesOf(opts)
    ensures ValuesOf(Replaced(opts, v, id)) == ValuesOf(opts) + {v}
  {
    var r := Replaced(opts, v, id);
    var i :| 0 <= i < |opts| && opts[i].0 == v;
    assert r[i].0 == v;
    SameKeysSameValues(r, opts);
  }

  lemma AppendedValues(opts: seq<(Value, string)>, v: Value, id: string)
    ensures ValuesOf(opts + [(v, id)]) == ValuesOf(opts) + {v}
  {
    var r := opts + [(v, id)];
    assert r[|opts|].0 == v;
    SameKeysSameValues(r[..|opts|], opts);
    assert r[..|opts|] == opts;
  }

  /** Lists of options with the same keys, position by position, hold the same values. */
  lemma SameKeysSameValues(a: seq<(Value, string)>, b: seq<(Value, string)>)
    requires |a| == |b| && forall i :: 0 <= i < |a| ==> a[i].0 == b[i].0
    ensures ValuesOf(a) == ValuesOf(b)
  {
    forall w | w in ValuesOf(a)
      ensures w in ValuesOf(b)
    {
      var i :| 0 <= i < |a| && a[i].0 == w;
      assert b[i].0 == w;
    }
    forall w | w in ValuesOf(b)
      ensures w in ValuesOf(a)
    {
      var i :| 0 <= i < |b| && b[i].0 == w;
      assert a[i].0 == w;
    }
  }

  /** The options Map after the forEach over the reports. */
  function Options(subs: seq<Submission>, f: Field): (opts: seq<(Value, string)>)
    ensures DistinctValues(opts)
    decreases |subs|
  {
    if subs == [] then []
    else
      var prev, last := Options(subs[..|subs| - 1], f), subs[|subs| - 1];
      if Offered(last, f).Some? then SetOption(prev, Offered(last, f).value, last.id) else prev
  }

  /** The value a report offers, as a set of at most one. */
  function OfferedSet(s: Submission, f: Field): set<Value>
  {
    if Offered(s, f).Some? then {Offered(s, f).value} else {}
  }

  /** The last report adds its offered value, if any, to those of the earlier reports. */
  lemma OfferedValuesDropLast(subs: seq<Submission>, f: Field)
    requires subs != []
    ensures OfferedValues(subs, f)
         == OfferedValues(subs[..|subs| - 1], f) + OfferedSet(subs[|subs| - 1], f)
  {
    var init, last := subs[..|subs| - 1], subs[|subs| - 1];
    forall w | w in OfferedValues(subs, f)
      ensures w in OfferedValues(init, f) + OfferedSet(last, f)
    {
      var k :| 0 <= k < |subs| && Offered(subs[k], f).Some? && Offered(subs[k], f).value == w;
      if k < |init| {
        assert subs[k] == init[k];
      }
    }
    forall w | w in OfferedValues(init, f)
      ensures w in OfferedValues(subs, f)
    {
      var k :| 0 <= k < |init| && Offered(init[k], f).Some? && Offered(init[k], f).value == w;
      assert subs[k] == init[k];
    }
  }

  /** The options are exactly the distinct offered values. */
  lemma {:induction false} OptionsValues(subs: seq<Submission>, f: Field)
    ensures ValuesOf(Options(subs, f)) == OfferedValues(subs, f)
    decreases |subs|
  {
    if subs != [] {
      OptionsValues(subs[..|subs| - 1], f);
      OfferedValuesDropLast(subs, f);
    }
  }

  /** Each option points at the report it was last set from. */
  ghost predicate PointsAtLastHolder(subs: seq<Submission>, f: Field, opts: seq<(Value, string)>)
  {
    forall i :: 0 <= i < |opts| ==> FromLastHolder(subs, f, opts[i])
  }

  /** The option's id is that of the last report offering its value. */
  ghost predicate FromLastHolder(subs: seq<Submission>, f: Field, o: (Value, string))
  {
    exists k :: LastHolder(subs, f, o.0, k) && subs[k].id == o.1
  }

  lemma LastHolderExtend(subs: seq<Submission>, f: Field, v: Value, k: int)
    requires subs != []
    requires LastHolder(subs[..|subs| - 1], f, v, k) && Offered(subs[|subs| - 1], f) != Some(v)
    ensures LastHolder(subs, f, v, k) && subs[k] == subs[..|subs| - 1][k]
  {
  }

  /** One forEach step keeps every option pointing at its last holder. */
  lemma PointsStep(subs: seq<Submission>, f: Field)
    requires subs != []
    requires PointsAtLastHolder(subs[..|subs| - 1], f, Options(subs[..|subs| - 1], f))
    ensures PointsAtLastHolder(subs, f, Options(subs, f))
  {
    var init, last := subs[..|subs| - 1], subs[|subs| - 1];
    var prev, opts := Options(init, f), Options(subs, f);
    forall i | 0 <= i < |opts|
      ensures FromLastHolder(subs, f, opts[i])
    {
      if Offered(last, f).Some? && opts[i].0 == Offered(last, f).value {
        if i < |prev| {
          assert opts[i] == (Offered(last, f).value, last.id);
        }
        assert LastHolder(subs, f, opts[i].0, |init|);
      } else {
        assert i < |prev| && opts[i] == prev[i];
        assert FromLastHolder(init, f, prev[i]);
        var k :| LastHolder(init, f, prev[i].0, k) && init[k].id == prev[i].1;
        LastHolderExtend(subs, f, prev[i].0, k);
      }
    }
  }

  /** Each option points at the last report that offers its value. */
  lemma {:induction false} OptionsPointAtLastHolder(subs: seq<Submission>, f: Field)
    ensures PointsAtLastHolder(subs, f, Options(subs, f))
    decreases |subs|
  {
    if subs != [] {
      OptionsPointAtLastHolder(subs[..|subs| - 1], f);
      PointsStep(subs, f);
    }
  }

  lemma {:induction false} DistinctValuesCount(opts: seq<(Value, string)>)
    requires DistinctValues(opts)
    ensures |ValuesOf(opts)| == |opts|
    decreases |opts|
  {
    if opts != [] {
      var init := opts[..|opts| - 1];
      DistinctValuesCount(init);
      assert ValuesOf(opts) == ValuesOf(init) + {opts[|opts| - 1].0};
      assert opts[|opts| - 1].0 !in ValuesOf(init);
    }
  }

  /** What a field selector renders: a read-only value (`None` is "N/A") or radio options. */
  datatype SelectorView = ReadOnly(shown: Option<Value>) | Choice(options: seq<(Value, string)>)

  /** FieldSelector: radio options when there are at least two, else the first report's value, where `value?.toString() || 'N/A'` shows "N/A" only for a missing value or the empty string. */
  function SelectorViewOf(subs: seq<Submission>, f: Field): SelectorView
    requires subs != []
  {
    var opts := Options(subs, f);
    if |opts| <= 1 then ReadOnly(Offered(subs[0], f)) else Choice(opts)
  }

  /** The selector offers a choice exactly when the reports offer at least two different values. */
  lemma SelectorChoiceIff(subs: seq<Submission>, f: Field)
    requires subs != []
    ensures SelectorViewOf(subs, f).Choice? <==> |OfferedValues(subs, f)| >= 2
  {
    OptionsValues(subs, f);
    DistinctValuesCount(Options(subs, f));
  }

  /** When every report offers the same value, that value is shown read-only. */
  lemma SelectorAgreeingReports(subs: seq<Submission>, f: Field, v: Value)
    requires subs != []
    requires forall k :: 0 <= k < |subs| ==> Offered(subs[k], f) == Some(v)
    ensures SelectorViewOf(subs, f) == ReadOnly(Some(v))
  {
    OptionsValues(subs, f);
    DistinctValuesCount(Options(subs, f));
    assert OfferedValues(subs, f) == {v};
  }

  /** The forEach that fills the options Map. */
  method FieldSelectorOptions(subs: seq<Submission>, f: Field) returns (opts: seq<(Value, string)>)
    ensures opts == Options(subs, f)
  {
    opts := [];
    for i := 0 to |subs|
      invariant opts == Options(subs[..i], f)
    {
      assert subs[..i + 1][..i] == subs[..i];
      var v := Offered(subs[i], f);
      if v.Some? {
        opts := SetOption(opts, v.value, subs[i].id);
      }
    }
    assert subs[..|subs|] == subs;
  }

  // ---------------------------------------------------------------- the dialog

  class MergeDialog {
    const submissions: seq<Submission>
    var fieldSelections: Selections

    /** The lazy state initialiser: `for (const key in firstSubmission)`. */
    constructor (submissions: seq<Submission>)
      ensures this.submissions == submissions
      ensures fieldSelections == InitialSelections(submissions)
    {
      this.submissions := submissions;
      var sel: Selections := map[];
      if submissions != [] {
        var first := submissions[0];
        var keys := KeysOf(first);
        while keys != {}
          invariant keys <= KeysOf(first)
          invariant sel == map f | f in KeysOf(first) - keys :: first.id
          decreases keys
        {
          var f :| f in keys;
          sel := sel[f := first.id];
          keys := keys - {f};
        }
      }
      fieldSelections := sel;
    }

    /** A radio choice: the field now comes from report `selectedId`; the value itself is not used. */
    method HandleFieldChange(field: Field, value: Value, selectedId: string)
      modifies this
      ensures fieldSelections == old(fieldSelections)[field := selectedId]
    {
      fieldSelections := fieldSelections[field := selectedId];
    }

    /** Save: build the merged record and list the ids to remove. */
    method HandleSubmit(timestamp: nat) returns (finalSubmission: map<Field, Value>, idsToRemove: seq<string>)
      ensures finalSubmission == Merged(submissions, fieldSelections, timestamp)
      ensures idsToRemove == Ids(submissions)
    {
      var sel := fieldSelections;
      finalSubmission := map[FieldStatus := StatusValue(Approved)];
      DraftStart(submissions, sel);
      var remaining := sel.Keys;
      ghost var done: set<Field> := {};
      while remaining != {}
        invariant done <= sel.Keys && remaining == sel.Keys - done
        invariant finalSubmission == Draft(submissions, sel, done)
        decreases remaining
      {
        var field :| field in remaining;
        DraftStep(submissions, sel, done, field);
        var source := FindById(submissions, sel[field]);
        if source.Some? {
          var v := Get(source.value, field);
          if v.Some? {
            finalSubmission := finalSubmission[field := v.value];
          } else {
            finalSubmission := finalSubmission - {field};
          }
        }
        done := done + {field};
        remaining := remaining - {field};
      }
      assert done == sel.Keys;
      DraftDone(submissions, sel);
      finalSubmission := finalSubmission[FieldComment := Str(Combined(submissions, FieldComment))];
      finalSubmission := finalSubmission[FieldCompanyReply := Str(Combined(submissions, FieldCompanyReply))];
      finalSubmission := finalSubmission[FieldUserRebuttal := Str(Combined(submissions, FieldUserRebuttal))];
      finalSubmission := finalSubmission[FieldRating := Number(Seqs.Mean(Metrics.Ratings(submissions)))];
      finalSubmission := finalSubmission[FieldId := Str(MergedId(timestamp))];
      idsToRemove := Ids(submissions);
    }
  }
}

=== FILE: metrics.dfy ===
/**
 * The statistics the company page and the project page compute over approved
 * reports: mean rating, mean delay (whole days, from `calculateDelay`, so
 * early deliveries count negative), the share delivered on time, and the
 * share of answered reports that would buy again. Unanswered "would buy
 * again" questions are left out of that share, and every figure is 0 when
 * there is nothing to average.
 */
module Metrics {
  import opened Domain
  import Seqs
  import Delay

  function Ratings(ps: seq<Submission>): (rs: seq<real>)
    ensures |rs| == |ps| && forall i :: 0 <= i < |ps| ==> rs[i] == ps[i].rating
  {
    seq(|ps|, i requires 0 <= i < |ps| => ps[i].rating)
  }

  /** `calculateDelay` of each report, as the pages add them up. */
  function PageDelays(ps: seq<Submission>, now: real): (ds: seq<real>)
    ensures |ds| == |ps|
    ensures forall i :: 0 <= i < |ps| ==> ds[i] == Delay.CalculateDelay(ps[i].promisedDate, ps[i].actualDate, now) as real
  {
    seq(|ps|, i requires 0 <= i < |ps| => Delay.CalculateDelay(ps[i].promisedDate, ps[i].actualDate, now) as real)
  }

  /** `calculateDelay(...) <= 0`: delivered on or before the promised day. */
  function OnTime(now: real): Submission -> bool
  {
    (p: Submission) => Delay.CalculateDelay(p.promisedDate, p.actualDate, now) <= 0
  }

  /** `typeof p.wouldBuyAgain === 'boolean'`. */
  predicate HasAnswer(p: Submission)
  {
    p.wouldBuyAgain.Some?
  }

  /** `p.wouldBuyAgain === true`. */
  predicate WouldBuyAgain(p: Submission)
  {
    p.wouldBuyAgain == Some(true)
  }

  function Answered(ps: seq<Submission>): seq<Submission>
  {
    Seqs.Filter(ps, HasAnswer)
  }

  /** 100 * (yes answers) / (answers), or 0 when nobody answered. */
  function BuyAgainPercentage(ps: seq<Submission>): (r: real)
    ensures 0.0 <= r <= 100.0
  {
    var answered := Answered(ps);
    Seqs.Percentage(|Seqs.Filter(answered, WouldBuyAgain)|, |answered|)
  }

  /** A report without an answer changes neither the share nor the number of answers. */
  lemma BuyAgainIgnoresUnanswered(ps: seq<Submission>, p: Submission)
    requires !HasAnswer(p)
    ensures BuyAgainPercentage(ps + [p]) == BuyAgainPercentage(ps)
    ensures |Answered(ps + [p])| == |Answered(ps)|
  {
    Seqs.FilterAppend(ps, p, HasAnswer);
  }

  /** The share is 100 exactly when somebody answered and every answer is yes. */
  lemma BuyAgainFullIff(ps: seq<Submission>)
    ensures BuyAgainPercentage(ps) == 100.0
        <==> |Answered(ps)| > 0 && forall i :: 0 <= i < |Answered(ps)| ==> WouldBuyAgain(Answered(ps)[i])
  {
    Seqs.FilterKeepsAllIff(Answered(ps), WouldBuyAgain);
  }

  /** Only answered reports with a yes count towards the share. */
  lemma BuyAgainCountsYes(ps: seq<Submission>)
    ensures forall p :: p in Seqs.Filter(Answered(ps), WouldBuyAgain) <==> p in ps && p.wouldBuyAgain == Some(true)
  {
  }

  datatype Stats = Stats(
    avgRating: real,
    avgDelay: real,
    onTimePercentage: real,
    wouldBuyAgainPercentage: real,
    buyAgainCount: nat)

  /** The company page's `stats` over its approved reports. */
  function CompanyStats(approved: seq<Submission>, now: real): (s: Stats)
    ensures 0.0 <= s.onTimePercentage <= 100.0 && 0.0 <= s.wouldBuyAgainPercentage <= 100.0
  {
    if |approved| == 0 then Stats(0.0, 0.0, 0.0, 0.0, 0)
    else
      var onTime := Seqs.Filter(approved, OnTime(now));
      Stats(
        Seqs.Mean(Ratings(approved)),
        Seqs.Mean(PageDelays(approved, now)),
        Seqs.Percentage(|onTime|, |approved|),
        BuyAgainPercentage(approved),
        |Answered(approved)|)
  }

  /** With no approved report every figure is 0. */
  lemma CompanyStatsEmpty(now: real)
    ensures CompanyStats([], now) == Stats(0.0, 0.0, 0.0, 0.0, 0)
  {
  }

  /** The on-time share is 100 exactly when every approved report was delivered on or before its date. */
  lemma OnTimeFullIff(approved: seq<Submission>, now: real)
    requires |approved| > 0
    ensures CompanyStats(approved, now).onTimePercentage == 100.0
        <==> forall i :: 0 <= i < |approved| ==> Delay.CalculateDelay(approved[i].promisedDate, approved[i].actualDate, now) <= 0
  {
    Seqs.FilterKeepsAllIff(approved, OnTime(now));
  }

  /** The averages are means over the approved reports: ratings in [0, 5] average in [0, 5]. */
  lemma CompanyStatsRatingBounds(approved: seq<Submission>, now: real)
    requires forall p :: p in approved ==> 0.0 <= p.rating <= 5.0
    ensures 0.0 <= CompanyStats(approved, now).avgRating <= 5.0
  {
    if |approved| > 0 {
      var rs := Ratings(approved);
      assert forall i :: 0 <= i < |rs| ==> approved[i] in approved;
      Seqs.MeanBounds(rs, 0.0, 5.0);
    }
  }

  /** A single early delivery gives a negative average delay: delays are not clamped at 0. */
  lemma EarlyDeliveryNegative(p: Submission, now: real)
    requires p.actualDate.Some? && p.actualDate.value < p.promisedDate
    ensures CompanyStats([p], now).avgDelay < 0.0
    ensures CompanyStats([p], now).onTimePercentage == 100.0
  {
    var ds := PageDelays([p], now);
    var d := (p.actualDate.value - p.promisedDate) as real;
    assert ds[0] == d && d < 0.0;
    assert ds[..0] == [];
    assert Seqs.Sum(ds) == d;
    assert Seqs.Mean(ds) == d / 1.0;
    assert CompanyStats([p], now).avgDelay == Seqs.Mean(ds);
    OnTimeFullIff([p], now);
  }
}

=== FILE: my_account.dfy ===
/**
 * The "my account" page: the logged-in user changes the full name and,
 * optionally, the password (typed twice). A blank password box keeps the
 * current password.
 */
module MyAccount {
  import opened Domain
  import Controller
  import Login

  const BlankNameError := "O nome completo não pode estar em branco."
  const PasswordMismatchError := "As senhas não coincidem."
  const UpdatedMessage := "Perfil atualizado com sucesso!"

  datatype AccountState = AccountState(
    fullName: string, password: string, confirmPassword: string, error: string, success: string)

  /** The first check `handleSubmit` fails: a blank name, then a new password typed differently twice. */
  function AccountError(fullName: string, password: string, confirmPassword: string): (e: Option<string>)
    ensures e.None? <==> fullName != "" && (password == "" || password == confirmPassword)
    ensures e == Some(BlankNameError) <==> fullName == ""
    ensures e == Some(PasswordMismatchError) <==> fullName != "" && password != "" && password != confirmPassword
  {
    if fullName == "" then Some(BlankNameError)
    else if password != "" && password != confirmPassword then Some(PasswordMismatchError)
    else None
  }

  /** The details sent: the name, and the password only when one was typed. */
  function Details(fullName: string, password: string): (d: Controller.AccountDetails)
    ensures d.fullName == fullName
    ensures Present(d.password) <==> password != ""
    ensures d.password.Some? ==> d.password.value == password
  {
    Controller.AccountDetails(fullName, if password != "" then Some(password) else None)
  }

  /**
   * After an accepted update is stored, the new password opens the account
   * when one was typed, and otherwise exactly the old password still does.
   */
  lemma UpdatedPasswordLogsIn(users: seq<User>, current: User, fullName: string, password: string, confirmPassword: string, attempt: string)
    requires AccountError(fullName, password, confirmPassword).None?
    requires FindUser(users, current.email).Some?
    ensures var u := Controller.UpdatedAccount(current, Details(fullName, password));
            var after := Controller.ReplaceUserByEmail(users, u.email, u);
            && (password != "" ==> (Login.Authenticate(after, current.email, attempt).Some? <==> attempt == confirmPassword))
            && (password == "" ==> (Login.Authenticate(after, current.email, attempt).Some?
                                    <==> current.passwordHash == SimpleHash(attempt)))
  {
    var u := Controller.UpdatedAccount(current, Details(fullName, password));
    var after := Controller.ReplaceUserByEmail(users, u.email, u);
    var prior := FindUser(users, current.email);
    var i :| 0 <= i < |users| && users[i] == prior.value && forall j :: 0 <= j < i ==> users[j].email != current.email;
    assert after[i] == u;
    var found := FindUser(after, current.email);
    var k :| 0 <= k < |after| && after[k] == found.value && forall j :: 0 <= j < k ==> after[j].email != current.email;
    assert users[k].email == current.email;
    assert found == Some(u);
    if password != "" {
      Login.OnlyThePasswordLogsIn(after, current.email, password, attempt);
    }
  }

  /** MyAccountPage. */
  class AccountPage {
    const currentUser: User
    var fullName: string
    var password: string
    var confirmPassword: string
    var error: string
    var success: string

    function State(): AccountState
      reads this
    {
      AccountState(fullName, password, confirmPassword, error, success)
    }

    /** The name box starts with the user's name; everything else is blank. */
    constructor (currentUser: User)
      ensures this.currentUser == currentUser
      ensures State() == AccountState(currentUser.fullName, "", "", "", "")
    {
      this.currentUser := currentUser;
      fullName := currentUser.fullName;
      password, confirmPassword, error, success := "", "", "", "";
    }

    method TypeFullName(text: string)
      modifies this
      ensures State() == old(State()).(fullName := text)
    {
      fullName := text;
    }

    method TypePassword(text: string)
      modifies this
      ensures State() == old(State()).(password := text)
    {
      password := text;
    }

    method TypeConfirmPassword(text: string)
      modifies this
      ensures State() == old(State()).(confirmPassword := text)
    {
      confirmPassword := text;
    }

    /**
     * `handleSubmit`: both messages are cleared first; a failed check shows
     * its error; otherwise the details are sent, the success message is
     * shown and both password boxes are emptied.
     */
    method HandleSubmit() returns (details: Option<Controller.AccountDetails>)
      modifies this
      ensures var e := AccountError(old(fullName), old(password), old(confirmPassword));
              && (e.Some? ==> details.None? && State() == old(State()).(error := e.value, success := ""))
              && (e.None? ==> details == Some(Details(old(fullName), old(password)))
                              && State() == AccountState(old(fullName), "", "", "", UpdatedMessage))
    {
      error := "";
      success := "";
      if fullName == "" {
        error := BlankNameError;
        return None;
      }
      if password != "" && password != confirmPassword {
        error := PasswordMismatchError;
        return None;
      }
      details := Some(Controller.AccountDetails(fullName, if password != "" then Some(password) else None));
      success := UpdatedMessage;
      password := "";
      confirmPassword := "";
    }

    /** The timer three seconds after a successful update hides the message. */
    method SuccessTimerFired()
      modifies this
      ensures State() == old(State()).(success := "")
    {
      success := "";
    }
  }
}

=== FILE: plain_object.dfy ===
/**
 * A plain JavaScript object (`{}`) used as a dictionary keyed by strings:
 * the order in which `Object.entries` lists its keys, and the names such an
 * object answers before anything has been stored under them.
 *
 * The key order is that of OrdinaryOwnPropertyKeys (section 10.1.11.1 of
 * ECMA-262): first every key that is an array index, in ascending numeric
 * order, then the other string keys in the order they were created.
 */
module PlainObject {
  import Seqs
  import Text

  predicate AllDigits(s: string)
  {
    forall i :: 0 <= i < |s| ==> Text.IsDigit(s[i])
  }

  function Pow10(n: nat): (p: nat)
    ensures p >= 1
  {
    if n == 0 then 1 else 10 * Pow10(n - 1)
  }

  /** The number a string of decimal digits writes. */
  function Value(s: string): nat
    requires AllDigits(s)
  {
    if s == [] then 0 else (s[0] as int - '0' as int) * Pow10(|s| - 1) + Value(s[1..])
  }

  /** 2^32 - 2, the largest array index. */
  const MaxArrayIndex: nat := 4294967294

  /**
   * An array index: a decimal integer written without sign or leading zero
   * (so that it reads back as itself) and at most 2^32 - 2.
   */
  predicate IsArrayIndex(s: string)
  {
    && |s| >= 1 && AllDigits(s)
    && (s[0] == '0' ==> s == "0")
    && Value(s) <= MaxArrayIndex
  }

  /** A key listed after the array indices, in creation order. */
  predicate IsStringKey(s: string)
  {
    !IsArrayIndex(s)
  }

  /** The number an array-index key stands for (0 for any other key, which is never compared). */
  function IndexValue(s: string): nat
  {
    if AllDigits(s) then Value(s) else 0
  }

  predicate IndexLe(a: string, b: string)
  {
    IndexValue(a) <= IndexValue(b)
  }

  /** `Object.entries` order for the keys of an object, given in the order they were created. */
  function PropertyOrder(keys: seq<string>): seq<string>
  {
    Seqs.InsertionSort(Seqs.Filter(keys, IsArrayIndex), IndexLe) + Seqs.Filter(keys, IsStringKey)
  }

  /** `Object.entries` lists each key as often as it was created. */
  lemma PropertyOrderPermutes(keys: seq<string>)
    ensures multiset(PropertyOrder(keys)) == multiset(keys)
    ensures Seqs.NoRepeats(keys) ==> Seqs.NoRepeats(PropertyOrder(keys))
  {
    var indices := Seqs.Filter(keys, IsArrayIndex);
    Seqs.InsertionSortCorrect(indices, IndexLe);
    Seqs.FilterSplitMultiset(keys, IsArrayIndex, IsStringKey);
    if Seqs.NoRepeats(keys) {
      Seqs.PermutationNoRepeats(keys, PropertyOrder(keys));
    }
  }

  /** Every array index comes before every other key, and the indices ascend. */
  lemma PropertyOrderIndicesFirst(keys: seq<string>)
    ensures forall i, j :: 0 <= i < j < |PropertyOrder(keys)| && IsArrayIndex(PropertyOrder(keys)[j])
              ==> IsArrayIndex(PropertyOrder(keys)[i]) && IndexValue(PropertyOrder(keys)[i]) <= IndexValue(PropertyOrder(keys)[j])
  {
    var indices, others := Seqs.Filter(keys, IsArrayIndex), Seqs.Filter(keys, IsStringKey);
    var sorted := Seqs.InsertionSort(indices, IndexLe);
    var r := PropertyOrder(keys);
    Seqs.InsertionSortCorrect(indices, IndexLe);
    forall i, j | 0 <= i < j < |r| && IsArrayIndex(r[j])
      ensures IsArrayIndex(r[i]) && IndexValue(r[i]) <= IndexValue(r[j])
    {
      if j >= |sorted| {
        assert false;
      }
      assert r[i] == sorted[i];
      assert r[i] in multiset(indices);
    }
  }

  /** The keys that are not array indices keep their creation order. */
  lemma PropertyOrderKeepsOthers(keys: seq<string>)
    ensures Seqs.Filter(PropertyOrder(keys), IsStringKey) == Seqs.Filter(keys, IsStringKey)
  {
    var indices, others := Seqs.Filter(keys, IsArrayIndex), Seqs.Filter(keys, IsStringKey);
    var sorted := Seqs.InsertionSort(indices, IndexLe);
    Seqs.InsertionSortCorrect(indices, IndexLe);
    Seqs.FilterConcat(sorted, others, IsStringKey);
    SortedIndicesOnly(keys);
    Seqs.FilterAllKept(others, IsStringKey);
    assert [] + others == others;
  }

  /** Sorting the array indices brings in no other key. */
  lemma SortedIndicesOnly(keys: seq<string>)
    ensures Seqs.Filter(Seqs.InsertionSort(Seqs.Filter(keys, IsArrayIndex), IndexLe), IsStringKey) == []
  {
    var indices := Seqs.Filter(keys, IsArrayIndex);
    var sorted := Seqs.InsertionSort(indices, IndexLe);
    Seqs.InsertionSortCorrect(indices, IndexLe);
    forall x | x in sorted
      ensures !IsStringKey(x)
    {
      assert x in multiset(indices);
    }
    Seqs.FilterNoneOf(sorted, IsStringKey);
  }

  /** Small decimal keys are array indices, worth what they read. */
  lemma SmallIndices()
    ensures IsArrayIndex("1") && IsArrayIndex("9") && IsArrayIndex("10")
    ensures IndexValue("9") == 9 && IndexValue("10") == 10
  {
    assert "10"[1..] == "0" && "9"[1..] == "" && "1"[1..] == "";
    assert Value("0") == 0;
    assert Pow10(1) == 10;
  }

  lemma LettersAreStringKeys()
    ensures IsStringKey("a") && IsStringKey("b")
  {
    assert !Text.IsDigit("a"[0]) && !Text.IsDigit("b"[0]);
  }

  /** Integer-like keys are listed in ascending numeric order, whatever their creation order. */
  lemma NumericKeysAscend()
    ensures PropertyOrder(["10", "9"]) == ["9", "10"]
  {
    SmallIndices();
    var keys: seq<string> := ["10", "9"];
    assert keys[..1] == ["10"];
    Seqs.FilterAppend([], "10", IsArrayIndex);
    Seqs.FilterAppend(["10"], "9", IsArrayIndex);
    Seqs.FilterAppend([], "10", IsStringKey);
    Seqs.FilterAppend(["10"], "9", IsStringKey);
    assert Seqs.Filter(keys, IsArrayIndex) == ["10", "9"];
    assert Seqs.Filter(keys, IsStringKey) == [];
    assert !IndexLe("10", "9");
    assert Seqs.Insert("10", ["9"], IndexLe) == ["9", "10"];
  }

  /** Integer-like keys come before the other keys, which keep their creation order. */
  lemma NumericKeysFirst()
    ensures PropertyOrder(["b", "1", "a"]) == ["1", "b", "a"]
  {
    SmallIndices();
    LettersAreStringKeys();
    var keys: seq<string> := ["b", "1", "a"];
    assert [] + ["b"] == ["b"] && ["b"] + ["1"] == ["b", "1"] && ["b", "1"] + ["a"] == keys;
    Seqs.FilterAppend([], "b", IsArrayIndex);
    Seqs.FilterAppend(["b"], "1", IsArrayIndex);
    Seqs.FilterAppend(["b", "1"], "a", IsArrayIndex);
    Seqs.FilterAppend([], "b", IsStringKey);
    Seqs.FilterAppend(["b"], "1", IsStringKey);
    Seqs.FilterAppend(["b", "1"], "a", IsStringKey);
    assert Seqs.Filter(keys, IsArrayIndex) == ["1"];
    assert Seqs.Filter(keys, IsStringKey) == ["b", "a"];
    assert Seqs.InsertionSort(["1"], IndexLe) == Seqs.Insert("1", [], IndexLe) == ["1"];
    assert ["1"] + ["b", "a"] == ["1", "b", "a"];
  }

  /** A leading zero makes a key an ordinary string key. */
  lemma LeadingZeroIsStringKey()
    ensures !IsArrayIndex("01") && IsArrayIndex("0")
  {
  }

  /**
   * The properties every plain object inherits from `Object.prototype`:
   * reading one of them from an empty object gives a function (or, for
   * "__proto__", the prototype itself), never `undefined`.
   */
  const InheritedNames: set<string> := {
    "constructor", "hasOwnProperty", "isPrototypeOf", "propertyIsEnumerable",
    "toLocaleString", "toString", "valueOf", "__proto__",
    "__defineGetter__", "__defineSetter__", "__lookupGetter__", "__lookupSetter__"}
}

=== FILE: project_card.dfy ===
/**
 * One card of the company ranking: the rank badge colour, the delay colour
 * and text, and whether the site admin may ask for an AI analysis.
 */
module ProjectCard {
  import opened Domain
  import Reputation
  import Delay

  datatype RankBadge = Gold | Silver | Bronze | Plain

  /** `rankColor`: the first three ranks get their own colours, every other rank the default. */
  function RankColor(rank: int): (b: RankBadge)
    ensures b == Plain <==> rank != 1 && rank != 2 && rank != 3
    ensures rank == 1 <==> b == Gold
    ensures rank == 2 <==> b == Silver
    ensures rank == 3 <==> b == Bronze
  {
    if rank == 1 then Gold else if rank == 2 then Silver else if rank == 3 then Bronze else Plain
  }

  /** The card's delay colour, from the company's average delay. */
  function CardDelayColor(reputation: Reputation.CompanyReputation): Delay.DelayColor
  {
    Delay.ColorOf(reputation.averageDelayDays)
  }

  /** The card's delay text (the card's own copy of `formatDelay`). */
  function CardDelayText(reputation: Reputation.CompanyReputation): string
  {
    Delay.FormatDelay(reputation.averageDelayDays)
  }

  /** `canGenerateAnalysis`: `currentUser?.role === SiteAdmin && !aiAnalysis && !isAiAnalysisLoading && apiKey`. */
  function CanGenerateAnalysis(currentUser: Option<User>, reputation: Reputation.CompanyReputation, apiKey: Option<string>): bool
  {
    && currentUser.Some? && currentUser.value.role == SiteAdmin
    && reputation.aiAnalysis.None?
    && !reputation.isAiAnalysisLoading
    && Present(apiKey)
  }

  /**
   * The button is never offered to anyone but a site admin, nor without a (non-empty) key,
   * nor once an analysis is stored or loading.
   */
  lemma CanGenerateAnalysisNeeds(currentUser: Option<User>, reputation: Reputation.CompanyReputation, apiKey: Option<string>)
    ensures CanGenerateAnalysis(currentUser, reputation, apiKey) ==> currentUser.Some? && currentUser.value.role == SiteAdmin
    ensures CanGenerateAnalysis(currentUser, reputation, apiKey) ==> apiKey.Some? && apiKey.value != ""
    ensures reputation.aiAnalysis.Some? || reputation.isAiAnalysisLoading ==> !CanGenerateAnalysis(currentUser, reputation, apiKey)
  {
  }
}

=== FILE: project_detail.dfy ===
/**
 * The project page: the reports about one project of one company, the
 * metrics over the approved ones, the link shown for the project and the
 * way a report's author is displayed.
 */
module ProjectDetail {
  import opened Domain
  import Seqs
  import Text
  import Delay
  import Metrics

  function SameProject(projectName: string, companyName: string): Submission -> bool
  {
    (p: Submission) => p.projectName == projectName && p.companyName == companyName
  }

  /** `projectSubmissions`: reports matching both the project name and the company name. */
  function ProjectSubmissions(allSubmissions: seq<Submission>, projectName: string, companyName: string): seq<Submission>
  {
    Seqs.Filter(allSubmissions, SameProject(projectName, companyName))
  }

  /** `approvedSubmissions`. */
  function ApprovedSubmissions(allSubmissions: seq<Submission>, projectName: string, companyName: string): seq<Submission>
  {
    Seqs.Filter(ProjectSubmissions(allSubmissions, projectName, companyName), IsApproved)
  }

  /** The page lists exactly this project's reports, in their order; only approved ones enter the metrics. */
  lemma SubmissionsSpec(allSubmissions: seq<Submission>, projectName: string, companyName: string)
    ensures forall p :: p in ProjectSubmissions(allSubmissions, projectName, companyName)
              <==> p in allSubmissions && p.projectName == projectName && p.companyName == companyName
    ensures forall p :: p in ApprovedSubmissions(allSubmissions, projectName, companyName)
              <==> p in allSubmissions && p.projectName == projectName && p.companyName == companyName
                   && p.status == Approved
    ensures Seqs.IsSubsequence(ProjectSubmissions(allSubmissions, projectName, companyName), allSubmissions)
  {
    Seqs.FilterIsSubsequence(allSubmissions, SameProject(projectName, companyName));
  }

  datatype ProjectMetrics = ProjectMetrics(
    averageRating: real,
    averageDelay: real,
    wouldBuyAgainPercentage: real,
    buyAgainCount: nat)

  /** The metrics memo over the approved reports. */
  function ComputeMetrics(approved: seq<Submission>, now: real): (m: ProjectMetrics)
    ensures 0.0 <= m.wouldBuyAgainPercentage <= 100.0
    ensures approved == [] ==> m == ProjectMetrics(0.0, 0.0, 0.0, 0)
  {
    if |approved| == 0 then ProjectMetrics(0.0, 0.0, 0.0, 0)
    else
      ProjectMetrics(
        Seqs.Mean(Metrics.Ratings(approved)),
        Seqs.Mean(Metrics.PageDelays(approved, now)),
        Metrics.BuyAgainPercentage(approved),
        |Metrics.Answered(approved)|)
  }

  /** The project page computes the same figures as the company page does over the same reports. */
  lemma MetricsAgreeWithCompanyStats(approved: seq<Submission>, now: real)
    ensures ComputeMetrics(approved, now).averageRating == Metrics.CompanyStats(approved, now).avgRating
    ensures ComputeMetrics(approved, now).averageDelay == Metrics.CompanyStats(approved, now).avgDelay
    ensures ComputeMetrics(approved, now).wouldBuyAgainPercentage == Metrics.CompanyStats(approved, now).wouldBuyAgainPercentage
    ensures ComputeMetrics(approved, now).buyAgainCount == Metrics.CompanyStats(approved, now).buyAgainCount
  {
  }

  /**
   * `crowdfundingLink`: the link of the first report about the project whatever its
   * status, or "#" when there is none.
   */
  function CrowdfundingLink(allSubmissions: seq<Submission>, projectName: string, companyName: string): string
  {
    var ps := ProjectSubmissions(allSubmissions, projectName, companyName);
    if |ps| > 0 then ps[0].crowdfundingLink else "#"
  }

  lemma CrowdfundingLinkSpec(allSubmissions: seq<Submission>, projectName: string, companyName: string)
    ensures (forall i :: 0 <= i < |allSubmissions| ==> !SameProject(projectName, companyName)(allSubmissions[i]))
            ==> CrowdfundingLink(allSubmissions, projectName, companyName) == "#"
    ensures (exists i :: 0 <= i < |allSubmissions| && SameProject(projectName, companyName)(allSubmissions[i]))
            ==> exists i :: 0 <= i < |allSubmissions|
                  && SameProject(projectName, companyName)(allSubmissions[i])
                  && (forall j :: 0 <= j < i ==> !SameProject(projectName, companyName)(allSubmissions[j]))
                  && CrowdfundingLink(allSubmissions, projectName, companyName) == allSubmissions[i].crowdfundingLink
  {
    var ps := ProjectSubmissions(allSubmissions, projectName, companyName);
    if ps != [] {
      Seqs.FilterFirst(allSubmissions, SameProject(projectName, companyName));
    } else if exists i :: 0 <= i < |allSubmissions| && SameProject(projectName, companyName)(allSubmissions[i]) {
      var i :| 0 <= i < |allSubmissions| && SameProject(projectName, companyName)(allSubmissions[i]);
      assert allSubmissions[i] in ps;
    }
  }

  /**
   * `submitterDisplay`: the upper-cased initial of the author's full name followed by ".",
   * or "Anônimo" when no user has the report's e-mail.
   */
  function SubmitterDisplay(users: seq<User>, submitterEmail: string): (r: string)
    ensures FindUser(users, submitterEmail).None? <==> r == "Anônimo"
    ensures FindUser(users, submitterEmail).Some? ==> 1 <= |r| <= 3 && r[|r| - 1] == '.'
    ensures FindUser(users, submitterEmail).Some? && FindUser(users, submitterEmail).value.fullName == "" ==> r == "."
    ensures FindUser(users, submitterEmail).Some? && FindUser(users, submitterEmail).value.fullName != ""
            ==> r[..|r| - 1] == Text.UpperCase(FindUser(users, submitterEmail).value.fullName[0])
  {
    match FindUser(users, submitterEmail)
    case None => "Anônimo"
    case Some(u) => (if u.fullName == "" then "" else Text.UpperCase(u.fullName[0])) + "."
  }

  /** `delayColor` of the page. */
  function PageDelayColor(approved: seq<Submission>, now: real): Delay.DelayColor
  {
    Delay.ColorOf(ComputeMetrics(approved, now).averageDelay)
  }
}

=== FILE: project_list.dfy ===
/**
 * The public ranking page: the search over company reputations and the rank
 * shown on each visible card.
 */
module ProjectList {
  import opened Domain
  import Seqs
  import Text
  import Reputation
  import ProjectCard

  /** A reputation matches when its name, or the link of one of its reports, contains the term (ignoring case). */
  function Matches(searchTerm: string): Reputation.CompanyReputation -> bool
  {
    (rep: Reputation.CompanyReputation) =>
      Text.ContainsIgnoringCase(rep.name, searchTerm)
      || exists i :: 0 <= i < |rep.projects| && Text.ContainsIgnoringCase(rep.projects[i].crowdfundingLink, searchTerm)
  }

  /** `filteredReputations`. */
  function FilteredReputations(reputations: seq<Reputation.CompanyReputation>, searchTerm: string): seq<Reputation.CompanyReputation>
  {
    Seqs.Filter(reputations, Matches(searchTerm))
  }

  /**
   * The search keeps exactly the matching reputations, in ranking order; an empty term
   * keeps them all.
   */
  lemma FilteredReputationsSpec(reputations: seq<Reputation.CompanyReputation>, searchTerm: string)
    ensures forall rep :: rep in FilteredReputations(reputations, searchTerm)
              <==> rep in reputations
                   && (Text.ContainsIgnoringCase(rep.name, searchTerm)
                       || exists p :: p in rep.projects && Text.ContainsIgnoringCase(p.crowdfundingLink, searchTerm))
    ensures Seqs.IsSubsequence(FilteredReputations(reputations, searchTerm), reputations)
    ensures searchTerm == "" ==> FilteredReputations(reputations, searchTerm) == reputations
  {
    Seqs.FilterIsSubsequence(reputations, Matches(searchTerm));
    if searchTerm == "" {
      forall i | 0 <= i < |reputations|
        ensures Matches(searchTerm)(reputations[i])
      {
        Text.EmptyTermMatches(reputations[i].name);
      }
      Seqs.FilterKeepsAllIff(reputations, Matches(searchTerm));
      Seqs.FilterAllKept(reputations, Matches(searchTerm));
    }
  }

  /** The cards rendered: each visible reputation with `rank = index + 1`. */
  function Cards(filtered: seq<Reputation.CompanyReputation>): (cards: seq<(Reputation.CompanyReputation, int)>)
    ensures |cards| == |filtered|
  {
    seq(|filtered|, i requires 0 <= i < |filtered| => (filtered[i], i + 1))
  }

  /**
   * Ranks count the visible cards: 1, 2, 3, ... in order, so the first three
   * visible companies get the three podium colours whatever their place in the full ranking.
   */
  lemma CardRanks(reputations: seq<Reputation.CompanyReputation>, searchTerm: string)
    ensures var cards := Cards(FilteredReputations(reputations, searchTerm));
            forall i :: 0 <= i < |cards| ==>
              && cards[i].0 == FilteredReputations(reputations, searchTerm)[i]
              && cards[i].1 == i + 1
              && (ProjectCard.RankColor(cards[i].1) == ProjectCard.Plain <==> i >= 3)
  {
  }
}

=== FILE: register.dfy ===
/**
 * The registration form: every field must be filled and the password must
 * be typed twice the same before the details go to the controller.
 */
module Register {
  import opened Domain
  import Controller
  import Login

  const MissingFieldsError := "Por favor, preencha todos os campos."
  const PasswordMismatchError := "As senhas não coincidem."

  datatype RegisterState = RegisterState(
    fullName: string, birthDate: string, email: string,
    password: string, confirmPassword: string, error: string)

  predicate AllFilled(s: RegisterState)
  {
    s.fullName != "" && s.birthDate != "" && s.email != "" && s.password != "" && s.confirmPassword != ""
  }

  /** The first check `handleSubmit` fails: an empty field, then different passwords. */
  function RegistrationError(s: RegisterState): (e: Option<string>)
    ensures e.None? <==> AllFilled(s) && s.password == s.confirmPassword
    ensures e == Some(MissingFieldsError) <==> !AllFilled(s)
    ensures e == Some(PasswordMismatchError) <==> AllFilled(s) && s.password != s.confirmPassword
  {
    if !AllFilled(s) then Some(MissingFieldsError)
    else if s.password != s.confirmPassword then Some(PasswordMismatchError)
    else None
  }

  function Details(s: RegisterState): Controller.RegistrationDetails
  {
    Controller.RegistrationDetails(s.fullName, s.birthDate, s.email, s.password)
  }

  /**
   * An accepted registration under a fresh e-mail creates an account that
   * the confirmation password opens, and no other password does.
   */
  lemma AcceptedRegistrationCanLogIn(users: seq<User>, s: RegisterState, password: string)
    requires RegistrationError(s).None? && !Controller.EmailTaken(users, s.email)
    ensures Login.Authenticate(users + [Controller.RegisteredUser(Details(s))], s.email, password).Some?
            <==> password == s.confirmPassword
  {
    Login.RegisteredUserCanLogIn(users, Details(s), password);
  }

  /** The form's five text boxes. */
  datatype Input =
    | FullName(text: string)
    | BirthDate(text: string)
    | Email(text: string)
    | Password(text: string)
    | ConfirmPassword(text: string)

  function Apply(s: RegisterState, input: Input): RegisterState
  {
    match input
    case FullName(t) => s.(fullName := t)
    case BirthDate(t) => s.(birthDate := t)
    case Email(t) => s.(email := t)
    case Password(t) => s.(password := t)
    case ConfirmPassword(t) => s.(confirmPassword := t)
  }

  /** Register. */
  class RegisterForm {
    var fullName: string
    var birthDate: string
    var email: string
    var password: string
    var confirmPassword: string
    var error: string

    function State(): RegisterState
      reads this
    {
      RegisterState(fullName, birthDate, email, password, confirmPassword, error)
    }

    constructor ()
      ensures State() == RegisterState("", "", "", "", "", "")
    {
      fullName, birthDate, email := "", "", "";
      password, confirmPassword, error := "", "", "";
    }

    method Type(input: Input)
      modifies this
      ensures State() == Apply(old(State()), input)
    {
      match input
      case FullName(t) => fullName := t;
      case BirthDate(t) => birthDate := t;
      case Email(t) => email := t;
      case Password(t) => password := t;
      case ConfirmPassword(t) => confirmPassword := t;
    }

    /** `handleSubmit`: the first failed check becomes the error; otherwise the error is cleared and the details are sent. */
    method HandleSubmit() returns (details: Option<Controller.RegistrationDetails>)
      modifies this
      ensures var e := RegistrationError(old(State()));
              && (e.Some? ==> details.None? && State() == old(State()).(error := e.value))
              && (e.None? ==> details == Some(Details(old(State()))) && State() == old(State()).(error := ""))
    {
      if fullName == "" || birthDate == "" || email == "" || password == "" || confirmPassword == "" {
        error := MissingFieldsError;
        return None;
      }
      if password != confirmPassword {
        error := PasswordMismatchError;
        return None;
      }
      error := "";
      details := Some(Controller.RegistrationDetails(fullName, birthDate, email, password));
    }
  }
}

=== FILE: reputation.dfy ===
/**
 * The controller's ranking of companies (`calculateAllReputations`): only
 * approved reports count; they are grouped by company, each company gets its
 * average delay and average rating, and the list is sorted by average delay,
 * with ties broken by the larger number of reports first.
 */
module Reputation {
  import opened Domain
  import opened Grouping
  import Seqs
  import opened Metrics
  import PlainObject

  datatype CompanyReputation = CompanyReputation(
    name: string,
    projects: seq<Submission>,
    averageDelayDays: real,
    delayedProjectsCount: nat,
    averageRating: real,
    aiAnalysis: Option<AnalysisResult>,
    isAiAnalysisLoading: bool)

  /**
   * What one approved report adds to its company's total delay, in days (`now` is the
   * current time in days): a delivered project adds actual - promised, early deliveries
   * being negative; an undelivered one adds the time since the promise, never less than 0.
   */
  function ContributedDelay(p: Submission, now: real): (d: real)
    ensures p.actualDate.Some? ==> d == (p.actualDate.value - p.promisedDate) as real
    ensures p.actualDate.None? ==> d >= 0.0 && d >= now - p.promisedDate as real
    ensures p.actualDate.None? ==> d == 0.0 || d == now - p.promisedDate as real
  {
    match p.actualDate
    case Some(actual) => (actual - p.promisedDate) as real
    case None => if now - p.promisedDate as real > 0.0 then now - p.promisedDate as real else 0.0
  }

  function Delays(ps: seq<Submission>, now: real): (ds: seq<real>)
    ensures |ds| == |ps| && forall i :: 0 <= i < |ps| ==> ds[i] == ContributedDelay(ps[i], now)
  {
    seq(|ps|, i requires 0 <= i < |ps| => ContributedDelay(ps[i], now))
  }

  /** Grouping key: the company name (every approved report has one). */
  function CompanyKey(p: Submission): Option<string>
  {
    Some(p.companyName)
  }

  /** One entry of the ranking, for company `name` and its approved reports `ps`. */
  function MakeReputation(name: string, ps: seq<Submission>, now: real,
                          analyses: map<string, AnalysisResult>, loading: map<string, bool>): CompanyReputation
  {
    CompanyReputation(
      name, ps,
      Seqs.Mean(Delays(ps, now)),
      |ps|,
      Seqs.Mean(Ratings(ps)),
      if name in analyses then Some(analyses[name]) else None,
      if name in loading then loading[name] else false)
  }

  /**
   * The comparator `a.averageDelayDays - b.averageDelayDays || b.delayedProjectsCount - a.delayedProjectsCount`
   * read as "a may come before b" (it returns a value <= 0).
   */
  predicate Precedes(a: CompanyReputation, b: CompanyReputation)
  {
    a.averageDelayDays < b.averageDelayDays
    || (a.averageDelayDays == b.averageDelayDays && a.delayedProjectsCount >= b.delayedProjectsCount)
  }

  function ApprovedOf(projects: seq<Submission>): seq<Submission>
  {
    Seqs.Filter(projects, IsApproved)
  }

  /**
   * The company names in the order `Object.entries` lists the keys of
   * `companyData`: names that are array indices first, ascending, then the
   * others in order of their first approved report.
   */
  function CompanyOrder(projects: seq<Submission>): seq<string>
  {
    PlainObject.PropertyOrder(KeysInOrder(ApprovedOf(projects), CompanyKey))
  }

  /** The companies listed are exactly those with an approved report, each once. */
  lemma CompanyOrderMembers(projects: seq<Submission>)
    ensures Seqs.NoRepeats(CompanyOrder(projects))
    ensures forall name :: name in CompanyOrder(projects) <==> name in KeysInOrder(ApprovedOf(projects), CompanyKey)
  {
    var names := KeysInOrder(ApprovedOf(projects), CompanyKey);
    PlainObject.PropertyOrderPermutes(names);
    forall name
      ensures name in CompanyOrder(projects) <==> name in names
    {
      assert name in CompanyOrder(projects) <==> name in multiset(names);
    }
  }

  /**
   * Some approved report names a company after a property every plain
   * object inherits (such as "constructor"): `companyData[name]` is then
   * already a function, and `.push` on it throws a TypeError.
   */
  predicate InheritedCompany(projects: seq<Submission>)
  {
    exists p :: p in projects && p.status == Approved && p.companyName in PlainObject.InheritedNames
  }

  /** The entries before sorting, one per company, in `Object.entries` order. */
  function Entries(projects: seq<Submission>, now: real,
                   analyses: map<string, AnalysisResult>, loading: map<string, bool>): (es: seq<CompanyReputation>)
    ensures |es| == |CompanyOrder(projects)|
  {
    var approved := ApprovedOf(projects);
    var names := CompanyOrder(projects);
    seq(|names|, i requires 0 <= i < |names| =>
      MakeReputation(names[i], Members(approved, CompanyKey, names[i]), now, analyses, loading))
  }

  function AllReputations(projects: seq<Submission>, now: real,
                          analyses: map<string, AnalysisResult>, loading: map<string, bool>): seq<CompanyReputation>
  {
    Seqs.InsertionSort(Entries(projects, now, analyses, loading), Precedes)
  }

  /**
   * `calculateAllReputations`: filter, fill the per-company buckets, build one
   * entry per bucket in `Object.entries` order, sort. `None` is the TypeError
   * thrown while filling the buckets when a company is named after an
   * inherited property.
   */
  method CalculateAllReputations(projectsToCalc: seq<Submission>, analyses: map<string, AnalysisResult>,
                                 loadingStates: map<string, bool>, now: real)
    returns (reputations: Option<seq<CompanyReputation>>)
    ensures reputations.None? <==> InheritedCompany(projectsToCalc)
    ensures reputations.Some? ==> reputations.value == AllReputations(projectsToCalc, now, analyses, loadingStates)
  {
    var approved := Seqs.Filter(projectsToCalc, IsApproved);
    var names, companyData := GroupBy(approved, CompanyKey);
    InheritedCompanyIff(projectsToCalc);
    if exists name :: name in names && name in PlainObject.InheritedNames {
      return None;
    }
    var keys := PlainObject.PropertyOrder(names);
    assert keys == CompanyOrder(projectsToCalc);
    CompanyOrderMembers(projectsToCalc);
    var entries := seq(|keys|, i requires 0 <= i < |keys| =>
      MakeReputation(keys[i], companyData[keys[i]], now, analyses, loadingStates));
    ghost var es := Entries(projectsToCalc, now, analyses, loadingStates);
    assert |entries| == |es|;
    forall i | 0 <= i < |keys|
      ensures entries[i] == es[i]
    {
      assert companyData[keys[i]] == Members(approved, CompanyKey, keys[i]);
    }
    assert entries == es;
    reputations := Some(Seqs.InsertionSort(entries, Precedes));
  }

  /** The forEach throws exactly when some company it files has an inherited name. */
  lemma InheritedCompanyIff(projects: seq<Submission>)
    ensures InheritedCompany(projects)
        <==> exists name :: name in KeysInOrder(ApprovedOf(projects), CompanyKey) && name in PlainObject.InheritedNames
  {
    var approved := ApprovedOf(projects);
    var names := KeysInOrder(approved, CompanyKey);
    if InheritedCompany(projects) {
      var p :| p in projects && p.status == Approved && p.companyName in PlainObject.InheritedNames;
      assert p in approved;
      var w :| 0 <= w < |approved| && approved[w] == p;
      assert CompanyKey(approved[w]).value in names;
      assert p.companyName in names && p.companyName in PlainObject.InheritedNames;
    }
    if exists name :: name in names && name in PlainObject.InheritedNames {
      var name :| name in names && name in PlainObject.InheritedNames;
      var w :| 0 <= w < |approved| && CompanyKey(approved[w]) == Some(name);
      var p := approved[w];
      assert p in approved;
      assert p in projects && p.status == Approved && p.companyName in PlainObject.InheritedNames;
    }
  }

  lemma PrecedesTotalPreorder()
    ensures Seqs.TotalPreorder(Precedes)
  {
  }

  /** The ranking is a reordering of the per-company entries, sorted by the comparator. */
  lemma ReputationsSorted(projects: seq<Submission>, now: real,
                          analyses: map<string, AnalysisResult>, loading: map<string, bool>)
    ensures Seqs.SortedBy(AllReputations(projects, now, analyses, loading), Precedes)
    ensures multiset(AllReputations(projects, now, analyses, loading)) == multiset(Entries(projects, now, analyses, loading))
  {
    PrecedesTotalPreorder();
    Seqs.InsertionSortCorrect(Entries(projects, now, analyses, loading), Precedes);
  }

  /** Sorted by the comparator: ascending average delay, and among equal delays, more reports first. */
  lemma ReputationsOrder(projects: seq<Submission>, now: real,
                         analyses: map<string, AnalysisResult>, loading: map<string, bool>, i: int, j: int)
    requires 0 <= i < j < |AllReputations(projects, now, analyses, loading)|
    ensures AllReputations(projects, now, analyses, loading)[i].averageDelayDays
         <= AllReputations(projects, now, analyses, loading)[j].averageDelayDays
    ensures (AllReputations(projects, now, analyses, loading)[i].averageDelayDays
             == AllReputations(projects, now, analyses, loading)[j].averageDelayDays)
         ==> (AllReputations(projects, now, analyses, loading)[i].delayedProjectsCount
              >= AllReputations(projects, now, analyses, loading)[j].delayedProjectsCount)
  {
    ReputationsSorted(projects, now, analyses, loading);
  }

  /**
   * Before sorting, companies named by array indices come first, by
   * ascending number, and the other companies follow in order of their first
   * approved report.
   */
  lemma EntriesOrder(projects: seq<Submission>, now: real,
                     analyses: map<string, AnalysisResult>, loading: map<string, bool>)
    ensures forall i, j :: 0 <= i < j < |Entries(projects, now, analyses, loading)|
              && PlainObject.IsArrayIndex(Entries(projects, now, analyses, loading)[j].name)
              ==> PlainObject.IsArrayIndex(Entries(projects, now, analyses, loading)[i].name)
                  && PlainObject.IndexValue(Entries(projects, now, analyses, loading)[i].name)
                     <= PlainObject.IndexValue(Entries(projects, now, analyses, loading)[j].name)
    ensures Seqs.Filter(CompanyOrder(projects), PlainObject.IsStringKey)
            == Seqs.Filter(KeysInOrder(ApprovedOf(projects), CompanyKey), PlainObject.IsStringKey)
  {
    var es := Entries(projects, now, analyses, loading);
    var names := KeysInOrder(ApprovedOf(projects), CompanyKey);
    PlainObject.PropertyOrderIndicesFirst(names);
    PlainObject.PropertyOrderKeepsOthers(names);
    assert forall i :: 0 <= i < |es| ==> es[i].name == CompanyOrder(projects)[i];
  }

  /** The pre-sort entry for the `i`-th company describes exactly that company's approved reports. */
  lemma EntryAt(projects: seq<Submission>, now: real,
                analyses: map<string, AnalysisResult>, loading: map<string, bool>, i: int)
    requires 0 <= i < |Entries(projects, now, analyses, loading)|
    ensures var e := Entries(projects, now, analyses, loading)[i];
            && e.name == CompanyOrder(projects)[i]
            && e == MakeReputation(e.name, Members(ApprovedOf(projects), CompanyKey, e.name), now, analyses, loading)
            && Members(ApprovedOf(projects), CompanyKey, e.name) != []
  {
    var approved := ApprovedOf(projects);
    var names := CompanyOrder(projects);
    CompanyOrderMembers(projects);
    assert names[i] in KeysInOrder(approved, CompanyKey);
    var w :| 0 <= w < |approved| && CompanyKey(approved[w]) == Some(names[i]);
    assert approved[w] in Members(approved, CompanyKey, names[i]);
  }

  /**
   * Every entry describes one company with approved reports: exactly those reports,
   * their number, the mean of their delays and of their ratings, and the company's
   * cached analysis and loading flag.
   */
  lemma EntryContents(projects: seq<Submission>, now: real,
                      analyses: map<string, AnalysisResult>, loading: map<string, bool>, e: CompanyReputation)
    requires e in AllReputations(projects, now, analyses, loading)
    ensures forall x :: x in e.projects <==> x in projects && x.status == Approved && x.companyName == e.name
    ensures e.projects != []
    ensures e.delayedProjectsCount == |e.projects|
    ensures e.averageDelayDays == Seqs.Mean(Delays(e.projects, now))
    ensures e.averageRating == Seqs.Mean(Ratings(e.projects))
    ensures e.aiAnalysis == (if e.name in analyses then Some(analyses[e.name]) else None)
    ensures e.isAiAnalysisLoading == (e.name in loading && loading[e.name])
  {
    ReputationsSorted(projects, now, analyses, loading);
    var es := Entries(projects, now, analyses, loading);
    assert e in multiset(es);
    var i :| 0 <= i < |es| && es[i] == e;
    EntryAt(projects, now, analyses, loading, i);
    var approved := ApprovedOf(projects);
    assert e.projects == Members(approved, CompanyKey, e.name);
    assert forall x :: x in approved <==> x in projects && x.status == Approved;
  }

  /** An entry is determined by its company name. */
  lemma EntryDeterminedByName(projects: seq<Submission>, now: real,
                              analyses: map<string, AnalysisResult>, loading: map<string, bool>, e: CompanyReputation)
    requires e in AllReputations(projects, now, analyses, loading)
    ensures e == MakeReputation(e.name, Members(ApprovedOf(projects), CompanyKey, e.name), now, analyses, loading)
  {
    ReputationsSorted(projects, now, analyses, loading);
    var es := Entries(projects, now, analyses, loading);
    assert e in multiset(es);
    var i :| 0 <= i < |es| && es[i] == e;
    EntryAt(projects, now, analyses, loading, i);
  }

  /** A company has an entry exactly when it has at least one approved report. */
  lemma OneEntryPerCompany(projects: seq<Submission>, now: real,
                           analyses: map<string, AnalysisResult>, loading: map<string, bool>, name: string)
    ensures (exists e :: e in AllReputations(projects, now, analyses, loading) && e.name == name)
        <==> (exists p :: p in projects && p.status == Approved && p.companyName == name)
  {
    var r := AllReputations(projects, now, analyses, loading);
    if exists e :: e in r && e.name == name {
      var e :| e in r && e.name == name;
      EntryContents(projects, now, analyses, loading, e);
      assert e.projects[0] in e.projects;
    }
    if exists p :: p in projects && p.status == Approved && p.companyName == name {
      var p :| p in projects && p.status == Approved && p.companyName == name;
      ApprovedReportHasEntry(projects, now, analyses, loading, p);
    }
  }

  /** The company of an approved report has an entry in the ranking. */
  lemma ApprovedReportHasEntry(projects: seq<Submission>, now: real,
                               analyses: map<string, AnalysisResult>, loading: map<string, bool>, p: Submission)
    requires p in projects && p.status == Approved
    ensures exists e :: e in AllReputations(projects, now, analyses, loading) && e.name == p.companyName
  {
    ReputationsSorted(projects, now, analyses, loading);
    var r := AllReputations(projects, now, analyses, loading);
    var es := Entries(projects, now, analyses, loading);
    var approved := ApprovedOf(projects);
    var names := CompanyOrder(projects);
    assert p in approved;
    var w :| 0 <= w < |approved| && approved[w] == p;
    assert p.companyName in KeysInOrder(approved, CompanyKey);
    CompanyOrderMembers(projects);
    assert p.companyName in names;
    var i :| 0 <= i < |names| && names[i] == p.companyName;
    EntryAt(projects, now, analyses, loading, i);
    assert es[i] in multiset(r);
  }

  lemma EntriesNoRepeats(projects: seq<Submission>, now: real,
                         analyses: map<string, AnalysisResult>, loading: map<string, bool>)
    ensures Seqs.NoRepeats(Entries(projects, now, analyses, loading))
  {
    var es := Entries(projects, now, analyses, loading);
    CompanyOrderMembers(projects);
    forall i, j | 0 <= i < j < |es|
      ensures es[i] != es[j]
    {
      EntryAt(projects, now, analyses, loading, i);
      EntryAt(projects, now, analyses, loading, j);
    }
  }

  /** No company appears twice. */
  lemma NamesDistinct(projects: seq<Submission>, now: real,
                      analyses: map<string, AnalysisResult>, loading: map<string, bool>)
    ensures forall i, j :: 0 <= i < j < |AllReputations(projects, now, analyses, loading)|
              ==> AllReputations(projects, now, analyses, loading)[i].name != AllReputations(projects, now, analyses, loading)[j].name
  {
    ReputationsSorted(projects, now, analyses, loading);
    var r := AllReputations(projects, now, analyses, loading);
    EntriesNoRepeats(projects, now, analyses, loading);
    Seqs.PermutationNoRepeats(Entries(projects, now, analyses, loading), r);
    forall i, j | 0 <= i < j < |r|
      ensures r[i].name != r[j].name
    {
      EntryDeterminedByName(projects, now, analyses, loading, r[i]);
      EntryDeterminedByName(projects, now, analyses, loading, r[j]);
    }
  }

  /** With ratings between 0 and 5, every average rating lies between 0 and 5. */
  lemma AverageRatingBounds(projects: seq<Submission>, now: real,
                            analyses: map<string, AnalysisResult>, loading: map<string, bool>, e: CompanyReputation)
    requires forall p :: p in projects ==> 0.0 <= p.rating <= 5.0
    requires e in AllReputations(projects, now, analyses, loading)
    ensures 0.0 <= e.averageRating <= 5.0
  {
    EntryContents(projects, now, analyses, loading, e);
    var rs := Ratings(e.projects);
    forall i | 0 <= i < |rs|
      ensures 0.0 <= rs[i] <= 5.0
    {
      assert e.projects[i] in e.projects;
      assert e.projects[i] in projects;
    }
    Seqs.MeanBounds(rs, 0.0, 5.0);
  }

  /** A company whose approved projects are all still undelivered never has a negative average delay. */
  lemma UndeliveredDelayNonNegative(projects: seq<Submission>, now: real,
                                    analyses: map<string, AnalysisResult>, loading: map<string, bool>, e: CompanyReputation)
    requires e in AllReputations(projects, now, analyses, loading)
    requires forall p :: p in e.projects ==> p.actualDate.None?
    ensures e.averageDelayDays >= 0.0
  {
    EntryContents(projects, now, analyses, loading, e);
    var ds := Delays(e.projects, now);
    forall i | 0 <= i < |ds|
      ensures ds[i] >= 0.0
    {
      assert e.projects[i] in e.projects;
    }
    Seqs.MeanNonNegative(ds);
  }
}

=== FILE: seqs.dfy ===
/**
 * Sequence helpers the views share: Array.prototype.filter, the sums and means
 * that the `reduce` calls compute, and a stable insertion sort standing for
 * Array.prototype.sort with a comparator.
 */
module Seqs {

  /** Array.prototype.filter: the elements that satisfy `p`, in their input order. */
  function Filter<T(!new)>(s: seq<T>, p: T -> bool): (r: seq<T>)
    ensures |r| <= |s|
    ensures forall x :: x in r <==> x in s && p(x)
    decreases |s|
  {
    if s == [] then []
    else
      var init, last := s[..|s| - 1], s[|s| - 1];
      assert s == init + [last];
      var r := Filter(init, p);
      if p(last) then r + [last] else r
  }

  lemma FilterAppend<T(!new)>(s: seq<T>, x: T, p: T -> bool)
    ensures Filter(s + [x], p) == Filter(s, p) + (if p(x) then [x] else [])
  {
    assert (s + [x])[..|s|] == s;
  }

  /** Filtering a concatenation filters each part. */
  lemma {:induction false} FilterConcat<T(!new)>(a: seq<T>, b: seq<T>, p: T -> bool)
    ensures Filter(a + b, p) == Filter(a, p) + Filter(b, p)
    decreases |b|
  {
    if b != [] {
      var init, last := b[..|b| - 1], b[|b| - 1];
      assert b == init + [last];
      assert a + b == (a + init) + [last];
      FilterConcat(a, init, p);
      FilterAppend(a + init, last, p);
      FilterAppend(init, last, p);
    } else {
      assert a + b == a;
    }
  }

  /** No element passes the test: nothing is kept. */
  lemma {:induction false} FilterNoneOf<T(!new)>(s: seq<T>, p: T -> bool)
    requires forall x :: x in s ==> !p(x)
    ensures Filter(s, p) == []
    decreases |s|
  {
    if s != [] {
      var init, last := s[..|s| - 1], s[|s| - 1];
      assert s == init + [last];
      FilterNoneOf(init, p);
      FilterAppend(init, last, p);
    }
  }

  /** A test and its negation split a sequence's elements between them, with their multiplicities. */
  lemma {:induction false} FilterSplitMultiset<T(!new)>(s: seq<T>, p: T -> bool, q: T -> bool)
    requires forall x :: q(x) <==> !p(x)
    ensures multiset(Filter(s, p)) + multiset(Filter(s, q)) == multiset(s)
    decreases |s|
  {
    if s != [] {
      var init, last := s[..|s| - 1], s[|s| - 1];
      assert s == init + [last];
      FilterSplitMultiset(init, p, q);
      FilterAppend(init, last, p);
      FilterAppend(init, last, q);
    }
  }

  /** Keeping every element is the same as every element passing the test. */
  lemma {:induction false} FilterKeepsAllIff<T(!new)>(s: seq<T>, p: T -> bool)
    ensures |Filter(s, p)| == |s| <==> forall i :: 0 <= i < |s| ==> p(s[i])
    decreases |s|
  {
    if s != [] {
      var init := s[..|s| - 1];
      FilterKeepsAllIff(init, p);
      assert forall i :: 0 <= i < |init| ==> init[i] == s[i];
    }
  }

  predicate NoRepeats<T(==)>(s: seq<T>)
  {
    forall i, j :: 0 <= i < j < |s| ==> s[i] != s[j]
  }

  /** `Array.from(new Set(s))`: the first occurrence of each element, in order. */
  function Dedup<T(==,!new)>(s: seq<T>): (r: seq<T>)
    ensures NoRepeats(r)
    ensures forall x :: x in r <==> x in s
    decreases |s|
  {
    if s == [] then []
    else
      var init, last := s[..|s| - 1], s[|s| - 1];
      assert forall x :: x in s <==> x in init || x == last;
      Dedup(init) + (if last in init then [] else [last])
  }

  /** A filter no element passes returns nothing. */
  lemma {:induction false} FilterNoneKept<T(!new)>(s: seq<T>, p: T -> bool)
    requires forall x :: !p(x)
    ensures Filter(s, p) == []
    decreases |s|
  {
    if s != [] {
      FilterNoneKept(s[..|s| - 1], p);
    }
  }

  /** Two complementary filters split a sequence: their sizes add up to its size. */
  lemma {:induction false} FilterPartition<T(!new)>(s: seq<T>, p: T -> bool, q: T -> bool)
    requires forall x :: q(x) <==> !p(x)
    ensures |Filter(s, p)| + |Filter(s, q)| == |s|
    decreases |s|
  {
    if s != [] {
      FilterPartition(s[..|s| - 1], p, q);
    }
  }

  /** Filtering a sequence without repeats yields one without repeats. */
  lemma {:induction false} FilterNoRepeats<T(!new)>(s: seq<T>, p: T -> bool)
    requires NoRepeats(s)
    ensures NoRepeats(Filter(s, p))
    decreases |s|
  {
    if s != [] {
      var init, last := s[..|s| - 1], s[|s| - 1];
      assert NoRepeats(init) by {
        forall i, j | 0 <= i < j < |init|
          ensures init[i] != init[j]
        {
          assert init[i] == s[i] && init[j] == s[j];
        }
      }
      FilterNoRepeats(init, p);
      assert last !in init by {
        forall i | 0 <= i < |init|
          ensures init[i] != last
        {
          assert init[i] == s[i];
        }
      }
    }
  }

  lemma {:induction false} NoRepeatsMultiplicity<T>(s: seq<T>, x: T)
    requires NoRepeats(s)
    ensures multiset(s)[x] <= 1
    decreases |s|
  {
    if s != [] {
      var init := s[..|s| - 1];
      assert s == init + [s[|s| - 1]];
      assert NoRepeats(init) by {
        forall i, j | 0 <= i < j < |init|
          ensures init[i] != init[j]
        {
          assert init[i] == s[i] && init[j] == s[j];
        }
      }
      NoRepeatsMultiplicity(init, x);
    }
  }

  /** A permutation of a sequence without repeats has no repeats. */
  lemma PermutationNoRepeats<T>(a: seq<T>, b: seq<T>)
    requires NoRepeats(a) && multiset(a) == multiset(b)
    ensures NoRepeats(b)
  {
    forall i, j | 0 <= i < j < |b|
      ensures b[i] != b[j]
    {
      if b[i] == b[j] {
        assert b == b[..j] + b[j..];
        assert b[i] in b[..j];
        assert b[j] in b[j..];
        assert multiset(b)[b[i]] == multiset(b[..j])[b[i]] + multiset(b[j..])[b[i]];
        NoRepeatsMultiplicity(a, b[i]);
      }
    }
  }

  /** The first element kept by a filter is the first element of the input that passes. */
  lemma {:induction false} FilterFirst<T(!new)>(s: seq<T>, p: T -> bool)
    requires Filter(s, p) != []
    ensures exists i :: 0 <= i < |s| && s[i] == Filter(s, p)[0] && p(s[i])
                        && forall j :: 0 <= j < i ==> !p(s[j])
    decreases |s|
  {
    var init, last := s[..|s| - 1], s[|s| - 1];
    assert forall j :: 0 <= j < |init| ==> init[j] == s[j];
    if Filter(init, p) != [] {
      FilterFirst(init, p);
      var i :| 0 <= i < |init| && init[i] == Filter(init, p)[0] && p(init[i])
               && forall j :: 0 <= j < i ==> !p(init[j]);
      assert s[i] == Filter(s, p)[0];
    } else {
      assert forall j :: 0 <= j < |init| ==> !p(init[j]) by {
        forall j | 0 <= j < |init|
          ensures !p(init[j])
        {
          assert init[j] in init;
        }
      }
      assert s[|s| - 1] == Filter(s, p)[0];
    }
  }

  /** A filter that drops nothing returns its input. */
  lemma {:induction false} FilterAllKept<T(!new)>(s: seq<T>, p: T -> bool)
    requires forall i :: 0 <= i < |s| ==> p(s[i])
    ensures Filter(s, p) == s
    decreases |s|
  {
    if s != [] {
      var init := s[..|s| - 1];
      assert forall i :: 0 <= i < |init| ==> init[i] == s[i];
      FilterAllKept(init, p);
    }
  }

  /** `a` can be obtained from `b` by deleting elements (order kept). */
  predicate IsSubsequence<T(==)>(a: seq<T>, b: seq<T>)
    decreases |b|
  {
    if a == [] then true
    else if b == [] then false
    else
      (a[|a| - 1] == b[|b| - 1] && IsSubsequence(a[..|a| - 1], b[..|b| - 1]))
      || IsSubsequence(a, b[..|b| - 1])
  }

  /** Filtering never reorders: the result is a subsequence of the input. */
  lemma {:induction false} FilterIsSubsequence<T(!new)>(s: seq<T>, p: T -> bool)
    ensures IsSubsequence(Filter(s, p), s)
    decreases |s|
  {
    if s != [] {
      var init, last := s[..|s| - 1], s[|s| - 1];
      FilterIsSubsequence(init, p);
      var r := Filter(init, p);
      if p(last) {
        assert Filter(s, p) == r + [last];
        assert (r + [last])[..|r|] == r;
      }
    }
  }

  /** The left fold `reduce((acc, x) => acc + x, 0)`. */
  function Sum(xs: seq<real>): real
    decreases |xs|
  {
    if xs == [] then 0.0 else Sum(xs[..|xs| - 1]) + xs[|xs| - 1]
  }

  /** The average the views compute, 0 for no values (never NaN). */
  function Mean(xs: seq<real>): real
  {
    if |xs| == 0 then 0.0 else Sum(xs) / (|xs| as real)
  }

  lemma {:induction false} SumBounds(xs: seq<real>, lo: real, hi: real)
    requires forall i :: 0 <= i < |xs| ==> lo <= xs[i] <= hi
    ensures lo * (|xs| as real) <= Sum(xs) <= hi * (|xs| as real)
    decreases |xs|
  {
    if xs != [] {
      var init := xs[..|xs| - 1];
      assert forall i :: 0 <= i < |init| ==> init[i] == xs[i];
      SumBounds(init, lo, hi);
      var m := |init| as real;
      assert Sum(xs) == Sum(init) + xs[|xs| - 1];
      assert lo <= xs[|xs| - 1] <= hi;
      assert |xs| as real == m + 1.0;
      assert lo * (m + 1.0) == lo * m + lo;
      assert hi * (m + 1.0) == hi * m + hi;
    }
  }

  lemma {:induction false} SumNonNegative(xs: seq<real>)
    requires forall i :: 0 <= i < |xs| ==> xs[i] >= 0.0
    ensures Sum(xs) >= 0.0
    decreases |xs|
  {
    if xs != [] {
      var init := xs[..|xs| - 1];
      assert forall i :: 0 <= i < |init| ==> init[i] == xs[i];
      SumNonNegative(init);
    }
  }

  /** The mean of non-negative values is non-negative. */
  lemma MeanNonNegative(xs: seq<real>)
    requires forall i :: 0 <= i < |xs| ==> xs[i] >= 0.0
    ensures Mean(xs) >= 0.0
  {
    SumNonNegative(xs);
  }

  /** A mean lies between the smallest and largest admissible value. */
  lemma MeanBounds(xs: seq<real>, lo: real, hi: real)
    requires |xs| > 0
    requires forall i :: 0 <= i < |xs| ==> lo <= xs[i] <= hi
    ensures lo <= Mean(xs) <= hi
  {
    SumBounds(xs, lo, hi);
    var n := |xs| as real;
    var m := Mean(xs);
    assert m * n == Sum(xs);
    assert (m - lo) * n >= 0.0;
    assert (hi - m) * n >= 0.0;
  }

  /** The count `filter(q).length / filter(p).length * 100` for q stronger than p lies in [0, 100]. */
  function Percentage(part: nat, whole: nat): (r: real)
    requires part <= whole
    ensures 0.0 <= r <= 100.0
    ensures whole == 0 ==> r == 0.0
    ensures whole > 0 ==> (r == 100.0 <==> part == whole)
    ensures whole > 0 ==> (r == 0.0 <==> part == 0)
  {
    if whole > 0 then (part as real / whole as real) * 100.0 else 0.0
  }

  /** A filter by a stronger test keeps no more elements. */
  lemma {:induction false} FilterStronger<T(!new)>(s: seq<T>, p: T -> bool, q: T -> bool)
    requires forall x :: q(x) ==> p(x)
    ensures |Filter(s, q)| <= |Filter(s, p)|
    decreases |s|
  {
    if s != [] {
      FilterStronger(s[..|s| - 1], p, q);
    }
  }

  // ---- sorting ----

  ghost predicate TotalPreorder<T(!new)>(le: (T, T) -> bool)
  {
    && (forall a, b :: le(a, b) || le(b, a))
    && (forall a, b, c :: le(a, b) && le(b, c) ==> le(a, c))
  }

  predicate SortedBy<T>(s: seq<T>, le: (T, T) -> bool)
  {
    forall i, j :: 0 <= i < j < |s| ==> le(s[i], s[j])
  }

  /** Inserts `x` before the first element it may precede. */
  function Insert<T>(x: T, s: seq<T>, le: (T, T) -> bool): seq<T>
    decreases |s|
  {
    if s == [] then [x]
    else if le(x, s[0]) then [x] + s
    else [s[0]] + Insert(x, s[1..], le)
  }

  /** Insertion sort; an element is placed before the later elements it ties with. */
  function InsertionSort<T>(s: seq<T>, le: (T, T) -> bool): seq<T>
    decreases |s|
  {
    if s == [] then [] else Insert(s[0], InsertionSort(s[1..], le), le)
  }

  lemma {:induction false} InsertMultiset<T>(x: T, s: seq<T>, le: (T, T) -> bool)
    ensures multiset(Insert(x, s, le)) == multiset(s) + multiset{x}
    decreases |s|
  {
    if s != [] && !le(x, s[0]) {
      InsertMultiset(x, s[1..], le);
      assert s == [s[0]] + s[1..];
    }
  }

  lemma SortedCons<T>(h: T, r: seq<T>, le: (T, T) -> bool)
    requires SortedBy(r, le)
    requires forall k :: 0 <= k < |r| ==> le(h, r[k])
    ensures SortedBy([h] + r, le)
  {
    forall i, j | 0 <= i < j < |[h] + r|
      ensures le(([h] + r)[i], ([h] + r)[j])
    {
      assert ([h] + r)[j] == r[j - 1];
      if i > 0 {
        assert ([h] + r)[i] == r[i - 1];
      }
    }
  }

  lemma {:induction false} InsertCorrect<T(!new)>(x: T, s: seq<T>, le: (T, T) -> bool)
    requires TotalPreorder(le)
    requires SortedBy(s, le)
    ensures SortedBy(Insert(x, s, le), le)
    ensures multiset(Insert(x, s, le)) == multiset(s) + multiset{x}
    decreases |s|
  {
    InsertMultiset(x, s, le);
    if s == [] {
    } else if le(x, s[0]) {
      forall k | 0 <= k < |s|
        ensures le(x, s[k])
      {
        if k > 0 {
          assert le(s[0], s[k]);
        }
      }
      SortedCons(x, s, le);
    } else {
      var h, tail := s[0], s[1..];
      assert SortedBy(tail, le) by {
        forall i, j | 0 <= i < j < |tail|
          ensures le(tail[i], tail[j])
        {
          assert tail[i] == s[i + 1] && tail[j] == s[j + 1];
        }
      }
      InsertCorrect(x, tail, le);
      var r := Insert(x, tail, le);
      assert le(h, x);
      forall k | 0 <= k < |r|
        ensures le(h, r[k])
      {
        assert r[k] in multiset(tail) + multiset{x};
        if r[k] != x {
          assert r[k] in tail;
          var m :| 0 <= m < |tail| && tail[m] == r[k];
          assert s[m + 1] == r[k];
        }
      }
      SortedCons(h, r, le);
    }
  }

  /** The sort returns a sorted permutation of its input. */
  lemma {:induction false} InsertionSortCorrect<T(!new)>(s: seq<T>, le: (T, T) -> bool)
    requires TotalPreorder(le)
    ensures SortedBy(InsertionSort(s, le), le)
    ensures multiset(InsertionSort(s, le)) == multiset(s)
    decreases |s|
  {
    if s != [] {
      InsertionSortCorrect(s[1..], le);
      InsertCorrect(s[0], InsertionSort(s[1..], le), le);
      assert s == [s[0]] + s[1..];
    }
  }
}

=== FILE: site_admin.dfy ===
/**
 * The site admin's dashboard helpers: the normalised link shown for a
 * duplicate group and used as the key to dismiss it, the submitter's first
 * name, and the API-key panel.
 */
module SiteAdmin {
  import opened Domain
  import opened Grouping
  import Duplicates
  import Text

  /** `getNormalizedUrl`: the detector's normalised link, or the link itself when it does not parse. */
  function GetNormalizedUrl(parse: Duplicates.UrlParser, link: string): (r: string)
    ensures parse(link).Some? ==> Duplicates.NormalizeLink(parse, link) == Some(r)
    ensures parse(link).None? ==> r == link
  {
    match parse(link)
    case None => link
    case Some((hostname, pathname)) => Duplicates.StripTrailingSlash(hostname + pathname)
  }

  /** `groupKey`: the normalised link of the group's first report. */
  function GroupKey(parse: Duplicates.UrlParser, group: seq<Submission>): string
    requires group != []
  {
    GetNormalizedUrl(parse, group[0].crowdfundingLink)
  }

  /** The key the dashboard derives for a group is the detector's key of every report in it. */
  lemma GroupKeyIsDetectorKey(projects: seq<Submission>, dismissed: seq<string>, parse: Duplicates.UrlParser, g: seq<Submission>)
    requires g in Duplicates.DuplicateGroups(projects, dismissed, parse)
    ensures g != []
    ensures forall x :: x in g ==> Duplicates.DetectorKey(parse, dismissed, x) == Some(GroupKey(parse, g))
  {
    Duplicates.GroupsShareKey(projects, dismissed, parse, g);
    assert g[0] in g;
  }

  /**
   * Dismissing the key shown for a group removes exactly that group: every other
   * group is still reported, and nothing new appears.
   */
  lemma DismissRemovesGroup(projects: seq<Submission>, dismissed: seq<string>, parse: Duplicates.UrlParser, g: seq<Submission>)
    requires g in Duplicates.DuplicateGroups(projects, dismissed, parse)
    ensures forall h :: h in Duplicates.DuplicateGroups(projects, dismissed + [GroupKey(parse, g)], parse)
                    <==> h in Duplicates.DuplicateGroups(projects, dismissed, parse) && h != g
  {
    GroupKeyIsDetectorKey(projects, dismissed, parse, g);
    var k := GroupKey(parse, g);
    var dismissed' := dismissed + [k];
    var key1 := Duplicates.DetectorKeyFn(parse, dismissed);
    var key2 := Duplicates.DetectorKeyFn(parse, dismissed');
    Duplicates.DuplicateGroupsMembership(projects, dismissed, parse, g);
    var k0 :| g == Members(projects, key1, k0);
    assert g[0] in g;
    assert k0 == k;
    forall h
      ensures h in Duplicates.DuplicateGroups(projects, dismissed', parse)
          <==> h in Duplicates.DuplicateGroups(projects, dismissed, parse) && h != g
    {
      Duplicates.DuplicateGroupsMembership(projects, dismissed', parse, h);
      Duplicates.DuplicateGroupsMembership(projects, dismissed, parse, h);
      if h in Duplicates.DuplicateGroups(projects, dismissed', parse) {
        var k2 :| h == Members(projects, key2, k2);
        assert h[0] in h;
        assert k2 != k;
        MembersAgree(projects, key1, key2, k2);
        assert key1(h[0]) == Some(k2);
      }
      if h in Duplicates.DuplicateGroups(projects, dismissed, parse) && h != g {
        var k2 :| h == Members(projects, key1, k2);
        assert k2 != k;
        MembersAgree(projects, key1, key2, k2);
      }
    }
  }

  /** `getUserFirstName`: the first space-separated word of the user's name, or the e-mail of an unknown user. */
  function GetUserFirstName(users: seq<User>, email: string): (r: string)
    ensures FindUser(users, email).None? ==> r == email
    ensures FindUser(users, email).Some? ==> r <= FindUser(users, email).value.fullName && ' ' !in r
    ensures FindUser(users, email).Some? && |r| < |FindUser(users, email).value.fullName|
            ==> FindUser(users, email).value.fullName[|r|] == ' '
  {
    match FindUser(users, email)
    case None => email
    case Some(u) => Text.FirstToken(u.fullName)
  }

  /**
   * The API-key panel: the text field `newApiKey` and the keys it has passed to
   * the controller's `onSaveApiKey`, oldest first.
   */
  class ApiKeyPanel {
    var newApiKey: string
    var savedKeys: seq<string>

    constructor ()
      ensures newApiKey == "" && savedKeys == []
    {
      newApiKey, savedKeys := "", [];
    }

    /** Typing in the field. */
    method Edit(text: string)
      modifies this
      ensures newApiKey == text && savedKeys == old(savedKeys)
    {
      newApiKey := text;
    }

    /** `handleApiKeySave`: forwards the field as typed; the controller trims it. */
    method Save()
      modifies this
      ensures newApiKey == old(newApiKey)
      ensures savedKeys == old(savedKeys) + [old(newApiKey)]
    {
      savedKeys := savedKeys + [newApiKey];
    }

    /** `handleApiKeyRemove`: clears the field and saves the empty key. */
    method Remove()
      modifies this
      ensures newApiKey == ""
      ensures savedKeys == old(savedKeys) + [""]
    {
      newApiKey := "";
      savedKeys := savedKeys + [""];
    }
  }
}

=== FILE: stars.dfy ===
/**
 * Star ratings: how much of each of the five stars is filled for a rating
 * (the display and the input widget share the rule), the clamp the star icon
 * applies to its gradient offset, and the input widget's hover state.
 */
module Stars {
  import Seqs

  /** The fill, in percent, of star `index` (0-based) for `rating`. */
  function Fill(rating: real, index: nat): (f: real)
  {
    if rating >= (index + 1) as real then 100.0
    else if rating > index as real && rating < (index + 1) as real then (rating - index as real) * 100.0
    else 0.0
  }

  function Fills(rating: real, n: nat): (fs: seq<real>)
    ensures |fs| == n && forall i :: 0 <= i < n ==> fs[i] == Fill(rating, i)
  {
    seq(n, i requires 0 <= i < n => Fill(rating, i))
  }

  /** The five fills `[...Array(5)].map(...)` renders. */
  function StarFills(rating: real): (fs: seq<real>)
    ensures |fs| == 5
  {
    Fills(rating, 5)
  }

  /** Every fill is a percentage; full below the rating, empty at or above it. */
  lemma FillRange(rating: real, index: nat)
    ensures 0.0 <= Fill(rating, index) <= 100.0
    ensures Fill(rating, index) == 100.0 <==> rating >= (index + 1) as real
    ensures Fill(rating, index) == 0.0 <==> rating <= index as real
  {
  }

  /** Fills never increase from left to right. */
  lemma FillNonIncreasing(rating: real, i: nat, j: nat)
    requires i <= j
    ensures Fill(rating, i) >= Fill(rating, j)
  {
  }

  function Min(a: real, b: real): real
  {
    if a <= b then a else b
  }

  lemma {:induction false} FillsSum(rating: real, n: nat)
    requires rating >= 0.0
    ensures Seqs.Sum(Fills(rating, n)) == 100.0 * Min(rating, n as real)
  {
    if n > 0 {
      FillsSum(rating, n - 1);
      assert Fills(rating, n)[..n - 1] == Fills(rating, n - 1);
    }
  }

  /** For a rating from 0 to 5 the five fills add up to 100 times the rating. */
  lemma StarFillsSum(rating: real)
    requires 0.0 <= rating <= 5.0
    ensures Seqs.Sum(StarFills(rating)) == 100.0 * rating
  {
    FillsSum(rating, 5);
  }

  /** The icon's gradient offset, `Math.max(0, Math.min(100, fillPercentage))`. */
  function StopOffset(fillPercentage: real): (r: real)
    ensures 0.0 <= r <= 100.0
  {
    if fillPercentage > 100.0 then 100.0 else if fillPercentage < 0.0 then 0.0 else fillPercentage
  }

  /** Values already in [0, 100] pass unchanged; below 0 gives 0 and above 100 gives 100. */
  lemma StopOffsetCases(x: real)
    ensures 0.0 <= x <= 100.0 ==> StopOffset(x) == x
    ensures x < 0.0 ==> StopOffset(x) == 0.0
    ensures x > 100.0 ==> StopOffset(x) == 100.0
  {
  }

  lemma StopOffsetMonotone(x: real, y: real)
    requires x <= y
    ensures StopOffset(x) <= StopOffset(y)
  {
  }

  /** The stars never need clamping: the icon shows every fill as computed. */
  lemma FillsNeedNoClamp(rating: real, index: nat)
    ensures StopOffset(Fill(rating, index)) == Fill(rating, index)
  {
    FillRange(rating, index);
  }

  /** A hover value: a whole or half star from 0.5 to 5. */
  predicate IsHalfStep(h: real)
  {
    0.5 <= h <= 5.0 && (h * 2.0).Floor as real == h * 2.0
  }

  /**
   * The rating input. `rating` is the committed value (the parent stores what
   * `onRatingChange` passes back); `hoverRating` follows the cursor, 0 when it is away.
   */
  class StarRatingInput {
    var rating: real
    var hoverRating: real

    /** The hover is either absent (0) or a half step between 0.5 and 5. */
    predicate Valid()
      reads this
    {
      hoverRating == 0.0 || IsHalfStep(hoverRating)
    }

    constructor (rating: real)
      ensures this.rating == rating && hoverRating == 0.0
      ensures Valid()
    {
      this.rating, hoverRating := rating, 0.0;
    }

    /**
     * `handleMouseMove` over star `index`; `fraction` is how far across the star the
     * cursor is, `(clientX - left) / width`. The left half hovers a half star.
     */
    method MouseMove(index: nat, fraction: real)
      requires index < 5
      modifies this
      ensures hoverRating == index as real + (if fraction < 0.5 then 0.5 else 1.0)
      ensures rating == old(rating)
      ensures Valid() && hoverRating > 0.0
    {
      hoverRating := index as real + (if fraction < 0.5 then 0.5 else 1.0);
      var k := 2 * index + (if fraction < 0.5 then 1 else 2);
      assert hoverRating * 2.0 == k as real;
    }

    /**
     * `handleClick`: commits the hovered value, so a click commits either 0
     * (no hover seen) or a half step.
     */
    method Click()
      requires Valid()
      modifies this
      ensures rating == old(hoverRating) && hoverRating == old(hoverRating)
      ensures Valid()
      ensures rating == 0.0 || IsHalfStep(rating)
    {
      rating := hoverRating;
    }

    /** `onMouseLeave`. */
    method MouseLeave()
      modifies this
      ensures hoverRating == 0.0 && rating == old(rating)
      ensures Valid()
    {
      hoverRating := 0.0;
    }

    /** `displayRating`: the hovered value while there is one, else the committed rating. */
    function DisplayRating(): real
      reads this
    {
      if hoverRating > 0.0 then hoverRating else rating
    }

    function DisplayedFills(): (fs: seq<real>)
      reads this
      ensures |fs| == 5
    {
      StarFills(DisplayRating())
    }
  }

  /** While hovering, the widget shows the hovered half step; once the cursor leaves, the committed rating. */
  lemma DisplayFollowsHover(w: StarRatingInput)
    ensures w.hoverRating > 0.0 ==> w.DisplayRating() == w.hoverRating
    ensures w.hoverRating <= 0.0 ==> w.DisplayRating() == w.rating
  {
  }

  /** Moving over star `index` then clicking commits a rating that fills the stars before it. */
  method HoverThenClick(w: StarRatingInput, index: nat, fraction: real)
    requires index < 5
    modifies w
    ensures w.rating == index as real + (if fraction < 0.5 then 0.5 else 1.0)
    ensures w.Valid() && IsHalfStep(w.rating)
    ensures forall i :: 0 <= i < index ==> w.DisplayedFills()[i] == 100.0
    ensures w.DisplayedFills()[index] == (if fraction < 0.5 then 50.0 else 100.0)
  {
    w.MouseMove(index, fraction);
    w.Click();
  }
}

=== FILE: submission_form.dfy ===
/**
 * The form that files a new report: a company-name box with a dropdown of
 * the known companies that match what was typed, the project's fields, and
 * a submit handler that checks them in a fixed order before handing the
 * payload to the controller.
 */
module SubmissionForm {
  import opened Domain
  import Seqs
  import Text
  import Duplicates
  import Controller

  function MatchesSearch(search: string): string -> bool
  {
    (name: string) => Text.ContainsIgnoringCase(name, search)
  }

  /**
   * `filteredCompanies`: nothing for an empty search; otherwise the known
   * names containing the search, ignoring case, in ascending order.
   */
  function FilteredCompanies(companyNames: seq<string>, search: string): seq<string>
  {
    if search == "" then [] else Text.SortStrings(Seqs.Filter(companyNames, MatchesSearch(search)))
  }

  /** The dropdown lists exactly the matching names, sorted, each as often as it is known. */
  lemma FilteredCompaniesSpec(companyNames: seq<string>, search: string)
    ensures search == "" ==> FilteredCompanies(companyNames, search) == []
    ensures Seqs.SortedBy(FilteredCompanies(companyNames, search), Text.StringLe)
    ensures search != "" ==>
              forall n :: n in FilteredCompanies(companyNames, search)
                          <==> n in companyNames && Text.ContainsIgnoringCase(n, search)
    ensures search != "" ==>
              multiset(FilteredCompanies(companyNames, search))
              == multiset(Seqs.Filter(companyNames, MatchesSearch(search)))
  {
    if search != "" {
      var kept := Seqs.Filter(companyNames, MatchesSearch(search));
      Text.SortStringsCorrect(kept);
      forall n
        ensures n in FilteredCompanies(companyNames, search) <==> n in companyNames && Text.ContainsIgnoringCase(n, search)
      {
        assert n in FilteredCompanies(companyNames, search) <==> n in multiset(FilteredCompanies(companyNames, search));
        assert n in kept <==> n in multiset(kept);
      }
    }
  }

  /** "Criar empresa": offered in the open dropdown when the search matches no known name. */
  predicate CreateOffered(isDropdownOpen: bool, companyNames: seq<string>, search: string)
  {
    isDropdownOpen && search != "" && FilteredCompanies(companyNames, search) == []
  }

  /**
   * Creating a company is offered exactly when no known name contains the
   * search, so a name that is already known is never offered for creation.
   */
  lemma CreateOfferedIff(isDropdownOpen: bool, companyNames: seq<string>, search: string)
    ensures CreateOffered(isDropdownOpen, companyNames, search)
            <==> isDropdownOpen && search != ""
                 && forall n :: n in companyNames ==> !Text.ContainsIgnoringCase(n, search)
    ensures search in companyNames ==> !CreateOffered(isDropdownOpen, companyNames, search)
  {
    FilteredCompaniesSpec(companyNames, search);
    var shown := FilteredCompanies(companyNames, search);
    if search != "" && shown != [] {
      assert shown[0] in companyNames && Text.ContainsIgnoringCase(shown[0], search);
    }
    if search in companyNames {
      Text.ContainsItself(search);
    }
  }

  const RequiredFieldsError := "Por favor, preencha todos os campos obrigatórios."
  const RatingError := "Por favor, selecione uma avaliação em estrelas."
  const LinkError := "Por favor, insira um link de financiamento coletivo válido."

  /** What the form holds. An empty date box is `None`. */
  datatype FormState = FormState(
    companySearch: string,
    isDropdownOpen: bool,
    projectName: string,
    crowdfundingLink: string,
    promisedDate: Option<Day>,
    actualDate: Option<Day>,
    isDelivered: bool,
    rating: real,
    comment: string,
    wouldBuyAgain: bool,
    error: string)

  /** A blank form: no rating, "would buy again" answered yes. */
  const InitialForm := FormState("", false, "", "", None, None, false, 0.0, "", true, "")

  /** The project's own inputs, each replacing one field. */
  datatype Input =
    | ProjectName(text: string)
    | CrowdfundingLink(text: string)
    | PromisedDate(date: Option<Day>)
    | ActualDate(date: Option<Day>)
    | Delivered(on: bool)
    | Rating(stars: real)
    | Comment(text: string)
    | WouldBuyAgain(yes: bool)

  function Apply(f: FormState, input: Input): FormState
  {
    match input
    case ProjectName(t) => f.(projectName := t)
    case CrowdfundingLink(t) => f.(crowdfundingLink := t)
    case PromisedDate(d) => f.(promisedDate := d)
    case ActualDate(d) => f.(actualDate := d)
    case Delivered(b) => f.(isDelivered := b)
    case Rating(r) => f.(rating := r)
    case Comment(t) => f.(comment := t)
    case WouldBuyAgain(b) => f.(wouldBuyAgain := b)
  }

  /** An input never touches the company box, the dropdown or the error message. */
  lemma ApplyKeepsCompanyAndError(f: FormState, input: Input)
    ensures Apply(f, input).companySearch == f.companySearch
    ensures Apply(f, input).isDropdownOpen == f.isDropdownOpen
    ensures Apply(f, input).error == f.error
  {
  }

  predicate RequiredFilled(f: FormState)
  {
    f.companySearch != "" && f.projectName != "" && f.crowdfundingLink != "" && f.promisedDate.Some?
  }

  /**
   * The first check `handleSubmit` fails, if any: missing required fields,
   * then a zero rating, then a link `new URL` rejects.
   */
  function ValidationError(f: FormState, parse: Duplicates.UrlParser): (e: Option<string>)
    ensures e.None? <==> RequiredFilled(f) && f.rating != 0.0 && parse(f.crowdfundingLink).Some?
    ensures e == Some(RequiredFieldsError) <==> !RequiredFilled(f)
    ensures e == Some(RatingError) <==> RequiredFilled(f) && f.rating == 0.0
    ensures e == Some(LinkError) <==> RequiredFilled(f) && f.rating != 0.0 && parse(f.crowdfundingLink).None?
  {
    if !RequiredFilled(f) then Some(RequiredFieldsError)
    else if f.rating == 0.0 then Some(RatingError)
    else if parse(f.crowdfundingLink).None? then Some(LinkError)
    else None
  }

  /** The payload sent on success; the delivery date goes only when "delivered" is ticked. */
  function Payload(f: FormState): Controller.SubmissionPayload
    requires f.promisedDate.Some?
  {
    Controller.SubmissionPayload(
      f.companySearch, f.projectName, f.crowdfundingLink, f.promisedDate.value,
      if f.isDelivered then f.actualDate else None,
      f.rating, f.comment, f.wouldBuyAgain)
  }

  /**
   * An accepted form yields a report whose company, project and link are
   * non-empty, whose link parses, whose rating is set, which is pending, and
   * which carries a delivery date only when it was marked delivered.
   */
  lemma AcceptedReportIsComplete(f: FormState, parse: Duplicates.UrlParser, id: string, email: string)
    requires ValidationError(f, parse).None?
    ensures var s := Controller.NewSubmission(Payload(f), id, email);
            && s.companyName == f.companySearch && s.companyName != ""
            && s.projectName != "" && parse(s.crowdfundingLink).Some?
            && s.rating != 0.0 && s.status == Pending
            && s.promisedDate == f.promisedDate.value
            && (s.actualDate.Some? ==> f.isDelivered && s.actualDate == f.actualDate)
  {
  }

  /** SubmissionForm. */
  class Form {
    const companyNames: seq<string>
    var companySearch: string
    var isDropdownOpen: bool
    var projectName: string
    var crowdfundingLink: string
    var promisedDate: Option<Day>
    var actualDate: Option<Day>
    var isDelivered: bool
    var rating: real
    var comment: string
    var wouldBuyAgain: bool
    var error: string

    function State(): FormState
      reads this
    {
      FormState(companySearch, isDropdownOpen, projectName, crowdfundingLink, promisedDate,
                actualDate, isDelivered, rating, comment, wouldBuyAgain, error)
    }

    constructor (companyNames: seq<string>)
      ensures this.companyNames == companyNames
      ensures State() == InitialForm
    {
      this.companyNames := companyNames;
      companySearch, isDropdownOpen := "", false;
      projectName, crowdfundingLink := "", "";
      promisedDate, actualDate, isDelivered := None, None, false;
      rating, comment, wouldBuyAgain := 0.0, "", true;
      error := "";
    }

    /** Typing in the company box. */
    method TypeCompany(text: string)
      modifies this
      ensures State() == old(State()).(companySearch := text)
    {
      companySearch := text;
    }

    /** Focusing the company box opens the dropdown. */
    method FocusCompany()
      modifies this
      ensures State() == old(State()).(isDropdownOpen := true)
    {
      isDropdownOpen := true;
    }

    /** A click outside the box closes the dropdown. */
    method ClickOutside()
      modifies this
      ensures State() == old(State()).(isDropdownOpen := false)
    {
      isDropdownOpen := false;
    }

    /** `handleCompanySelect`: a listed name replaces the search and the dropdown closes. */
    method HandleCompanySelect(name: string)
      requires isDropdownOpen && name in FilteredCompanies(companyNames, companySearch)
      modifies this
      ensures State() == old(State()).(companySearch := name, isDropdownOpen := false)
      ensures name in companyNames
    {
      FilteredCompaniesSpec(companyNames, companySearch);
      companySearch := name;
      isDropdownOpen := false;
    }

    /** `handleCreateNewCompany`: the typed name is kept as a new company; the dropdown closes. */
    method HandleCreateNewCompany()
      requires CreateOffered(isDropdownOpen, companyNames, companySearch)
      modifies this
      ensures State() == old(State()).(isDropdownOpen := false)
      ensures companySearch !in companyNames
    {
      CreateOfferedIff(isDropdownOpen, companyNames, companySearch);
      isDropdownOpen := false;
    }

    /** One of the project's inputs changes. */
    method Edit(input: Input)
      modifies this
      ensures State() == Apply(old(State()), input)
    {
      match input
      case ProjectName(t) => projectName := t;
      case CrowdfundingLink(t) => crowdfundingLink := t;
      case PromisedDate(d) => promisedDate := d;
      case ActualDate(d) => actualDate := d;
      case Delivered(b) => isDelivered := b;
      case Rating(r) => rating := r;
      case Comment(t) => comment := t;
      case WouldBuyAgain(b) => wouldBuyAgain := b;
    }

    /**
     * `handleSubmit`: the first failed check becomes the error and nothing is
     * sent; otherwise the error is cleared and the payload is sent.
     */
    method HandleSubmit(parse: Duplicates.UrlParser) returns (submitted: Option<Controller.SubmissionPayload>)
      modifies this
      ensures var e := ValidationError(old(State()), parse);
              && (e.Some? ==> submitted.None? && State() == old(State()).(error := e.value))
              && (e.None? ==> submitted == Some(Payload(old(State()))) && State() == old(State()).(error := ""))
    {
      if companySearch == "" || projectName == "" || crowdfundingLink == "" || promisedDate.None? {
        error := RequiredFieldsError;
        return None;
      }
      if rating == 0.0 {
        error := RatingError;
        return None;
      }
      if parse(crowdfundingLink).None? {
        error := LinkError;
        return None;
      }
      error := "";
      submitted := Some(Controller.SubmissionPayload(
        companySearch, projectName, crowdfundingLink, promisedDate.value,
        if isDelivered then actualDate else None,
        rating, comment, wouldBuyAgain));
    }
  }
}

=== FILE: text.dfy ===
/**
 * The string operations the components rely on: toLowerCase and includes
 * (case-insensitive search), split(' ')[0], trim, number rendering, join,
 * and the default string order of Array.prototype.sort.
 */
module Text {
  import Seqs

  /** String.prototype.toLowerCase on one character (ASCII letters). */
  function Lower(c: char): char
  {
    if 'A' <= c <= 'Z' then (c as int + 32) as char else c
  }

  /**
   * String.prototype.toUpperCase on one character, for the ASCII and Latin-1
   * letters: a-z and à-þ (but not ÷) move to their capitals, ß becomes "SS",
   * ÿ becomes Ÿ and µ becomes the Greek capital mu; every other character is
   * kept.
   */
  function UpperCase(c: char): (s: string)
    ensures 1 <= |s| <= 2
    ensures |s| == 2 <==> c == 'ß'
    ensures 'A' <= c <= 'Z' ==> s == [c]
  {
    if 'a' <= c <= 'z' then [(c as int - 32) as char]
    else if c == 'ß' then "SS"
    else if 'à' <= c <= 'þ' && c != '÷' then [(c as int - 32) as char]
    else if c == 'ÿ' then ['Ÿ']
    else if c == 'µ' then ['Μ']
    else [c]
  }

  /** Upper-casing a capital gives it back: every character UpperCase produces is its own upper case. */
  lemma UpperCaseIdempotent(c: char)
    ensures forall i :: 0 <= i < |UpperCase(c)| ==> UpperCase(UpperCase(c)[i]) == [UpperCase(c)[i]]
  {
  }

  lemma UpperCaseExamples()
    ensures UpperCase('é') == "É" && UpperCase('ç') == "Ç" && UpperCase('a') == "A"
    ensures UpperCase('ß') == "SS" && UpperCase('÷') == "÷" && UpperCase('1') == "1"
  {
  }

  function LowerStr(s: string): (r: string)
    ensures |r| == |s|
  {
    seq(|s|, i requires 0 <= i < |s| => Lower(s[i]))
  }

  /** String.prototype.includes: `t` occurs as a contiguous piece of `s`. */
  predicate IsSubstring(t: string, s: string)
    decreases |s|
  {
    t <= s || (s != [] && IsSubstring(t, s[1..]))
  }

  /** `s.toLowerCase().includes(term.toLowerCase())`. */
  predicate ContainsIgnoringCase(s: string, term: string)
  {
    IsSubstring(LowerStr(term), LowerStr(s))
  }

  /** Every string contains the empty search term. */
  lemma EmptyTermMatches(s: string)
    ensures ContainsIgnoringCase(s, "")
  {
    assert LowerStr("") <= LowerStr(s);
  }

  /** Every string contains itself, whatever the case of its letters. */
  lemma ContainsItself(s: string)
    ensures ContainsIgnoringCase(s, s)
  {

  }

  /** `s.split(' ')[0]`: the text before the first space, or all of `s`. */
  function FirstToken(s: string): (r: string)
    ensures r <= s
    ensures ' ' !in r
    ensures |r| < |s| ==> s[|r|] == ' '
  {
    if s == [] || s[0] == ' ' then [] else [s[0]] + FirstToken(s[1..])
  }

  /** The characters String.prototype.trim removes (ASCII set plus NBSP and BOM). */
  predicate IsSpace(c: char)
  {
    c == ' ' || c == '\t' || c == '\n' || c == '\r' || c == '\U{000B}' || c == '\U{000C}'
    || c == '\U{00A0}' || c == '\U{FEFF}'
  }

  function TrimStart(s: string): (r: string)
    ensures r == [] || !IsSpace(r[0])
    ensures |r| <= |s| && r == s[|s| - |r|..]
    ensures forall i :: 0 <= i < |s| - |r| ==> IsSpace(s[i])
  {
    if s != [] && IsSpace(s[0]) then TrimStart(s[1..]) else s
  }

  function TrimEnd(s: string): (r: string)
    ensures r == [] || !IsSpace(r[|r| - 1])
    ensures |r| <= |s| && r == s[..|r|]
    ensures forall i :: |r| <= i < |s| ==> IsSpace(s[i])
  {
    if s != [] && IsSpace(s[|s| - 1]) then TrimEnd(s[..|s| - 1]) else s
  }

  /** String.prototype.trim. */
  function Trim(s: string): string
  {
    TrimEnd(TrimStart(s))
  }

  /** A string trims to nothing exactly when it is all white space. */
  lemma TrimEmptyIff(s: string)
    ensures Trim(s) == "" <==> forall i :: 0 <= i < |s| ==> IsSpace(s[i])
  {
    var a := TrimStart(s);
    if !forall i :: 0 <= i < |s| ==> IsSpace(s[i]) {
      var i :| 0 <= i < |s| && !IsSpace(s[i]);
      assert |a| > 0;
      assert a[0] == s[|s| - |a|];
    }
  }

  /** Trimming leaves nothing to trim. */
  lemma TrimIdempotent(s: string)
    ensures Trim(Trim(s)) == Trim(s)
  {
  }

  function Digit(d: nat): (c: char)
    requires d < 10
    ensures '0' <= c <= '9'
  {
    ['0', '1', '2', '3', '4', '5', '6', '7', '8', '9'][d]
  }

  predicate IsDigit(c: char)
  {
    '0' <= c <= '9'
  }

  /** The decimal rendering of a natural number (template literals, toString). */
  function NatToString(n: nat): (r: string)
    ensures |r| >= 1
    ensures forall i :: 0 <= i < |r| ==> IsDigit(r[i])
    ensures n < 10 ==> r == [Digit(n)]
  {
    if n < 10 then [Digit(n)] else NatToString(n / 10) + [Digit(n % 10)]
  }

  /** Array.prototype.join. */
  function Join(parts: seq<string>, sep: string): string
    decreases |parts|
  {
    if parts == [] then ""
    else if |parts| == 1 then parts[0]
    else Join(parts[..|parts| - 1], sep) + sep + parts[|parts| - 1]
  }

  /** The default order of Array.prototype.sort on strings: lexicographic by character code. */
  predicate StringLe(a: string, b: string)
    decreases |a|
  {
    a == [] || (b != [] && (a[0] < b[0] || (a[0] == b[0] && StringLe(a[1..], b[1..]))))
  }

  lemma {:induction false} StringLeTotal(a: string, b: string)
    ensures StringLe(a, b) || StringLe(b, a)
    decreases |a|
  {
    if a != [] && b != [] && a[0] == b[0] {
      StringLeTotal(a[1..], b[1..]);
    }
  }

  lemma {:induction false} StringLeTransitive(a: string, b: string, c: string)
    requires StringLe(a, b) && StringLe(b, c)
    ensures StringLe(a, c)
    decreases |a|
  {
    if a != [] && b != [] && c != [] && a[0] == b[0] && b[0] == c[0] {
      StringLeTransitive(a[1..], b[1..], c[1..]);
    }
  }

  /** `names.sort()` on strings. */
  function SortStrings(names: seq<string>): seq<string>
  {
    Seqs.InsertionSort(names, StringLe)
  }

  /** The default string sort returns the same names, in ascending order. */
  lemma SortStringsCorrect(names: seq<string>)
    ensures Seqs.SortedBy(SortStrings(names), StringLe)
    ensures multiset(SortStrings(names)) == multiset(names)
  {
    forall a, b
      ensures StringLe(a, b) || StringLe(b, a)
    {
      StringLeTotal(a, b);
    }
    forall a, b, c | StringLe(a, b) && StringLe(b, c)
      ensures StringLe(a, c)
    {
      StringLeTransitive(a, b, c);
    }
    Seqs.InsertionSortCorrect(names, StringLe);
  }
}

=== FILE: user_dashboard.dfy ===
/**
 * The user's dashboard: the reports the logged-in user filed, each on a card
 * where the rating, the rebuttal to the company's reply and the "would buy
 * again" answer can be changed and saved. Rejected reports are read-only,
 * and the rebuttal can only be written once the company has replied.
 */
module UserDashboard {
  import opened Domain
  import Seqs

  function SubmittedBy(email: string): Submission -> bool
  {
    (p: Submission) => p.submitterEmail == email
  }

  /** `userProjects`: the reports filed under the user's e-mail, in order. */
  function UserProjects(allProjects: seq<Submission>, currentUser: User): seq<Submission>
  {
    Seqs.Filter(allProjects, SubmittedBy(currentUser.email))
  }

  /** A report is listed exactly when the user filed it, and the list keeps the order of the reports. */
  lemma UserProjectsSpec(allProjects: seq<Submission>, currentUser: User)
    ensures forall p :: p in UserProjects(allProjects, currentUser)
                        <==> p in allProjects && p.submitterEmail == currentUser.email
    ensures Seqs.IsSubsequence(UserProjects(allProjects, currentUser), allProjects)
  {
    Seqs.FilterIsSubsequence(allProjects, SubmittedBy(currentUser.email));
  }

  /** The status badge: "Pendente" for a pending report, the status's own name otherwise. */
  function StatusLabel(s: Status): (text: string)
    ensures text == "Pendente" <==> s == Pending
  {
    match s
    case Pending => "Pendente"
    case Approved => "Approved"
    case Rejected => "Rejected"
  }

  /** The editing controls are shown for every report that is not rejected. */
  predicate EditingShown(p: Submission)
  {
    p.status != Rejected
  }

  /** The rebuttal box is enabled once the company has replied. */
  predicate RebuttalEnabled(p: Submission)
  {
    Present(p.companyReply)
  }

  /** What a card holds: the rating, the rebuttal and the answer being edited. */
  datatype CardState = CardState(rating: real, rebuttal: string, wouldBuyAgain: bool)

  /** The card starts from the report: an unset rebuttal is "" and an unset answer is `true`. */
  function InitialCard(p: Submission): (c: CardState)
    ensures c.rating == p.rating
    ensures c.rebuttal == "" <==> !Present(p.userRebuttal)
    ensures p.wouldBuyAgain.Some? ==> c.wouldBuyAgain == p.wouldBuyAgain.value
    ensures p.wouldBuyAgain.None? ==> c.wouldBuyAgain
  {
    CardState(p.rating, OrEmpty(p.userRebuttal),
              if p.wouldBuyAgain.Some? then p.wouldBuyAgain.value else true)
  }

  /** The report as the controller stores it after a card is saved. */
  function SavedReport(p: Submission, c: CardState): Submission
  {
    p.(rating := c.rating, userRebuttal := Some(c.rebuttal), wouldBuyAgain := Some(c.wouldBuyAgain))
  }

  /**
   * Saving a card nobody touched keeps the rating and whether there is a
   * rebuttal, but an unanswered "would buy again" is stored as a yes.
   */
  lemma UntouchedSaveAnswersYes(p: Submission)
    ensures SavedReport(p, InitialCard(p)).rating == p.rating
    ensures Present(SavedReport(p, InitialCard(p)).userRebuttal) <==> Present(p.userRebuttal)
    ensures p.wouldBuyAgain.None? ==> SavedReport(p, InitialCard(p)).wouldBuyAgain == Some(true)
    ensures p.wouldBuyAgain.Some? ==> SavedReport(p, InitialCard(p)).wouldBuyAgain == p.wouldBuyAgain
    ensures SavedReport(p, InitialCard(p)).(userRebuttal := p.userRebuttal, wouldBuyAgain := p.wouldBuyAgain) == p
  {
  }

  /** UserSubmissionCard. */
  class SubmissionCard {
    const project: Submission
    var rating: real
    var rebuttal: string
    var wouldBuyAgain: bool

    function State(): CardState
      reads this
    {
      CardState(rating, rebuttal, wouldBuyAgain)
    }

    constructor (project: Submission)
      ensures this.project == project
      ensures State() == InitialCard(project)
    {
      this.project := project;
      rating := project.rating;
      rebuttal := if project.userRebuttal.Some? then project.userRebuttal.value else "";
      wouldBuyAgain := if project.wouldBuyAgain.Some? then project.wouldBuyAgain.value else true;
    }

    /** The star input's change, available only on cards that show the controls. */
    method SetRating(r: real)
      requires EditingShown(project)
      modifies this
      ensures State() == old(State()).(rating := r)
    {
      rating := r;
    }

    /** Typing a rebuttal, possible only once the company has replied. */
    method SetRebuttal(text: string)
      requires EditingShown(project) && RebuttalEnabled(project)
      modifies this
      ensures State() == old(State()).(rebuttal := text)
    {
      rebuttal := text;
    }

    /** The "would buy again" switch. */
    method ToggleWouldBuyAgain()
      requires EditingShown(project)
      modifies this
      ensures State() == old(State()).(wouldBuyAgain := !old(wouldBuyAgain))
    {
      wouldBuyAgain := !wouldBuyAgain;
    }

    /** `handleSave`: the card's state goes to the controller as it is. */
    method Save() returns (id: string, r: real, text: string, answer: bool)
      requires EditingShown(project)
      ensures id == project.id && CardState(r, text, answer) == State()
    {
      id, r, text, answer := project.id, rating, rebuttal, wouldBuyAgain;
    }
  }
}
